=== FILE: README.md ===
# idworker-client core in Dafny

This project models the core of the Java library `idworker-client`. The library has three parts.

**Snowflake id generator.** `IdWorker` packs a millisecond timestamp, a worker id and a per-millisecond sequence into one 64-bit `long`. `IdWorkerInt` is the narrow variant: it uses 5 bits each for the worker id and the sequence, then truncates the id to a non-negative 32-bit `int`.

**Worker-id allocator.** `DefaultWorkerIdStrategy` claims a worker id by locking a file named `<ip>.<user>.lock.<4 digits>` in a shared directory. It works through tiers:
1. a local scan of the directory;
2. a sync with a coordinator, followed by a second scan;
3. the coordinator's `/inc` reply;
4. the low bits of the host address;
5. random candidates.

The facade `Id` installs one allocator and builds a generator from the id it obtains.

**Random-code strategy.** `DefaultRandomCodeStrategy` hands out random codes, each paired with the numbered prefix in force when it was generated; no (prefix, code) pair is issued twice. A `ScalableBloomFilter` per prefix remembers the codes already issued. That filter is a growing list of `SlicedBloomFilter`s, which share the argument checks of `BloomFilter`.

Java's `long`/`int` arithmetic is modelled on unbounded integers, with the wrap-around written out. `ToLong`, `ToInt`, the bitwise operators and the shifts live in `java_bits.dfy`. `String.format("%04d")`, `Long.parseLong` and `String.split` live in `java_text.dfy`.

Everything outside the program becomes an explicit input:
- the clock: the readings each call sees;
- `SecureRandom`: the draws;
- the coordinator's replies;
- the host's address and user name;
- the files on disk: a directory listing plus a map from lock file to the holder of its lock;
- the prefix files of the code strategy: what preparing each prefix finds;
- the Murmur2 hash pair and the floating-point sizing of the filters.

Each module follows one Java class:

| file | module | source |
|---|---|---|
| `java_bits.dfy` | `JavaBits` | Java `long`/`int` semantics |
| `java_text.dfy` | `JavaText` | Java string formatting, parsing, splitting |
| `id_worker.dfy` | `IdWorker` | `IdWorker`, `IdWorkerInt` |
| `worker_id_strategy.dfy` | `WorkerIdStrategy` | `DefaultWorkerIdStrategy` |
| `id_facade.dfy` | `IdFacade` | `Id` |
| `sliced_bloom.dfy` | `SlicedBloom` | `BloomFilter`, `SlicedBloomFilter` |
| `scalable_bloom.dfy` | `ScalableBloom` | `ScalableBloomFilter` |
| `random_code.dfy` | `RandomCode` | `DefaultRandomCodeStrategy` |

Notes on the code's behaviour:
- **Timestamp width.** The default layout leaves 42 timestamp bits above the 21 worker and sequence bits (63 − 21).
- **Random tier.** The candidates are `lip & nextInt(1023)`. They may repeat, they never exceed the draw, and there are at most 1023 attempts.
- **Id returned by `checkAvail`.** It returns the id of the first free lock file in listing order. That is not necessarily the candidate it created.
- **Facade operations.** `Id` offers only `configure` and `next`.
- **Failed `configure`.** When `initialize` throws, the new allocator stays installed and the previous generator stays in use. The swap is not all-or-nothing.

## Model

| member | source | states |
|---|---|---|
| IdWorker.LayoutConstants | src/main/java/org/n3r/idworker/IdWorker.java:25-32 | `-1L ^ (-1L << bits)` is 2^bits − 1 for the worker id and the sequence, and the timestamp shift is the sum of the two bit counts |
| IdWorker.DefaultLayoutConstants | src/main/java/org/n3r/idworker/IdWorker.java:44-50 | the default generator has max worker id 1023, sequence mask 2047, shifts 11 and 21 |
| IdWorker.NarrowLayoutConstants | src/main/java/org/n3r/idworker/IdWorkerInt.java:9-17 | the narrow generator has max worker id 31, sequence mask 31, shifts 5 and 10 |
| IdWorker.CheckWorkerId | src/main/java/org/n3r/idworker/IdWorker.java:52-61 | an id in [0, maxWorkerId] is kept, any other is replaced by the random draw, and the result is always in range |
| IdWorker.NewWorker | src/main/java/org/n3r/idworker/IdWorker.java:25-38 | a new generator has issued nothing (lastMillis −1, sequence 0), satisfies the generator invariant and keeps an in-range worker id |
| IdWorker.NewNarrowWorker | src/main/java/org/n3r/idworker/IdWorkerInt.java:5-7 | the narrow generator's worker id is the given id modulo 32, also for negative ids, so the random fallback never applies |
| IdWorker.NarrowMask | src/main/java/org/n3r/idworker/IdWorkerInt.java:5-7 | `workerId & ~(-1L << 5)` is workerId mod 32, inside [0, 31] |
| IdWorker.ComposeValue | src/main/java/org/n3r/idworker/IdWorker.java:80-84 | for fields that fit their slots the OR of the shifted fields is their positional sum and a non-negative long |
| IdWorker.DecodeCompose | src/main/java/org/n3r/idworker/IdWorker.java:80-84 | shifting and masking an id recovers the timestamp, worker id and sequence it was composed from |
| IdWorker.ComposeOrdered | src/main/java/org/n3r/idworker/IdWorker.java:80-84 | for one worker id, a later (timestamp, sequence) in lexicographic order gives a strictly larger id |
| IdWorker.ComposePositive | src/main/java/org/n3r/idworker/IdWorker.java:80-84 | a timestamp after the epoch gives a positive id |
| IdWorker.FirstAfter | src/main/java/org/n3r/idworker/IdWorker.java:87-93 | finds the first reading strictly after lastMillis, every earlier reading being at or before it, or reports that none passes it |
| IdWorker.TilNextMillis | src/main/java/org/n3r/idworker/IdWorker.java:87-93 | the waiting loop returns a reading later than lastMillis and the readings after it; it has no answer exactly when no reading passes lastMillis |
| IdWorker.NextSequence | src/main/java/org/n3r/idworker/IdWorker.java:73 | `(sequence + 1) & sequenceMask` is the successor modulo 2^sequenceBits |
| IdWorker.NextId | src/main/java/org/n3r/idworker/IdWorker.java:63-85 | the call issues an id exactly when the first reading is not behind lastMillis and, if the sequence wraps in that millisecond, a later reading arrives; it fails with the clock error exactly when the first reading is behind lastMillis, and a failure leaves the state unchanged; a new millisecond restarts the sequence at 0; the same millisecond takes the next sequence; a wrap to 0 waits for a later reading; the id is the composition of the stored timestamp and sequence |
| IdWorker.NextIdAdvances | src/main/java/org/n3r/idworker/IdWorker.java:63-85 | every issued id moves (lastMillis, sequence) strictly forward in lexicographic order and keeps the invariant |
| IdWorker.IssuedMillisIsReading | src/main/java/org/n3r/idworker/IdWorker.java:64-80 | the stored timestamp is one of the readings of the call |
| IdWorker.IssuedIdDecodes | src/main/java/org/n3r/idworker/IdWorker.java:80-84 | an id issued inside the timestamp span decodes to its timestamp, worker id and sequence, is a non-negative long, and is positive after the epoch |
| IdWorker.LastIdOrdered | src/main/java/org/n3r/idworker/IdWorker.java:80-84 | of two states of one generator, the one further along has issued the larger id |
| IdWorker.NextIdIncreasing | src/main/java/org/n3r/idworker/IdWorker.java:63-85 | under a clock that does not go back, the next id is larger than the last one |
| IdWorker.Run | src/main/java/org/n3r/idworker/IdWorker.java:63-85 | successive calls keep the layout and worker id fixed (final fields) and issue at most one id per call, and exactly one per call if and only if every call, from the state the previous calls left, is answered |
| IdWorker.MovingClockAnswered | src/main/java/org/n3r/idworker/IdWorker.java:63-85 | when every call's first reading is later than lastMillis and than every reading of the calls before it, every call issues an id |
| IdWorker.StepWithin | src/main/java/org/n3r/idworker/IdWorker.java:63-85 | one call under readings in a window keeps the state in that window, re-establishes the invariant, and issues an id that decodes inside the window and exceeds the previous one |
| IdWorker.LastIdDecodes | src/main/java/org/n3r/idworker/IdWorker.java:80-84 | the last id of a state in a window decodes to a timestamp in that window and this worker id |
| IdWorker.RunIncreasing | src/main/java/org/n3r/idworker/IdWorker.java:63-85 | over any run with readings inside the span, the ids are strictly increasing, hence unique, exceed the last id issued before, and decode to this worker id and a timestamp among the readings' window |
| IdWorker.Narrow | src/main/java/org/n3r/idworker/IdWorkerInt.java:19-22 | `((int) id << 1) >>> 1` keeps the low 31 bits: a non-negative int |
| IdWorker.NextIdInt | src/main/java/org/n3r/idworker/IdWorkerInt.java:19-22 | the narrow call moves the generator exactly as `nextId` does and returns that id modulo 2^31 |
| IdWorker.NarrowFields | src/main/java/org/n3r/idworker/IdWorkerInt.java:19-22 | a narrowed id holds the timestamp modulo 2^21 above the worker id and sequence |
| IdWorker.NarrowCollision | src/main/java/org/n3r/idworker/IdWorkerInt.java:19-22 | two narrowed ids of one worker are equal exactly when their timestamps agree modulo 2^21 ms and their sequences agree, so 32-bit ids repeat after about 35 minutes |
| IdWorker.RunInt | src/main/java/org/n3r/idworker/IdWorkerInt.java:19-22 | a run of narrow calls evolves the generator as a run of `nextId` and returns each of its ids modulo 2^31 |
| IdWorker.RunIntDistinct | src/main/java/org/n3r/idworker/IdWorkerInt.java:19-22 | while all readings lie in one window of 2^21 ms, the 32-bit ids of one generator are pairwise distinct |
| IdWorker.NarrowPairDistinct | src/main/java/org/n3r/idworker/IdWorkerInt.java:19-22 | two different ids of one worker whose timestamps share a 2^21 window differ in their low 31 bits |
| JavaText.FormatZeroPadded | src/main/java/org/n3r/idworker/strategy/DefaultWorkerIdStrategy.java:105 | `%0<w>d` gives at least w characters: the decimal digits of n, after a minus sign when n is negative |
| JavaText.ParseLong | src/main/java/org/n3r/idworker/strategy/DefaultWorkerIdStrategy.java:79 | `Long.parseLong` accepts an all-digit string exactly when its value is a long and then returns that value; a non-digit after the first character is rejected; only a leading minus gives a negative result |
| JavaText.ParseFormatted | src/main/java/org/n3r/idworker/strategy/DefaultWorkerIdStrategy.java:105 | `Long.parseLong` reads back every long formatted with `%0<w>d` |
| JavaText.FourDigitsExactly | src/main/java/org/n3r/idworker/strategy/DefaultWorkerIdStrategy.java:105 | `%04d` gives exactly four digits if and only if the number is in [0, 9999] |
| JavaText.FourDigitsCanonical | src/main/java/org/n3r/idworker/strategy/DefaultWorkerIdStrategy.java:157-167 | every four-digit suffix is the `%04d` spelling of its parsed value |
| JavaText.SplitAllNoSep | src/main/java/org/n3r/idworker/strategy/DefaultWorkerIdStrategy.java:120 | a string without the separator is one piece |
| JavaText.JavaSplit | src/main/java/org/n3r/idworker/strategy/DefaultWorkerIdStrategy.java:120 | `split` keeps the pieces between separators in order and drops only trailing empty pieces; no piece holds the separator; a string without it comes back whole |
| JavaText.JoinSplitAll | src/main/java/org/n3r/idworker/strategy/DefaultWorkerIdStrategy.java:120 | joining the comma-separated pieces gives back the string |
| JavaText.SplitJoin | src/main/java/org/n3r/idworker/strategy/DefaultWorkerIdStrategy.java:116-120 | non-empty comma-free pieces joined with commas split back into the same pieces |
| WorkerIdStrategy.MaxWorkerIdValue | src/main/java/org/n3r/idworker/strategy/DefaultWorkerIdStrategy.java:16-17 | `-1L ^ (-1L << 10)` is 1023 |
| WorkerIdStrategy.LockName | src/main/java/org/n3r/idworker/strategy/DefaultWorkerIdStrategy.java:105 | the lock file of wid starts with `<ip>.<user>.lock.` and ends in at least four characters, which for a non-negative wid are digits spelling wid |
| WorkerIdStrategy.WorkerIdOfName | src/main/java/org/n3r/idworker/strategy/DefaultWorkerIdStrategy.java:157-167 | the id parsed from a recognised lock file lies in [0, 9999] |
| WorkerIdStrategy.LockNameRecognised | src/main/java/org/n3r/idworker/strategy/DefaultWorkerIdStrategy.java:102-112 | the file `checkAvail(wid)` creates is one the scan accepts if and only if wid is in [0, 9999], and it then parses back to wid |
| WorkerIdStrategy.RecognisedIsLockName | src/main/java/org/n3r/idworker/strategy/DefaultWorkerIdStrategy.java:155-158 | every file the scan accepts is the lock file of the id it parses to |
| WorkerIdStrategy.WorkerIdOfNameInjective | src/main/java/org/n3r/idworker/strategy/DefaultWorkerIdStrategy.java:155-167 | distinct accepted files carry distinct ids |
| WorkerIdStrategy.CreateNewFile | src/main/java/org/n3r/idworker/strategy/DefaultWorkerIdStrategy.java:105 | afterwards the file exists; nothing else changes, and an existing file is left alone |
| WorkerIdStrategy.FirstFree | src/main/java/org/n3r/idworker/strategy/DefaultWorkerIdStrategy.java:153-164 | finds the first accepted unlocked file in listing order, or reports that none exists |
| WorkerIdStrategy.FindAvail | src/main/java/org/n3r/idworker/strategy/DefaultWorkerIdStrategy.java:152-171 | an id is found if and only if some accepted file is unlocked; the strategy then holds that file's lock and returns its id; a miss returns −1 and changes nothing |
| WorkerIdStrategy.FindAvailTakesFirst | src/main/java/org/n3r/idworker/strategy/DefaultWorkerIdStrategy.java:152-171 | the scan takes the first free file in listing order |
| WorkerIdStrategy.CreatedIsFree | src/main/java/org/n3r/idworker/strategy/DefaultWorkerIdStrategy.java:102-112 | the file created for an unlocked four-digit id is free for the scan |
| WorkerIdStrategy.CheckAvail | src/main/java/org/n3r/idworker/strategy/DefaultWorkerIdStrategy.java:102-112 | `checkAvail` creates the candidate's file, then scans; it succeeds whenever the candidate is an unlocked four-digit id |
| WorkerIdStrategy.CheckAvailAfterMiss | src/main/java/org/n3r/idworker/strategy/DefaultWorkerIdStrategy.java:102-112 | once nothing in the directory is free, `checkAvail(wid)` for wid in [0, 9999] succeeds if and only if the lock file of wid is not held, and it then returns wid |
| WorkerIdStrategy.IncreaseWithWorkerIdServer | src/main/java/org/n3r/idworker/strategy/DefaultWorkerIdStrategy.java:72-82 | a missing or blank reply gives −1; the call throws if and only if a non-blank reply does not parse as a long; otherwise the parsed value goes unchecked to `checkAvail` |
| WorkerIdStrategy.IpCandidate | src/main/java/org/n3r/idworker/strategy/DefaultWorkerIdStrategy.java:85 | `lip & maxWorkerId` is lip modulo 1024 |
| WorkerIdStrategy.TryToCreateOnIp | src/main/java/org/n3r/idworker/strategy/DefaultWorkerIdStrategy.java:84-88 | the address candidate is claimed whenever its lock file is not held |
| WorkerIdStrategy.RandomCandidate | src/main/java/org/n3r/idworker/strategy/DefaultWorkerIdStrategy.java:95 | `lip & draw` never exceeds the draw |
| WorkerIdStrategy.RandomFrom | src/main/java/org/n3r/idworker/strategy/DefaultWorkerIdStrategy.java:90-100 | the loop makes at most 1023 attempts, stops at its first success (a successful first attempt is the result), fails only after using all of them, and every outcome is a sound allocation step |
| WorkerIdStrategy.FirstUnheld | src/main/java/org/n3r/idworker/strategy/DefaultWorkerIdStrategy.java:90-100 | the first attempt from t on whose candidate's lock is not held: every attempt before it is held, or it is 1023 |
| WorkerIdStrategy.RandomAttempt | src/main/java/org/n3r/idworker/strategy/DefaultWorkerIdStrategy.java:94-97 | one attempt either succeeds and ends the loop, or hits a held candidate, keeps the locks and leaves nothing free |
| WorkerIdStrategy.RandomFromHeld | src/main/java/org/n3r/idworker/strategy/DefaultWorkerIdStrategy.java:90-100 | the loop never runs past the first candidate whose lock is not held, and a failure means every candidate's lock was held |
| WorkerIdStrategy.RandomFromClaims | src/main/java/org/n3r/idworker/strategy/DefaultWorkerIdStrategy.java:90-100 | with nothing free in the directory, the loop fails if and only if every candidate's lock is held, and otherwise claims the first unheld candidate after exactly that many attempts |
| WorkerIdStrategy.TryToRandomOnIp | src/main/java/org/n3r/idworker/strategy/DefaultWorkerIdStrategy.java:90-100 | makes between 1 and 1023 attempts and fails only after all 1023; a successful first attempt is the result; it stops by the first candidate whose lock is not held and fails only if all are held, exactly so when nothing in the directory is free, and then claims that candidate; every outcome is a sound allocation step |
| WorkerIdStrategy.CreateAll | src/main/java/org/n3r/idworker/strategy/DefaultWorkerIdStrategy.java:121-127 | every piece's file exists afterwards; files are only added and locks are untouched |
| WorkerIdStrategy.SyncWithWorkerIdServer | src/main/java/org/n3r/idworker/strategy/DefaultWorkerIdStrategy.java:114-128 | a missing or blank reply changes nothing; otherwise a lock file exists for every comma-separated id in the reply |
| WorkerIdStrategy.RecognisedSuffixes | src/main/java/org/n3r/idworker/strategy/DefaultWorkerIdStrategy.java:132-141 | every suffix reported is four digits and comes from a file of this host in the directory |
| WorkerIdStrategy.BuildWorkerIdsOfCurrentIp | src/main/java/org/n3r/idworker/strategy/DefaultWorkerIdStrategy.java:130-144 | the `ids` parameter is empty exactly when the host has no four-digit lock file, and otherwise splits back into exactly those suffixes in listing order |
| WorkerIdStrategy.FallbackTiers | src/main/java/org/n3r/idworker/strategy/DefaultWorkerIdStrategy.java:60-69 | a found id is kept; otherwise a claimed IP candidate is the result, and only then the random tier runs; "the world may be ended" is the only error and is thrown if and only if all three miss; every outcome is sound |
| WorkerIdStrategy.FallbackClaims | src/main/java/org/n3r/idworker/strategy/DefaultWorkerIdStrategy.java:60-69 | with nothing free in the directory, the IP candidate is claimed when its lock is not held, otherwise the first random candidate whose lock is not held; the world ends if and only if the IP candidate's and every random candidate's locks are held |
| WorkerIdStrategy.Init | src/main/java/org/n3r/idworker/strategy/DefaultWorkerIdStrategy.java:36-70 | an exception is thrown only after the first scan missed; in every outcome of `init`, files and other owners' locks are kept. Success means a non-negative id backed by a lock this strategy holds on the file naming it. Failure takes no lock |
| WorkerIdStrategy.InitLocalFirst | src/main/java/org/n3r/idworker/strategy/DefaultWorkerIdStrategy.java:40-41 | when the local scan finds a free file, `init` claims the first one without consulting the coordinator or the random source |
| WorkerIdStrategy.InitWorldEnded | src/main/java/org/n3r/idworker/strategy/DefaultWorkerIdStrategy.java:36-70 | `init` throws "the world may be ended" if and only if both scans miss, `/inc` yields no id, the IP candidate's lock is held and every random candidate's lock is held |
| WorkerIdStrategy.InitTiers | src/main/java/org/n3r/idworker/strategy/DefaultWorkerIdStrategy.java:54-60 | after the first scan misses, a hit in the scan after the sync is `init`'s result; otherwise, when `/inc` returns normally, the remaining tiers start from its result, so an id `/inc` claims is kept before the IP candidate is tried |
| WorkerIdStrategy.InitNumberFormat | src/main/java/org/n3r/idworker/strategy/DefaultWorkerIdStrategy.java:54-82 | `init` throws NumberFormatException if and only if both scans miss and `/inc` answers a non-blank non-number |
| WorkerIdStrategy.Initialize | src/main/java/org/n3r/idworker/strategy/DefaultWorkerIdStrategy.java:173-178 | a second `initialize` is a no-op; `inited` is set if and only if `init` returned normally |
| WorkerIdStrategy.Release | src/main/java/org/n3r/idworker/strategy/DefaultWorkerIdStrategy.java:185-189 | `release` clears `inited` and drops this strategy's own lock; it adds no lock, and every other lock, including any other lock of the same owner, stays with its holder |
| WorkerIdStrategy.ReleaseIdempotent | src/main/java/org/n3r/idworker/strategy/DefaultWorkerIdStrategy.java:185-189 | releasing twice is the same as releasing once |
| WorkerIdStrategy.ReleaseFreesClaim | src/main/java/org/n3r/idworker/strategy/DefaultWorkerIdStrategy.java:173-189 | after a successful `initialize` and a `release`, the claimed file is free again and the next `initialize` runs `init` afresh |
| WorkerIdStrategy.TwoStrategiesDistinct | src/main/java/org/n3r/idworker/strategy/DefaultWorkerIdStrategy.java:152-171 | two allocators of one host initialised one after the other in one directory never obtain the same id |
| WorkerIdStrategy.ClaimsExistingFile | src/main/java/org/n3r/idworker/strategy/DefaultWorkerIdStrategy.java:152-171 | a directory holding a single unlocked `...lock.0112` file yields worker id 112 |
| IdFacade.ReleaseCurrent | src/main/java/org/n3r/idworker/Id.java:15 | releasing the installed allocator keeps the facade well formed and the generator in place |
| IdFacade.Configure | src/main/java/org/n3r/idworker/Id.java:13-20 | configuring the installed allocator again is a no-op; any other allocator becomes the installed one; when `initialize` throws, the old generator stays |
| IdFacade.Next | src/main/java/org/n3r/idworker/Id.java:22-24 | `next` is the installed generator's `nextId`: the same id, the same clock error, and the generator's new state kept |
| IdFacade.Boot | src/main/java/org/n3r/idworker/Id.java:9-11 | the static initializer installs the default allocator |
| IdFacade.ConfigureInstalls | src/main/java/org/n3r/idworker/Id.java:13-20 | a successful `configure` of an allocator other than the installed one installs a fresh default-layout generator carrying the allocator's id when it is in [0, 1023]; an allocator not yet initialised ends initialised and holding the lock of its id; an initialised one is left alone, and the call then only releases the previous allocator |
| IdFacade.ConfigureReleasesOld | src/main/java/org/n3r/idworker/Id.java:15-17 | switching allocators leaves the previous one uninitialised and holding no lock |
| IdFacade.InitSoundAny | src/main/java/org/n3r/idworker/strategy/DefaultWorkerIdStrategy.java:173-178 | `initialize` in any state keeps other owners' locks and adds only its own |
| IdFacade.NextIncreasing | src/main/java/org/n3r/idworker/Id.java:22-24 | two successive `next` calls under readings inside the span return increasing ids |
| SlicedBloom.CheckArguments | src/main/java/org/n3r/idworker/bloomfilter/BloomFilter.java:29-41 | the base constructor accepts if and only if capacity > 0 and 0 < fpp < 1, and it reports the capacity error first |
| SlicedBloom.Bucket | src/main/java/org/n3r/idworker/bloomfilter/SlicedBloomFilter.java:229 | `Math.abs((h1 + i*h2) % max)` lies in [0, \|max\|) despite int wrap-around |
| SlicedBloom.GetHashBuckets | src/main/java/org/n3r/idworker/bloomfilter/SlicedBloomFilter.java:218-232 | gives hashCount buckets, each in [0, \|max\|) |
| SlicedBloom.GetHashBucketsAre | src/main/java/org/n3r/idworker/bloomfilter/SlicedBloomFilter.java:228-230 | bucket i is the i-th term of the double-hashing sequence, whatever the number of buckets |
| SlicedBloom.BucketCongruent | src/main/java/org/n3r/idworker/bloomfilter/SlicedBloomFilter.java:229 | for a power-of-two width of at most 2^30, bucket i is congruent to ±(h1 + i*h2) despite the wrap-around |
| SlicedBloom.Buckets | src/main/java/org/n3r/idworker/bloomfilter/SlicedBloomFilter.java:139-142 | an element has one bucket per slice, each inside the slice width |
| SlicedBloom.SlotInSlice | src/main/java/org/n3r/idworker/bloomfilter/SlicedBloomFilter.java:144-148 | the bit `offset + k` chosen for slice j lies inside slice j |
| SlicedBloom.ContainsFrom | src/main/java/org/n3r/idworker/bloomfilter/SlicedBloomFilter.java:162-170 | the loop answers true if and only if every remaining slot is set |
| SlicedBloom.Contains | src/main/java/org/n3r/idworker/bloomfilter/SlicedBloomFilter.java:156-171 | `contains` holds if and only if every bit the element would set is set |
| SlicedBloom.MarksInside | src/main/java/org/n3r/idworker/bloomfilter/SlicedBloomFilter.java:144-148 | every bit an element sets lies inside the bit array |
| SlicedBloom.SetFrom | src/main/java/org/n3r/idworker/bloomfilter/SlicedBloomFilter.java:144-148 | the setting loop adds exactly the remaining slots to the bit set |
| SlicedBloom.AddWithoutCheck | src/main/java/org/n3r/idworker/bloomfilter/SlicedBloomFilter.java:134-151 | the call throws if and only if the filter is full; otherwise it sets exactly the element's bits, clears none and counts one more |
| SlicedBloom.Add | src/main/java/org/n3r/idworker/bloomfilter/SlicedBloomFilter.java:114-122 | the answer is true if and only if the element was contained, and then nothing changes. Otherwise the element is inserted and the answer is false, or the call throws because the filter is full |
| SlicedBloom.Allocate | src/main/java/org/n3r/idworker/bloomfilter/SlicedBloomFilter.java:73 | a bit array whose int size is negative is refused; otherwise the result is an empty filter of that shape |
| SlicedBloom.NewSliced | src/main/java/org/n3r/idworker/bloomfilter/SlicedBloomFilter.java:60-74 | the base checks come first; the rule-of-thumb error occurs if and only if capacity < 4/fpp; a success is an empty filter of mb slices of 2^mb bits holding n |
| SlicedBloom.NewSlicedWithCount | src/main/java/org/n3r/idworker/bloomfilter/SlicedBloomFilter.java:76-91 | the base checks come first; a success is an empty filter of slicesCount slices of `1 << slicesCount` bits |
| SlicedBloom.ShiftedWidth | src/main/java/org/n3r/idworker/bloomfilter/SlicedBloomFilter.java:82-90 | `1 << s` is 2^(s mod 32) below bit 31 and Integer.MIN_VALUE at bit 31, which makes the array size negative; the array is refused exactly when its size leaves the int range |
| SlicedBloom.AddedIsContained | src/main/java/org/n3r/idworker/bloomfilter/SlicedBloomFilter.java:134-171 | an element inserted by `addWithoutCheck` is contained afterwards |
| SlicedBloom.ContainsMonotone | src/main/java/org/n3r/idworker/bloomfilter/SlicedBloomFilter.java:156-171 | setting more bits keeps every contained element contained |
| SlicedBloom.AddKeepsContained | src/main/java/org/n3r/idworker/bloomfilter/SlicedBloomFilter.java:114-122 | whatever `add` does, a contained element stays contained |
| SlicedBloom.AddContains | src/main/java/org/n3r/idworker/bloomfilter/SlicedBloomFilter.java:114-122 | after an `add` that does not throw, the element is contained |
| SlicedBloom.DuplicateCounted | src/main/java/org/n3r/idworker/bloomfilter/SlicedBloomFilter.java:124-151 | `addWithoutCheck` of a contained element sets no new bit but still increments `size()` |
| SlicedBloom.Size | src/main/java/org/n3r/idworker/bloomfilter/SlicedBloomFilter.java:180-191 | `size()` is never negative, never exceeds a positive capacity, and `isFull()` holds exactly when it equals it |
| ScalableBloom.NewScalable | src/main/java/org/n3r/idworker/bloomfilter/ScalableBloomFilter.java:53-66 | the base checks come first; a zero tightened probability fails the rule of thumb; a success is one sliced filter built for fpp·(1 − ratio) |
| ScalableBloom.NewDefault | src/main/java/org/n3r/idworker/bloomfilter/ScalableBloomFilter.java:44-47 | the default filter uses small-set growth and starts with one component |
| ScalableBloom.ContainsBelow | src/main/java/org/n3r/idworker/bloomfilter/ScalableBloomFilter.java:93-101 | the descending loop answers true if and only if one of the components it visits contains the element |
| ScalableBloom.Contains | src/main/java/org/n3r/idworker/bloomfilter/ScalableBloomFilter.java:92-102 | `contains` holds if and only if some component contains the element |
| ScalableBloom.Grow | src/main/java/org/n3r/idworker/bloomfilter/ScalableBloomFilter.java:76-82 | growth appends one empty component with the last capacity, probability fpp·ratio and slice count plus the mode's value, or fails when the base checks refuse those arguments |
| ScalableBloom.SetLast | src/main/java/org/n3r/idworker/bloomfilter/ScalableBloomFilter.java:84 | only the last component is replaced |
| ScalableBloom.Add | src/main/java/org/n3r/idworker/bloomfilter/ScalableBloomFilter.java:71-87 | the answer is true if and only if the element was contained, and then nothing changes. A full last component first gets a successor, and the element goes into the last component. A failed construction changes nothing; a full successor stays appended |
| ScalableBloom.SizeLoop | src/main/java/org/n3r/idworker/bloomfilter/ScalableBloomFilter.java:108-112 | the summing loop equals the exact total count wrapped to an int |
| ScalableBloom.Size | src/main/java/org/n3r/idworker/bloomfilter/ScalableBloomFilter.java:107-113 | `size()` is the total number of insertions over all components, wrapped to an int |
| ScalableBloom.CapacityLoop | src/main/java/org/n3r/idworker/bloomfilter/ScalableBloomFilter.java:119-123 | the summing loop equals the exact total capacity wrapped to an int |
| ScalableBloom.Capacity | src/main/java/org/n3r/idworker/bloomfilter/ScalableBloomFilter.java:118-124 | `getCapacity()` is the sum of the component capacities, wrapped to an int |
| ScalableBloom.AddCountsOne | src/main/java/org/n3r/idworker/bloomfilter/ScalableBloomFilter.java:71-87 | inserting an absent element raises the exact total count by one |
| ScalableBloom.AddContains | src/main/java/org/n3r/idworker/bloomfilter/ScalableBloomFilter.java:71-87 | after an `add` that does not throw, the element is contained |
| ScalableBloom.AddKeepsContained | src/main/java/org/n3r/idworker/bloomfilter/ScalableBloomFilter.java:71-87 | whatever `add` does, a contained element stays contained |
| ScalableBloom.AddAll | src/main/java/org/n3r/idworker/bloomfilter/ScalableBloomFilter.java:71-87 | a run of `add` calls keeps the filter well formed and never removes a component |
| ScalableBloom.NoFalseNegatives | src/main/java/org/n3r/idworker/bloomfilter/BloomFilter.java:8-12 | after a run of `add` calls that all return normally, every added element and every element contained before is contained |
| RandomCode.Max | src/main/java/org/n3r/idworker/strategy/DefaultRandomCodeStrategy.java:187-207 | `max(size)` is 10000 for sizes 1–4, 10^size for sizes 5–9 and Integer.MAX_VALUE otherwise |
| RandomCode.HasMeans | src/main/java/org/n3r/idworker/bloomfilter/ScalableBloomFilter.java:71-75 | on a well-formed filter, `add` answers true if and only if the filter contains the code |
| RandomCode.AddStep | src/main/java/org/n3r/idworker/bloomfilter/ScalableBloomFilter.java:71-87 | adding a code keeps the filter well formed, changes nothing for a present code, and leaves the code present after a normal return |
| RandomCode.AddStepKeeps | src/main/java/org/n3r/idworker/bloomfilter/ScalableBloomFilter.java:71-87 | adding a code keeps every code already present |
| RandomCode.NewStrategy | src/main/java/org/n3r/idworker/strategy/DefaultRandomCodeStrategy.java:28-32 | a new strategy has no filter and an empty cache |
| RandomCode.TryUsePrefix | src/main/java/org/n3r/idworker/strategy/DefaultRandomCodeStrategy.java:60-104 | a prefix is taken if and only if its file and lock are obtained and its filter is new or holds at most MAX_VALUE/2 codes. A restored filter over that size is refused, though still installed. Only the filter changes |
| RandomCode.SearchFrom | src/main/java/org/n3r/idworker/strategy/DefaultRandomCodeStrategy.java:42-44 | the search moves forward in wrapping int order and every prefix skipped is refused. It ends on a taken prefix with its filter, or at Integer.MAX_VALUE |
| RandomCode.Init | src/main/java/org/n3r/idworker/strategy/DefaultRandomCodeStrategy.java:38-48 | `init` throws if and only if the search reaches Integer.MAX_VALUE. Otherwise it takes the first acceptable prefix after the current one, refusing every prefix between |
| RandomCode.RoundFrom | src/main/java/org/n3r/idworker/strategy/DefaultRandomCodeStrategy.java:170-176 | a round tries at most one code per size, counts one draw per code, and stops only on a code or an error |
| RandomCode.DrawnInRange | src/main/java/org/n3r/idworker/strategy/DefaultRandomCodeStrategy.java:174 | the code drawn at size s lies in [0, max(s)) |
| RandomCode.RoundCodes | src/main/java/org/n3r/idworker/strategy/DefaultRandomCodeStrategy.java:173-176 | the codes a round tries are the successive draws, at successive sizes |
| RandomCode.RoundPresent | src/main/java/org/n3r/idworker/strategy/DefaultRandomCodeStrategy.java:173-176 | every code tried before the last was already present. A round that finds nothing tried every size and leaves the filter unchanged |
| RandomCode.RoundLast | src/main/java/org/n3r/idworker/strategy/DefaultRandomCodeStrategy.java:173-183 | a round that stops early stops on a code whose `add` answered false, or whose `add` threw |
| RandomCode.Attempt | src/main/java/org/n3r/idworker/strategy/DefaultRandomCodeStrategy.java:164-183 | a pass calls `init` exactly when the retry counter reaches 100, then restarts the counter at 0; the sizes and cache are untouched |
| RandomCode.Rounds | src/main/java/org/n3r/idworker/strategy/DefaultRandomCodeStrategy.java:162-185 | the loop keeps the strategy well formed and its sizes and cache unchanged, and it calls `init` only if some pass was entered |
| RandomCode.RoundsPass | src/main/java/org/n3r/idworker/strategy/DefaultRandomCodeStrategy.java:164-184 | one pass followed by the rest of the loop enters at least one pass |
| RandomCode.RoundsInitCount | src/main/java/org/n3r/idworker/strategy/DefaultRandomCodeStrategy.java:163-168 | `init` runs exactly once per hundred passes entered, counting from the counter's start |
| RandomCode.InitCount | src/main/java/org/n3r/idworker/strategy/DefaultRandomCodeStrategy.java:165-167 | one more pass keeps the number of `init` calls at passes-so-far / 100 |
| RandomCode.RoundCode | src/main/java/org/n3r/idworker/strategy/DefaultRandomCodeStrategy.java:173-183 | the code a round stops on without error lies in [0, Integer.MAX_VALUE) and is now in the filter |
| RandomCode.AttemptCode | src/main/java/org/n3r/idworker/strategy/DefaultRandomCodeStrategy.java:170-183 | a code one pass returns lies in [0, Integer.MAX_VALUE) and is now in the filter |
| RandomCode.RoundsCode | src/main/java/org/n3r/idworker/strategy/DefaultRandomCodeStrategy.java:162-185 | a code the loop returns lies in [0, Integer.MAX_VALUE) and is now in the filter |
| RandomCode.GenerateOne | src/main/java/org/n3r/idworker/strategy/DefaultRandomCodeStrategy.java:162-185 | `generateOne` leaves the cache alone and keeps the strategy well formed |
| RandomCode.GenerateOneCode | src/main/java/org/n3r/idworker/strategy/DefaultRandomCodeStrategy.java:162-185 | `generateOne` returns a code in [0, Integer.MAX_VALUE) that the filter contains afterwards, and calls `init` before the 101st, 201st, … pass |
| RandomCode.Generate | src/main/java/org/n3r/idworker/strategy/DefaultRandomCodeStrategy.java:155-160 | `generate` appends the new codes to the cache in order, n of them unless a `generateOne` throws, and keeps those generated before the throw |
| RandomCode.Next | src/main/java/org/n3r/idworker/strategy/DefaultRandomCodeStrategy.java:138-143 | a non-empty cache serves its head without drawing. An empty one is refilled with 1000 codes, then serves the first of them and keeps the rest in FIFO order |
| RandomCode.StampedSnoc | src/main/java/org/n3r/idworker/strategy/DefaultRandomCodeStrategy.java:175-182 | issuing a code the current filter holds keeps the uniqueness invariant |
| RandomCode.StampedAfterInit | src/main/java/org/n3r/idworker/strategy/DefaultRandomCodeStrategy.java:42-47 | a prefix taken by `init` lies beyond every prefix used before |
| RandomCode.StampedAfterAdd | src/main/java/org/n3r/idworker/strategy/DefaultRandomCodeStrategy.java:175 | adding to the current filter keeps every code issued under the current prefix |
| RandomCode.AttemptStamped | src/main/java/org/n3r/idworker/strategy/DefaultRandomCodeStrategy.java:164-183 | a code one pass returns was never issued under its prefix, and the invariant holds with it added; only running out of prefixes breaks the invariant |
| RandomCode.RoundsStamped | src/main/java/org/n3r/idworker/strategy/DefaultRandomCodeStrategy.java:162-185 | the same over every pass of `generateOne` |
| RandomCode.GenerateOneStamped | src/main/java/org/n3r/idworker/strategy/DefaultRandomCodeStrategy.java:162-185 | the same across one `generateOne` |
| RandomCode.GenerateStamped | src/main/java/org/n3r/idworker/strategy/DefaultRandomCodeStrategy.java:155-160 | unless the prefixes ran out, one `generate` carries the invariant over to the next call, covering every code issued so far |
| RandomCode.GenerateDistinctFrom | src/main/java/org/n3r/idworker/strategy/DefaultRandomCodeStrategy.java:155-160 | the (prefix, code) pairs one `generate` issues repeat neither each other nor any pair issued before |
| RandomCode.GenerateDistinct | src/main/java/org/n3r/idworker/strategy/DefaultRandomCodeStrategy.java:155-160 | within one `generate`, no (prefix, code) pair is issued twice |

## Left out

- Concurrency is not modelled. This covers `synchronized`, the background sync thread `init` starts after a successful first scan, shutdown hooks and the atomicity of `Id.configure`. Each call is modelled as one atomic step, and the background sync is not performed.
- WorkerIdStrategy.CreateNewFile: the order of `dir.listFiles()`, which Java leaves unspecified, is modelled as creation order: a new file goes at the end and the order does not change between scans. Which of several free files a scan claims (FindAvailTakesFirst, InitTiers) follows that order.
- The file system is not modelled directly. It is a listing plus a map from lock file to holder; `createNewFile` always succeeds; `dir.mkdirs()` and its failure are not modelled, nor is the `IOException` branch of `checkAvail`.
- The coordinator's HTTP replies, `Ip.ip`, `Ip.lip` and `user.name` are inputs.
- `SecureRandom` draws are inputs constrained to the promised bounds.
- The clock is a sequence of readings per call.
- IdWorker.TilNextMillis: when no later reading arrives it reports `ClockStalled`, where the source would spin until the clock moves.
- Floating point is not modelled. `computeBounds`, the three-argument constructor's capacity formula, `Math.log`, `Math.pow` and `Math.ceil` are inputs (`mb`, `n`, `sizing`). Probabilities are reals, with no NaN or infinity beyond the zero-denominator case.
- Hashing is not modelled. `Murmur2.hash32` over the UTF-16 bytes of `Integer.toString(hashCode())` is the `hashes` parameter, and an element is its integer hash code.
- SlicedBloom.Allocate: reports `UnsupportedShape` for a shape whose slice count is negative, whose slice width is below 1, or whose product overflows to a non-negative int. The sizing formulas do not produce such shapes. The source's `BitSet` grows on `set`, so it would fail only when a wrapped `offset + k` is negative, with an `IndexOutOfBoundsException`.
- Persistence and release are not modelled:
  - `Serializes.readObject`/`writeObject`;
  - `writeBitSetToFile`;
  - `release()` and `createFileOut` of the random-code strategy.

  The outcome of preparing a prefix is the `probe` input.
- RandomCode.Inputs: the filter's `add` is an input that equals `ScalableBloom.Add` on every well-formed filter. The proofs reason through that equation, not by unfolding the filter.
- RandomCode.Rounds: `fuel` bounds the passes of `generateOne`'s `while (true)` loop. Running out is the model-only `Exhausted` error; the source would keep looping.
- RandomCode.RoundFrom: sizes are unbounded integers. `++size` wrapping past Integer.MAX_VALUE, when `maxRandomSize` is Integer.MAX_VALUE, is not modelled.
- RandomCode.GenerateStamped: uniqueness across calls is proved only while `init` has not thrown "prefixes used up". After that, the prefix index wraps and earlier prefixes can be visited again.
- `setMinRandomSize`/`setMaxRandomSize`, `prefix()`, getters, `toString` and logging are not modelled. The default sizes 5 and 10 are fields of the state.
- RandomCode.Attempt: a pass without a filter reports `NoFilter` before its size loop; in the source, a minimum size above the maximum (reachable only through the setters) would skip the loop without touching the filter and retry until the 100th pass calls `init`.
- The two-argument `ScalableBloomFilter(capacity, fpp)` constructor is not modelled separately. It is `NewScalable(SmallSetGrowth, 0.9, …)`, the same call `NewDefault` makes with fixed arguments.
- `DefaultCodeStrategy`, `DayPrefixCodeStrategy`, `Code` and the interfaces are not part of this model.
- JavaText.ParseLong: only ASCII digits are accepted. Java's `Character.digit` also accepts the other Unicode decimal digits, such as fullwidth `１２`.
- JavaText.FormatZeroPadded: `String.format` is modelled with ASCII digits. Java formats with the default locale, which can print other decimal digits; `LockName` and `Recognised` assume the ASCII spelling.
- WorkerIdStrategy.IncreaseWithWorkerIdServer: "throws if and only if the reply does not parse" holds for the ASCII parse above. A reply in other Unicode decimal digits parses in Java but throws here.
- WorkerIdStrategy.InitNumberFormat: the same ASCII restriction applies to its `/inc` reply.
- IdFacade.Configure: `configure` takes the generator's random fallback as an input, and every allocator is a `DefaultWorkerIdStrategy`.

=== FILE: id_facade.dfy ===
/**
 * The process-wide facade `Id`: one installed worker-id strategy and the generator built
 * from its id. Strategies are identified by their owner number, standing for object
 * identity; every strategy is a `DefaultWorkerIdStrategy`.
 */
module IdFacade {
  import opened Wrappers
  import opened JavaBits
  import opened IdWorker
  import opened WorkerIdStrategy

  /** The static fields of `Id`, the strategy objects they can point to, and the lock directory. */
  datatype World = World(
    env: Env,
    strategies: map<nat, Strategy>,
    current: Option<nat>,
    worker: Option<Worker>)

  /** Strategy objects are keyed by their owner number, and the installed one exists. */
  predicate WellFormed(world: World) {
    && (forall k :: k in world.strategies ==> world.strategies[k].owner == k)
    && (world.current.Some? ==> world.current.value in world.strategies)
  }

  /** What `configure` or `next` can throw. */
  datatype FacadeError = InitFailed(initError: InitError) | Clock(clockError: ClockError) | NoGenerator

  /** Stores a strategy object back under its owner number. */
  function Put(world: World, s: Strategy): World {
    world.(strategies := world.strategies[s.owner := s])
  }

  /** `release()` on the installed strategy, if there is one. */
  function ReleaseCurrent(world: World): (r: World)
    requires WellFormed(world)
    ensures WellFormed(r) && r.current == world.current && r.worker == world.worker
  {
    if world.current.None? then world
    else
      var prev := world.strategies[world.current.value];
      var (s', env') := Release(prev, world.env);
      Put(world.(env := env'), s')
  }

  /**
   * `configure(custom)`: the installed strategy again is a no-op; otherwise release the previous one,
   * install `custom`, initialize it and build a default-layout generator from its id. `draw` is the
   * generator's random fallback for an id outside [0, 1023]. When `initialize` throws, `custom`
   * stays installed and the previous generator stays in place.
   */
  function Configure(world: World, custom: nat, replies: Replies, draw: int): (r: (World, Option<FacadeError>))
    requires WellFormed(world) && custom in world.strategies
    requires ValidDraws(replies.draws) && 0 <= draw < Pow2(DEFAULT_LAYOUT.workerIdBits)
    ensures WellFormed(r.0)
    ensures world.current == Some(custom) ==> r == (world, None)
    ensures world.current != Some(custom) ==> r.0.current == Some(custom)
    ensures r.1.Some? ==> r.0.worker == world.worker
  {
    if world.current == Some(custom) then (world, None)
    else
      var w1 := ReleaseCurrent(world).(current := Some(custom));
      var a := Initialize(w1.strategies[custom], w1.env, replies);
      var w2 := Put(w1.(env := a.env), a.strategy);
      if a.error.Some? then (w2, Some(InitFailed(a.error.value)))
      else
        var worker := NewWorker(DEFAULT_LAYOUT, AvailableWorkerId(a.strategy), draw);
        (w2.(worker := Some(worker)), None)
  }

  /** `next()`: the installed generator's `nextId`, with its new state kept. */
  function Next(world: World, clock: seq<int>): (r: (World, Result<int, FacadeError>))
    requires |clock| > 0
    requires world.worker.Some? ==> ValidLayout(world.worker.value.layout)
    ensures r.0.env == world.env && r.0.strategies == world.strategies && r.0.current == world.current
    ensures world.worker.None? ==> r == (world, Failure(NoGenerator))
    ensures world.worker.Some? ==>
              var s := NextId(world.worker.value, clock);
              && r.0.worker == Some(s.worker)
              && (s.outcome.Success? <==> r.1.Success?)
              && (s.outcome.Success? ==> r.1.value == s.outcome.value.id)
              && (s.outcome.Failure? ==> r.1 == Failure(Clock(s.outcome.error)))
  {
    if world.worker.None? then (world, Failure(NoGenerator))
    else
      var s := NextId(world.worker.value, clock);
      var world' := world.(worker := Some(s.worker));
      match s.outcome
      case Success(issue) => (world', Success(issue.id))
      case Failure(e) => (world', Failure(Clock(e)))
  }

  /** The static initializer: `configure(DefaultWorkerIdStrategy.instance)` on a fresh facade. */
  function Boot(env: Env, instance: Strategy, replies: Replies, draw: int): (r: (World, Option<FacadeError>))
    requires ValidDraws(replies.draws) && 0 <= draw < Pow2(DEFAULT_LAYOUT.workerIdBits)
    ensures WellFormed(r.0) && r.0.current == Some(instance.owner)
  {
    var world := World(env, map[instance.owner := instance], None, None);
    Configure(world, instance.owner, replies, draw)
  }

  // ---------------------------------------------------------------------------
  // What configure and next promise
  // ---------------------------------------------------------------------------

  /**
   * A successful `configure` with another strategy builds a default-layout generator that carries
   * the strategy's id whenever it is in [0, 1023]. A strategy that was not initialized yet ends
   * initialized and holding the lock of its id; one that already was is left as it was.
   */
  lemma ConfigureInstalls(world: World, custom: nat, replies: Replies, draw: int)
    requires WellFormed(world) && custom in world.strategies && world.current != Some(custom)
    requires ValidDraws(replies.draws) && 0 <= draw < Pow2(DEFAULT_LAYOUT.workerIdBits)
    ensures var (w, err) := Configure(world, custom, replies, draw);
            err.None? ==>
              && var s := w.strategies[custom];
              && w.worker.Some? && Inv(w.worker.value) && w.worker.value.layout == DEFAULT_LAYOUT
              && w.worker.value.lastMillis == -1
              && (0 <= s.workerId <= MAX_WORKER_ID ==> w.worker.value.workerId == s.workerId)
    ensures var (w, err) := Configure(world, custom, replies, draw);
            !world.strategies[custom].inited && err.None? ==>
              && var s := w.strategies[custom];
              && s.inited && s.workerId >= 0
              && Holds(Scan(s.workerId, s, w.env))
    ensures var (w, err) := Configure(world, custom, replies, draw);
            world.strategies[custom].inited ==>
              err.None? && w.strategies[custom] == world.strategies[custom]
              && w.env == ReleaseCurrent(world).env
  {
    var w1 := ReleaseCurrent(world).(current := Some(custom));
    var s0 := w1.strategies[custom];
    if world.current.Some? {
      var prev := world.current.value;
      assert prev != custom;
      assert s0 == world.strategies[custom];
    }
    DefaultLayoutConstants();
  }

  /** Reconfiguring releases the previous strategy first: it ends uninitialized and holding no lock. */
  lemma ConfigureReleasesOld(world: World, custom: nat, replies: Replies, draw: int)
    requires WellFormed(world) && custom in world.strategies
    requires world.current.Some? && world.current != Some(custom)
    requires ValidDraws(replies.draws) && 0 <= draw < Pow2(DEFAULT_LAYOUT.workerIdBits)
    ensures var (w, _) := Configure(world, custom, replies, draw);
            var prev := world.current.value;
            && !w.strategies[prev].inited
            && (w.strategies[prev].lock.Some? ==>
                  var n := w.strategies[prev].lock.value;
                  n !in w.env.locks || w.env.locks[n] != prev)
  {
    var prev := world.current.value;
    var w0 := ReleaseCurrent(world);
    var w1 := w0.(current := Some(custom));
    var a := Initialize(w1.strategies[custom], w1.env, replies);
    InitSoundAny(w1.strategies[custom], w1.env, replies);
    assert w1.strategies[custom].owner == custom != prev;
  }

  /** `initialize` in any state keeps the locks of other owners and adds only its own. */
  lemma InitSoundAny(s: Strategy, env: Env, replies: Replies)
    requires ValidDraws(replies.draws)
    ensures KeepsLocks(env, Initialize(s, env, replies).env)
    ensures forall n :: n in Initialize(s, env, replies).env.locks && n !in env.locks ==>
              Initialize(s, env, replies).env.locks[n] == s.owner
    ensures Initialize(s, env, replies).strategy.owner == s.owner
  {
  }

  /** Two successive `next` calls with readings inside the timestamp span return increasing ids. */
  lemma NextIncreasing(world: World, c1: seq<int>, c2: seq<int>, lo: int, hi: int)
    requires |c1| > 0 && |c2| > 0 && world.worker.Some? && Inv(world.worker.value)
    requires EPOCH <= lo && hi <= EPOCH + TimestampSpan(world.worker.value.layout)
    requires world.worker.value.lastMillis == -1 || lo <= world.worker.value.lastMillis < hi
    requires forall j :: 0 <= j < |c1| ==> lo <= c1[j] < hi
    requires forall j :: 0 <= j < |c2| ==> lo <= c2[j] < hi
    ensures var (w1, r1) := Next(world, c1);
            var (w2, r2) := Next(w1, c2);
            r1.Success? && r2.Success? ==> r1.value < r2.value
  {
    var w := world.worker.value;
    StepWithin(w, c1, lo, hi);
    var s1 := NextId(w, c1);
    if s1.outcome.Success? {
      StepWithin(s1.worker, c2, lo, hi);
    }
  }
}

=== FILE: id_worker.dfy ===
/**
 * The snowflake generator `IdWorker` and its narrow variant `IdWorkerInt`.
 *
 * A generator is an immutable record; `NextId` is its step function. The system
 * clock is a sequence of millisecond readings: the first reading is the one
 * `nextId` takes, later readings are what the busy-wait in `tilNextMillis` sees.
 */
module IdWorker {
  import opened Wrappers
  import opened JavaBits

  /** 2013-12-24 20:01:38.127, the zero of every timestamp field. */
  const EPOCH: int := 1387886498127

  /** How many bits the worker id and the sequence take; the timestamp gets the rest. */
  datatype Layout = Layout(workerIdBits: nat, sequenceBits: nat)

  /** `IdWorker`: 10 worker-id bits and 11 sequence bits. */
  const DEFAULT_LAYOUT: Layout := Layout(10, 11)

  /** `IdWorkerInt`: 5 worker-id bits and 5 sequence bits. */
  const NARROW_LAYOUT: Layout := Layout(5, 5)

  /** Both shifts stay below the sign bit of a long. */
  predicate ValidLayout(l: Layout) {
    l.workerIdBits + l.sequenceBits < 63
  }

  /** `maxWorkerId = -1L ^ (-1L << workerIdBits)` */
  function MaxWorkerId(l: Layout): int {
    LongXor(-1, LongShl(-1, l.workerIdBits))
  }

  /** `sequenceMask = -1L ^ (-1L << sequenceBits)` */
  function SequenceMask(l: Layout): int {
    LongXor(-1, LongShl(-1, l.sequenceBits))
  }

  function WorkerIdShift(l: Layout): nat {
    l.sequenceBits
  }

  function TimestampLeftShift(l: Layout): nat {
    l.sequenceBits + l.workerIdBits
  }

  /** Timestamps (milliseconds since EPOCH) that fit above the other two fields. */
  function TimestampSpan(l: Layout): int
    requires ValidLayout(l)
  {
    Pow2(63 - TimestampLeftShift(l))
  }

  /** The layout constants are determined by the two bit counts. */
  lemma LayoutConstants(l: Layout)
    requires ValidLayout(l)
    ensures MaxWorkerId(l) == Pow2(l.workerIdBits) - 1
    ensures SequenceMask(l) == Pow2(l.sequenceBits) - 1
    ensures Pow2(TimestampLeftShift(l)) == Pow2(l.workerIdBits) * Pow2(WorkerIdShift(l))
  {
    LowMaskOfOnes(l.workerIdBits);
    LowMaskOfOnes(l.sequenceBits);
    Pow2Add(l.workerIdBits, l.sequenceBits);
  }

  /** The default generator: 1023 worker ids, 2048 ids per millisecond, 42-bit timestamps. */
  lemma DefaultLayoutConstants()
    ensures MaxWorkerId(DEFAULT_LAYOUT) == 1023 && SequenceMask(DEFAULT_LAYOUT) == 2047
    ensures WorkerIdShift(DEFAULT_LAYOUT) == 11 && TimestampLeftShift(DEFAULT_LAYOUT) == 21
  {
    Pow2Small();
    LayoutConstants(DEFAULT_LAYOUT);
  }

  /** The narrow generator: 32 worker ids, 32 ids per millisecond, timestamp shifted by 10. */
  lemma NarrowLayoutConstants()
    ensures MaxWorkerId(NARROW_LAYOUT) == 31 && SequenceMask(NARROW_LAYOUT) == 31
    ensures WorkerIdShift(NARROW_LAYOUT) == 5 && TimestampLeftShift(NARROW_LAYOUT) == 10
  {
    Pow2Small();
    LayoutConstants(NARROW_LAYOUT);
  }

  // ---------------------------------------------------------------------------
  // Generator state
  // ---------------------------------------------------------------------------

  /** `lastMillis` and `sequence` are the mutable part; the layout and worker id are fixed. */
  datatype Worker = Worker(layout: Layout, workerId: int, lastMillis: int, sequence: int)

  /** The state every constructed generator is in after any number of successful calls. */
  predicate Inv(w: Worker) {
    && ValidLayout(w.layout)
    && 0 <= w.workerId < Pow2(w.layout.workerIdBits)
    && 0 <= w.sequence < Pow2(w.layout.sequenceBits)
  }

  /**
   * `checkWorkerId`: an id outside [0, maxWorkerId] is replaced by `draw`, the value of
   * `new SecureRandom().nextInt(maxWorkerId + 1)`.
   */
  function CheckWorkerId(l: Layout, workerId: int, draw: int): (r: int)
    requires ValidLayout(l) && 0 <= draw < Pow2(l.workerIdBits)
    ensures 0 <= r <= MaxWorkerId(l)
    ensures 0 <= workerId <= MaxWorkerId(l) ==> r == workerId
    ensures !(0 <= workerId <= MaxWorkerId(l)) ==> r == draw
  {
    LayoutConstants(l);
    if workerId > MaxWorkerId(l) || workerId < 0 then draw else workerId
  }

  /** `new IdWorker(workerId)` with the given layout: no id issued yet (`lastMillis = -1`). */
  function NewWorker(l: Layout, workerId: int, draw: int): (w: Worker)
    requires ValidLayout(l) && 0 <= draw < Pow2(l.workerIdBits)
    ensures Inv(w) && w.layout == l && w.lastMillis == -1 && w.sequence == 0
    ensures 0 <= workerId <= MaxWorkerId(l) ==> w.workerId == workerId
  {
    LayoutConstants(l);
    Worker(l, CheckWorkerId(l, workerId, draw), -1, 0)
  }

  /** `new IdWorkerInt(workerId)`: the id is masked with `~(-1L << 5)` before the range check. */
  function NewNarrowWorker(workerId: int, draw: int): (w: Worker)
    requires 0 <= draw < 32
    ensures Inv(w) && w.layout == NARROW_LAYOUT && w.lastMillis == -1 && w.sequence == 0
    ensures w.workerId == workerId % 32
  {
    NarrowMask(workerId);
    Pow2Small();
    NewWorker(NARROW_LAYOUT, LongAnd(workerId, LongNot(LongShl(-1, 5))), draw)
  }

  /** The narrow constructor keeps the low five bits, so the random fallback never fires. */
  lemma NarrowMask(workerId: int)
    ensures LongAnd(workerId, LongNot(LongShl(-1, 5))) == workerId % 32
    ensures 0 <= workerId % 32 <= MaxWorkerId(NARROW_LAYOUT)
  {
    Pow2Small();
    NarrowLayoutConstants();
    assert LongShl(-1, 5) == -32;
    assert LongNot(-32) == Pow2(5) - 1;
    LongAndLowMask(workerId, 5);
  }

  // ---------------------------------------------------------------------------
  // Bit composition and decoding
  // ---------------------------------------------------------------------------

  /** `(diff << timestampLeftShift) | (workerId << workerIdShift) | sequence` */
  function Compose(l: Layout, diff: int, workerId: int, sequence: int): int {
    LongOr(LongOr(LongShl(diff, TimestampLeftShift(l)), LongShl(workerId, WorkerIdShift(l))), sequence)
  }

  /** `id >> timestampLeftShift` */
  function TimestampOf(l: Layout, id: int): int {
    LongShr(id, TimestampLeftShift(l))
  }

  /** `(id >> workerIdShift) & maxWorkerId` */
  function WorkerIdOf(l: Layout, id: int): int {
    LongAnd(LongShr(id, WorkerIdShift(l)), MaxWorkerId(l))
  }

  /** `id & sequenceMask` */
  function SequenceOf(l: Layout, id: int): int {
    LongAnd(id, SequenceMask(l))
  }

  /** Fields that fit their slots. */
  predicate Fits(l: Layout, diff: int, workerId: int, sequence: int)
    requires ValidLayout(l)
  {
    && 0 <= diff < TimestampSpan(l)
    && 0 <= workerId < Pow2(l.workerIdBits)
    && 0 <= sequence < Pow2(l.sequenceBits)
  }

  lemma MulMono(a: int, b: int, c: int)
    requires a <= b && c >= 0
    ensures a * c <= b * c
  {
    MulNonneg(b - a, c);
  }

  /** A field below `hi` shifted past a field below `lo` stays below `hi * lo`. */
  lemma LowFields(x: int, y: int, hi: int, lo: int)
    requires 0 <= x < hi && 0 <= y < lo
    ensures 0 <= x * lo && x * lo + y < hi * lo
  {
    MulNonneg(x, lo);
    MulMono(x + 1, hi, lo);
  }

  lemma Regroup(diff: int, workerId: int, pw: int, ps: int)
    ensures (diff * pw + workerId) * ps == diff * (pw * ps) + workerId * ps
  {
  }

  /** `diff << timestampLeftShift` and `workerId << workerIdShift` are exact multiplications. */
  lemma ShiftedFields(l: Layout, diff: int, workerId: int, sequence: int)
    requires ValidLayout(l) && Fits(l, diff, workerId, sequence)
    ensures Pow2(TimestampLeftShift(l)) == Pow2(l.workerIdBits) * Pow2(l.sequenceBits)
    ensures LongShl(diff, TimestampLeftShift(l)) == diff * Pow2(TimestampLeftShift(l))
    ensures LongShl(workerId, WorkerIdShift(l)) == workerId * Pow2(l.sequenceBits)
    ensures diff * Pow2(TimestampLeftShift(l)) + Pow2(TimestampLeftShift(l)) <= TWO_63
  {
    var ts := TimestampLeftShift(l);
    var pw, ps, pt := Pow2(l.workerIdBits), Pow2(l.sequenceBits), Pow2(ts);
    Pow2Add(l.workerIdBits, l.sequenceBits);
    SpanTimesShift(l);
    ShiftBound(diff, TimestampSpan(l), pt);
    LongShlExact(diff, ts);
    LowFields(workerId, 0, pw, ps);
    Pow2BelowSign(ts);
    LongShlExact(workerId, l.sequenceBits);
  }

  /** The timestamp span times the timestamp shift fills the 63 value bits of a long. */
  lemma SpanTimesShift(l: Layout)
    requires ValidLayout(l)
    ensures TimestampSpan(l) * Pow2(TimestampLeftShift(l)) == TWO_63
  {
    Pow2Add(63 - TimestampLeftShift(l), TimestampLeftShift(l));
    Pow2To63();
  }

  /** A timestamp below the span, shifted, leaves room for one more unit of the shift. */
  lemma ShiftBound(diff: int, span: int, pt: int)
    requires 0 <= diff < span && pt >= 1 && span * pt == TWO_63
    ensures 0 <= diff * pt && diff * pt + pt <= TWO_63
  {
    MulNonneg(diff, pt);
    MulMono(diff + 1, span, pt);
    assert (diff + 1) * pt == diff * pt + pt;
  }

  /** Positional arithmetic behind composition: every partial sum stays below the sign bit. */
  lemma ComposeArith(diff: int, workerId: int, sequence: int, pw: int, ps: int, span: int)
    requires 0 <= diff < span && 0 <= workerId < pw && 0 <= sequence < ps
    requires span * (pw * ps) == TWO_63
    ensures 0 <= workerId * ps < pw * ps
    ensures diff * (pw * ps) + workerId * ps == (diff * pw + workerId) * ps
    ensures 0 <= diff * pw + workerId
    ensures 0 <= (diff * pw + workerId) * ps + sequence < TWO_63
  {
    MulNonneg(diff * pw + workerId, ps);
    LowFields(workerId, sequence, pw, ps);
    LowFields(workerId, 0, pw, ps);
    Regroup(diff, workerId, pw, ps);
    MulNonneg(diff, pw);
    MulMono(diff + 1, span, pw * ps);
    assert (diff + 1) * (pw * ps) == diff * (pw * ps) + pw * ps;
  }

  /** With fitting fields the OR-composition is the positional sum, and it is a non-negative long. */
  lemma ComposeValue(l: Layout, diff: int, workerId: int, sequence: int)
    requires ValidLayout(l) && Fits(l, diff, workerId, sequence)
    ensures Compose(l, diff, workerId, sequence)
         == (diff * Pow2(l.workerIdBits) + workerId) * Pow2(l.sequenceBits) + sequence
    ensures 0 <= Compose(l, diff, workerId, sequence) < TWO_63
  {
    var pw, ps := Pow2(l.workerIdBits), Pow2(l.sequenceBits);
    var hi := diff * pw + workerId;
    var mid := LongOr(LongShl(diff, TimestampLeftShift(l)), LongShl(workerId, WorkerIdShift(l)));
    ComposeHigh(l, diff, workerId, sequence);
    assert Compose(l, diff, workerId, sequence) == LongOr(mid, sequence);
    LongOrDisjoint(hi, sequence, l.sequenceBits);
  }

  /** The timestamp and worker-id fields OR-ed together are the positional sum of the two. */
  lemma ComposeHigh(l: Layout, diff: int, workerId: int, sequence: int)
    requires ValidLayout(l) && Fits(l, diff, workerId, sequence)
    ensures var hi := diff * Pow2(l.workerIdBits) + workerId;
            && LongOr(LongShl(diff, TimestampLeftShift(l)), LongShl(workerId, WorkerIdShift(l)))
                 == hi * Pow2(l.sequenceBits)
            && 0 <= hi && 0 <= hi * Pow2(l.sequenceBits) + sequence < TWO_63
  {
    ShiftedFields(l, diff, workerId, sequence);
    HighFields(l, diff, workerId, sequence);
    LongOrDisjoint(diff, workerId * Pow2(l.sequenceBits), TimestampLeftShift(l));
  }

  /** The positional arithmetic of the two upper fields, with the shifts as powers of two. */
  lemma HighFields(l: Layout, diff: int, workerId: int, sequence: int)
    requires ValidLayout(l) && Fits(l, diff, workerId, sequence)
    ensures var pw, ps, pt := Pow2(l.workerIdBits), Pow2(l.sequenceBits), Pow2(TimestampLeftShift(l));
            && 0 <= workerId * ps < pt
            && diff * pt + workerId * ps == (diff * pw + workerId) * ps
            && 0 <= diff * pw + workerId
            && 0 <= (diff * pw + workerId) * ps + sequence < TWO_63
  {
    var pw, ps := Pow2(l.workerIdBits), Pow2(l.sequenceBits);
    Pow2Add(l.workerIdBits, l.sequenceBits);
    SpanTimesShift(l);
    ComposeArith(diff, workerId, sequence, pw, ps, TimestampSpan(l));
  }

  /** Positional arithmetic behind decoding. */
  lemma DecodeArith(id: int, diff: int, workerId: int, sequence: int, pw: int, ps: int)
    requires 0 <= diff && 0 <= workerId < pw && 0 <= sequence < ps
    requires id == (diff * pw + workerId) * ps + sequence
    ensures id / (pw * ps) == diff
    ensures id / ps == diff * pw + workerId && id % ps == sequence
    ensures (diff * pw + workerId) % pw == workerId
  {
    Regroup(diff, workerId, pw, ps);
    LowFields(workerId, sequence, pw, ps);
    DivModUnique(id, pw * ps, diff, workerId * ps + sequence);
    DivModUnique(id, ps, diff * pw + workerId, sequence);
    DivModUnique(diff * pw + workerId, pw, diff, workerId);
  }

  /** Decoding an id recovers the three fields it was composed from. */
  lemma DecodeCompose(l: Layout, diff: int, workerId: int, sequence: int)
    requires ValidLayout(l) && Fits(l, diff, workerId, sequence)
    ensures TimestampOf(l, Compose(l, diff, workerId, sequence)) == diff
    ensures WorkerIdOf(l, Compose(l, diff, workerId, sequence)) == workerId
    ensures SequenceOf(l, Compose(l, diff, workerId, sequence)) == sequence
  {
    ComposeValue(l, diff, workerId, sequence);
    DecodeValue(l, Compose(l, diff, workerId, sequence), diff, workerId, sequence);
  }

  /** Decoding the positional sum of three fitting fields recovers them. */
  lemma DecodeValue(l: Layout, id: int, diff: int, workerId: int, sequence: int)
    requires ValidLayout(l) && Fits(l, diff, workerId, sequence)
    requires id == (diff * Pow2(l.workerIdBits) + workerId) * Pow2(l.sequenceBits) + sequence
    ensures TimestampOf(l, id) == diff && WorkerIdOf(l, id) == workerId && SequenceOf(l, id) == sequence
  {
    var pw, ps := Pow2(l.workerIdBits), Pow2(l.sequenceBits);
    DecodeArith(id, diff, workerId, sequence, pw, ps);
    DecodeTimestamp(l, id, diff);
    DecodeWorkerId(l, id, diff * pw + workerId, workerId);
    DecodeSequence(l, id, sequence);
  }

  lemma DecodeTimestamp(l: Layout, id: int, diff: int)
    requires ValidLayout(l) && id / (Pow2(l.workerIdBits) * Pow2(l.sequenceBits)) == diff
    ensures TimestampOf(l, id) == diff
  {
    assert TimestampLeftShift(l) % 64 == TimestampLeftShift(l);
    LayoutConstants(l);
  }

  lemma DecodeWorkerId(l: Layout, id: int, hi: int, workerId: int)
    requires ValidLayout(l) && id / Pow2(l.sequenceBits) == hi && hi % Pow2(l.workerIdBits) == workerId
    ensures WorkerIdOf(l, id) == workerId
  {
    assert WorkerIdShift(l) % 64 == WorkerIdShift(l);
    LayoutConstants(l);
    LongAndLowMask(hi, l.workerIdBits);
  }

  lemma DecodeSequence(l: Layout, id: int, sequence: int)
    requires ValidLayout(l) && id % Pow2(l.sequenceBits) == sequence
    ensures SequenceOf(l, id) == sequence
  {
    LayoutConstants(l);
    LongAndLowMask(id, l.sequenceBits);
  }

  /** Composition is strictly monotone in (timestamp, sequence), for a fixed worker id. */
  lemma ComposeOrdered(l: Layout, workerId: int, d1: int, s1: int, d2: int, s2: int)
    requires ValidLayout(l) && Fits(l, d1, workerId, s1) && Fits(l, d2, workerId, s2)
    requires d1 < d2 || (d1 == d2 && s1 < s2)
    ensures Compose(l, d1, workerId, s1) < Compose(l, d2, workerId, s2)
  {
    ComposeValue(l, d1, workerId, s1);
    ComposeValue(l, d2, workerId, s2);
    OrderedValues(l, workerId, d1, s1, d2, s2, Compose(l, d1, workerId, s1), Compose(l, d2, workerId, s2));
  }

  lemma OrderedValues(l: Layout, workerId: int, d1: int, s1: int, d2: int, s2: int, a: int, b: int)
    requires ValidLayout(l) && Fits(l, d1, workerId, s1) && Fits(l, d2, workerId, s2)
    requires d1 < d2 || (d1 == d2 && s1 < s2)
    requires a == (d1 * Pow2(l.workerIdBits) + workerId) * Pow2(l.sequenceBits) + s1
    requires b == (d2 * Pow2(l.workerIdBits) + workerId) * Pow2(l.sequenceBits) + s2
    ensures a < b
  {
    OrderedArith(workerId, d1, s1, d2, s2, Pow2(l.workerIdBits), Pow2(l.sequenceBits));
  }

  lemma OrderedArith(workerId: int, d1: int, s1: int, d2: int, s2: int, pw: int, ps: int)
    requires 0 <= workerId < pw && 0 <= s1 < ps && 0 <= s2 < ps && 0 <= d1
    requires d1 < d2 || (d1 == d2 && s1 < s2)
    ensures (d1 * pw + workerId) * ps + s1 < (d2 * pw + workerId) * ps + s2
  {
    if d1 < d2 {
      LowFields(d1, workerId, d2, pw);
      MulMono(d1 * pw + workerId + 1, d2 * pw + workerId, ps);
      assert (d1 * pw + workerId + 1) * ps == (d1 * pw + workerId) * ps + ps;
    }
  }

  // ---------------------------------------------------------------------------
  // The clock and the step function
  // ---------------------------------------------------------------------------

  /** The position of the first reading strictly after `lastMillis`. */
  function FirstAfter(lastMillis: int, readings: seq<int>): (r: Option<nat>)
    ensures r.Some? ==> r.value < |readings| && readings[r.value] > lastMillis
    ensures r.Some? ==> forall j :: 0 <= j < r.value ==> readings[j] <= lastMillis
    ensures r.None? ==> forall j :: 0 <= j < |readings| ==> readings[j] <= lastMillis
  {
    if readings == [] then None
    else if readings[0] > lastMillis then Some(0)
    else match FirstAfter(lastMillis, readings[1..])
      case None => None
      case Some(k) => Some(k + 1)
  }

  /**
   * `tilNextMillis(lastMillis)`: sample the clock until it passes `lastMillis`.
   * Returns the reading and the readings not yet consumed; `None` when the given
   * readings never pass it (the source would keep spinning).
   */
  function TilNextMillis(lastMillis: int, readings: seq<int>): (r: Option<(int, seq<int>)>)
    ensures r.Some? ==> r.value.0 > lastMillis
    ensures r.Some? ==> exists k :: 0 <= k < |readings| && readings[k] == r.value.0
                          && r.value.1 == readings[k + 1..]
                          && forall j :: 0 <= j < k ==> readings[j] <= lastMillis
    ensures r.None? <==> forall j :: 0 <= j < |readings| ==> readings[j] <= lastMillis
  {
    match FirstAfter(lastMillis, readings)
    case None => None
    case Some(k) => Some((readings[k], readings[k + 1..]))
  }

  datatype ClockError =
    /** `InvalidSystemClock`: the first reading was behind `lastMillis`. */
    | InvalidSystemClock(lastMillis: int, timestamp: int)
    /** The sequence wrapped and no later reading passed `lastMillis`. */
    | ClockStalled

  /** An issued id, whether the call had to wait for the next millisecond, and the unread readings. */
  datatype Issue = Issue(id: int, waited: bool, rest: seq<int>)

  /** The generator after a call, and what the call returned or threw. */
  datatype Step = Step(worker: Worker, outcome: Result<Issue, ClockError>)

  /** The id of timestamp `millis`, sequence `sequence` for this generator. */
  function IdAt(w: Worker, millis: int, sequence: int): int {
    Compose(w.layout, ToLong(millis - EPOCH), w.workerId, sequence)
  }

  function Emit(w: Worker, millis: int, sequence: int, waited: bool, rest: seq<int>): Step {
    Step(w.(lastMillis := millis, sequence := sequence), Success(Issue(IdAt(w, millis, sequence), waited, rest)))
  }

  /** `(sequence + 1) & sequenceMask`, on the long bit pattern: the successor modulo 2^sequenceBits. */
  function NextSequence(w: Worker): (r: int)
    requires ValidLayout(w.layout)
    ensures 0 <= r < Pow2(w.layout.sequenceBits)
    ensures r == (w.sequence + 1) % Pow2(w.layout.sequenceBits)
  {
    LowMaskOfOnes(w.layout.sequenceBits);
    LongAndLowMask(w.sequence + 1, w.layout.sequenceBits);
    LongAnd(w.sequence + 1, SequenceMask(w.layout))
  }

  /**
   * A call the generator answers with an id: its first reading is not behind `lastMillis`, and
   * when the sequence wraps within that millisecond a later reading passes it.
   */
  predicate Answered(w: Worker, clock: seq<int>)
    requires ValidLayout(w.layout) && |clock| > 0
  {
    && w.lastMillis <= clock[0]
    && (clock[0] == w.lastMillis && NextSequence(w) == 0 ==> TilNextMillis(w.lastMillis, clock[1..]).Some?)
  }

  /** `nextId()`. The sequence increment is computed on the long bit pattern, as in Java. */
  function NextId(w: Worker, clock: seq<int>): (s: Step)
    requires ValidLayout(w.layout) && |clock| > 0
    ensures s.outcome.Success? <==> Answered(w, clock)
    ensures s.outcome.Failure? ==> s.worker == w
    ensures (s.outcome.Failure? && s.outcome.error.InvalidSystemClock?) <==> clock[0] < w.lastMillis
    ensures s.outcome.Success? ==>
              && s.worker.layout == w.layout && s.worker.workerId == w.workerId
              && 0 <= s.worker.sequence < Pow2(w.layout.sequenceBits)
              && w.lastMillis <= clock[0] <= s.worker.lastMillis
              && s.outcome.value.id == IdAt(w, s.worker.lastMillis, s.worker.sequence)
    ensures s.outcome.Success? && clock[0] > w.lastMillis ==>
              s.worker.lastMillis == clock[0] && s.worker.sequence == 0 && !s.outcome.value.waited
    ensures s.outcome.Success? && clock[0] == w.lastMillis ==>
              s.worker.sequence == (w.sequence + 1) % Pow2(w.layout.sequenceBits)
    ensures s.outcome.Success? ==>
              (s.outcome.value.waited <==> clock[0] == w.lastMillis && s.worker.sequence == 0)
    ensures s.outcome.Success? && s.outcome.value.waited ==>
              TilNextMillis(w.lastMillis, clock[1..]) == Some((s.worker.lastMillis, s.outcome.value.rest))
    ensures s.outcome.Success? && !s.outcome.value.waited ==>
              s.worker.lastMillis == clock[0] && s.outcome.value.rest == clock[1..]
  {
    var timestamp := clock[0];
    if timestamp < w.lastMillis then
      Step(w, Failure(InvalidSystemClock(w.lastMillis, timestamp)))
    else if w.lastMillis == timestamp then
      var sequence := NextSequence(w);
      if sequence == 0 then
        match TilNextMillis(w.lastMillis, clock[1..])
        case None => Step(w, Failure(ClockStalled))
        case Some((millis, rest)) => Emit(w, millis, sequence, true, rest)
      else
        Emit(w, timestamp, sequence, false, clock[1..])
    else
      Emit(w, timestamp, 0, false, clock[1..])
  }

  // ---------------------------------------------------------------------------
  // What successive calls guarantee
  // ---------------------------------------------------------------------------

  /** The id this generator issued last (meaningful once `lastMillis >= EPOCH`). */
  function LastId(w: Worker): int {
    IdAt(w, w.lastMillis, w.sequence)
  }

  /** Every issued id moves (lastMillis, sequence) strictly forward and re-establishes the invariant. */
  lemma NextIdAdvances(w: Worker, clock: seq<int>)
    requires Inv(w) && |clock| > 0
    ensures NextId(w, clock).outcome.Success? ==> Inv(NextId(w, clock).worker)
    ensures NextId(w, clock).outcome.Success? ==>
              || w.lastMillis < NextId(w, clock).worker.lastMillis
              || (w.lastMillis == NextId(w, clock).worker.lastMillis
                  && w.sequence < NextId(w, clock).worker.sequence)
  {
    var s := NextId(w, clock);
    if s.outcome.Success? && clock[0] == w.lastMillis && !s.outcome.value.waited {
      var p := Pow2(w.layout.sequenceBits);
      DivModUnique(w.sequence + 1, p, 0, w.sequence + 1);
    }
  }

  /** All readings of all calls lie in [lo, hi). */
  predicate ReadingsIn(calls: seq<seq<int>>, lo: int, hi: int) {
    forall i, j :: 0 <= i < |calls| && 0 <= j < |calls[i]| ==> lo <= calls[i][j] < hi
  }

  /** The issued timestamp is one of the readings of the call. */
  lemma IssuedMillisIsReading(w: Worker, clock: seq<int>, lo: int, hi: int)
    requires ValidLayout(w.layout) && |clock| > 0
    requires forall j :: 0 <= j < |clock| ==> lo <= clock[j] < hi
    ensures NextId(w, clock).outcome.Success? ==> lo <= NextId(w, clock).worker.lastMillis < hi
  {
    var s := NextId(w, clock);
    if s.outcome.Success? && s.outcome.value.waited {
      var k :| 0 <= k < |clock[1..]| && clock[1..][k] == s.worker.lastMillis;
      assert clock[k + 1] == s.worker.lastMillis;
    }
  }

  /** A reading inside the span gives a timestamp difference that is already a long. */
  lemma DiffInSpan(l: Layout, millis: int)
    requires ValidLayout(l) && EPOCH <= millis < EPOCH + TimestampSpan(l)
    ensures ToLong(millis - EPOCH) == millis - EPOCH
  {
    Pow2BelowSign(63 - TimestampLeftShift(l));
    Pow2To63();
  }

  lemma PositiveArith(id: int, diff: int, workerId: int, sequence: int, pw: int, ps: int)
    requires 1 <= diff && 1 <= pw && 1 <= ps && 0 <= workerId && 0 <= sequence
    requires id == (diff * pw + workerId) * ps + sequence
    ensures id > 0
  {
    MulMono(1, diff, pw);
    MulMono(1, diff * pw + workerId, ps);
  }

  /** An id issued at a timestamp inside the span decodes to that timestamp and its sequence. */
  lemma IssuedIdDecodes(w: Worker, millis: int, sequence: int)
    requires Inv(w) && EPOCH <= millis < EPOCH + TimestampSpan(w.layout)
    requires 0 <= sequence < Pow2(w.layout.sequenceBits)
    ensures TimestampOf(w.layout, IdAt(w, millis, sequence)) == millis - EPOCH
    ensures WorkerIdOf(w.layout, IdAt(w, millis, sequence)) == w.workerId
    ensures SequenceOf(w.layout, IdAt(w, millis, sequence)) == sequence
    ensures 0 <= IdAt(w, millis, sequence) < TWO_63
    ensures millis > EPOCH ==> IdAt(w, millis, sequence) > 0
    ensures IdAt(w, millis, sequence) == Compose(w.layout, millis - EPOCH, w.workerId, sequence)
  {
    var l, diff := w.layout, millis - EPOCH;
    DiffInSpan(l, millis);
    assert IdAt(w, millis, sequence) == Compose(l, diff, w.workerId, sequence);
    DecodeCompose(l, diff, w.workerId, sequence);
    ComposeValue(l, diff, w.workerId, sequence);
    if millis > EPOCH {
      ComposePositive(l, diff, w.workerId, sequence);
    }
  }

  /** A timestamp after the epoch gives a positive id. */
  lemma ComposePositive(l: Layout, diff: int, workerId: int, sequence: int)
    requires ValidLayout(l) && Fits(l, diff, workerId, sequence) && diff >= 1
    ensures Compose(l, diff, workerId, sequence) > 0
  {
    ComposeValue(l, diff, workerId, sequence);
    PositiveArith(Compose(l, diff, workerId, sequence), diff, workerId, sequence,
                  Pow2(l.workerIdBits), Pow2(l.sequenceBits));
  }

  /** Two states of one generator: the one further along has issued the larger id. */
  lemma LastIdOrdered(w: Worker, w': Worker)
    requires Inv(w) && Inv(w') && w'.layout == w.layout && w'.workerId == w.workerId
    requires EPOCH <= w.lastMillis && w'.lastMillis < EPOCH + TimestampSpan(w.layout)
    requires w.lastMillis < w'.lastMillis || (w.lastMillis == w'.lastMillis && w.sequence < w'.sequence)
    ensures LastId(w) < LastId(w')
  {
    DiffInSpan(w.layout, w.lastMillis);
    DiffInSpan(w.layout, w'.lastMillis);
    ComposeOrdered(w.layout, w.workerId, w.lastMillis - EPOCH, w.sequence,
                   w'.lastMillis - EPOCH, w'.sequence);
  }

  /** Under a clock that does not go back, the next issued id is larger than the last one. */
  lemma NextIdIncreasing(w: Worker, clock: seq<int>)
    requires Inv(w) && |clock| > 0 && EPOCH <= w.lastMillis
    requires forall j :: 0 <= j < |clock| ==> w.lastMillis <= clock[j] < EPOCH + TimestampSpan(w.layout)
    ensures NextId(w, clock).outcome.Success? ==> LastId(w) < NextId(w, clock).outcome.value.id
  {
    var s := NextId(w, clock);
    NextIdAdvances(w, clock);
    IssuedMillisIsReading(w, clock, w.lastMillis, EPOCH + TimestampSpan(w.layout));
    if s.outcome.Success? {
      LastIdOrdered(w, s.worker);
    }
  }

  /** Successive calls; `calls[i]` is what the clock shows during call i. Rejected calls issue nothing. */
  function Run(w: Worker, calls: seq<seq<int>>): (r: (Worker, seq<int>))
    requires ValidLayout(w.layout)
    requires forall i :: 0 <= i < |calls| ==> |calls[i]| > 0
    ensures r.0.layout == w.layout && r.0.workerId == w.workerId
    ensures |r.1| <= |calls|
    ensures |r.1| == |calls| <==> AllAnswered(w, calls)
    decreases |calls|
  {
    if calls == [] then (w, [])
    else
      var s := NextId(w, calls[0]);
      var rest := Run(s.worker, calls[1..]);
      (rest.0, if s.outcome.Success? then [s.outcome.value.id] + rest.1 else rest.1)
  }

  /** Every call of a run is answered, each from the state the previous calls left. */
  predicate AllAnswered(w: Worker, calls: seq<seq<int>>)
    requires ValidLayout(w.layout)
    requires forall i :: 0 <= i < |calls| ==> |calls[i]| > 0
    decreases |calls|
  {
    calls != [] ==> Answered(w, calls[0]) && AllAnswered(NextId(w, calls[0]).worker, calls[1..])
  }

  /**
   * A clock that has moved on by the start of every call (each first reading is later than every
   * reading before it) gets an id on every call.
   */
  lemma {:induction false} MovingClockAnswered(w: Worker, calls: seq<seq<int>>)
    requires ValidLayout(w.layout) && forall i :: 0 <= i < |calls| ==> |calls[i]| > 0
    requires forall i :: 0 <= i < |calls| ==> w.lastMillis < calls[i][0]
    requires forall i, i', j :: 0 <= i < i' < |calls| && 0 <= j < |calls[i]| ==> calls[i][j] < calls[i'][0]
    ensures |Run(w, calls).1| == |calls|
    decreases |calls|
  {
    if calls != [] {
      var s := NextId(w, calls[0]);
      assert s.worker.lastMillis == calls[0][0];
      forall i | 0 <= i < |calls[1..]|
        ensures s.worker.lastMillis < calls[1..][i][0]
      {
        assert calls[1..][i] == calls[i + 1];
      }
      forall i, i', j | 0 <= i < i' < |calls[1..]| && 0 <= j < |calls[1..][i]|
        ensures calls[1..][i][j] < calls[1..][i'][0]
      {
        assert calls[1..][i] == calls[i + 1] && calls[1..][i'] == calls[i' + 1];
      }
      MovingClockAnswered(s.worker, calls[1..]);
    }
  }

  /** The last id of a generator whose state lies in [lo, hi) decodes within that window. */
  lemma LastIdDecodes(w: Worker, w': Worker, lo: int, hi: int)
    requires Inv(w') && w'.layout == w.layout && w'.workerId == w.workerId
    requires EPOCH <= lo <= w'.lastMillis < hi <= EPOCH + TimestampSpan(w.layout)
    ensures Decodes(w, LastId(w'), lo, hi)
  {
    var diff := w'.lastMillis - EPOCH;
    DiffInSpan(w.layout, w'.lastMillis);
    assert LastId(w') == Compose(w.layout, diff, w.workerId, w'.sequence);
    DecodeCompose(w.layout, diff, w.workerId, w'.sequence);
    DecodesIntro(w, LastId(w'), diff, w'.sequence, lo, hi);
  }

  lemma DecodesIntro(w: Worker, id: int, diff: int, sequence: int, lo: int, hi: int)
    requires ValidLayout(w.layout) && lo - EPOCH <= diff < hi - EPOCH && 0 <= sequence < Pow2(w.layout.sequenceBits)
    requires TimestampOf(w.layout, id) == diff && SequenceOf(w.layout, id) == sequence
    requires id == Compose(w.layout, diff, w.workerId, sequence)
    ensures Decodes(w, id, lo, hi)
  {
  }

  /** One call of a run under readings in [lo, hi): everything the induction over a run needs. */
  lemma StepWithin(w: Worker, clock: seq<int>, lo: int, hi: int)
    requires Inv(w) && |clock| > 0
    requires EPOCH <= lo && hi <= EPOCH + TimestampSpan(w.layout)
    requires w.lastMillis == -1 || lo <= w.lastMillis < hi
    requires forall j :: 0 <= j < |clock| ==> lo <= clock[j] < hi
    ensures NextId(w, clock).outcome.Failure? ==> NextId(w, clock).worker == w
    ensures NextId(w, clock).outcome.Success? ==>
              var w' := NextId(w, clock).worker;
              && Inv(w') && w'.layout == w.layout && w'.workerId == w.workerId
              && lo <= w'.lastMillis < hi
              && NextId(w, clock).outcome.value.id == LastId(w')
              && Decodes(w, LastId(w'), lo, hi)
              && (EPOCH <= w.lastMillis ==> LastId(w) < LastId(w'))
  {
    var s := NextId(w, clock);
    if s.outcome.Success? {
      NextIdAdvances(w, clock);
      IssuedMillisIsReading(w, clock, lo, hi);
      LastIdDecodes(w, s.worker, lo, hi);
      if EPOCH <= w.lastMillis {
        LastIdOrdered(w, s.worker);
      }
    }
  }

  /**
   * Ids of one generator under readings confined to [lo, hi) inside the timestamp span:
   * strictly increasing (hence distinct), each above the last id issued before, and each
   * decoding to a timestamp in [lo - EPOCH, hi - EPOCH), this worker id and an in-range sequence.
   */
  lemma {:induction false} RunIncreasing(w: Worker, calls: seq<seq<int>>, lo: int, hi: int)
    requires Inv(w) && forall i :: 0 <= i < |calls| ==> |calls[i]| > 0
    requires EPOCH <= lo && hi <= EPOCH + TimestampSpan(w.layout)
    requires w.lastMillis == -1 || lo <= w.lastMillis < hi
    requires ReadingsIn(calls, lo, hi)
    ensures forall i, j :: 0 <= i < j < |Run(w, calls).1| ==> Run(w, calls).1[i] < Run(w, calls).1[j]
    ensures EPOCH <= w.lastMillis ==> forall i :: 0 <= i < |Run(w, calls).1| ==> LastId(w) < Run(w, calls).1[i]
    ensures forall i :: 0 <= i < |Run(w, calls).1| ==> Decodes(w, Run(w, calls).1[i], lo, hi)
    decreases |calls|
  {
    if calls != [] {
      var s := NextId(w, calls[0]);
      var ids := Run(w, calls).1;
      var ids' := Run(s.worker, calls[1..]).1;
      assert forall j :: 0 <= j < |calls[0]| ==> lo <= calls[0][j] < hi;
      assert ReadingsIn(calls[1..], lo, hi) by {
        forall i, j | 0 <= i < |calls[1..]| && 0 <= j < |calls[1..][i]|
          ensures lo <= calls[1..][i][j] < hi
        {
          assert calls[1..][i] == calls[i + 1];
        }
      }
      StepWithin(w, calls[0], lo, hi);
      RunIncreasing(s.worker, calls[1..], lo, hi);
      if s.outcome.Success? {
        assert ids == [LastId(s.worker)] + ids';
      } else {
        assert ids == ids';
      }
    }
  }

  /** Decoding `id` gives a timestamp in [lo - EPOCH, hi - EPOCH), w's worker id and an in-range sequence. */
  predicate Decodes(w: Worker, id: int, lo: int, hi: int)
    requires ValidLayout(w.layout)
  {
    && lo - EPOCH <= TimestampOf(w.layout, id) < hi - EPOCH
    && 0 <= SequenceOf(w.layout, id) < Pow2(w.layout.sequenceBits)
    && id == Compose(w.layout, TimestampOf(w.layout, id), w.workerId, SequenceOf(w.layout, id))
  }

  // ---------------------------------------------------------------------------
  // The 32-bit variant (IdWorkerInt)
  // ---------------------------------------------------------------------------

  /** Milliseconds after which narrowed ids repeat: the timestamp keeps 21 bits below the sign. */
  const NARROW_WINDOW := 0x20_0000

  /** `(nextIdInt << 1) >>> 1` on `(int) nextId()`: keeps the low 31 bits. */
  function Narrow(id: int): (r: int)
    ensures r == id % TWO_31 && 0 <= r < TWO_31
  {
    IntLow31(id);
    IntUShr(IntShl(ToInt(id), 1), 1)
  }

  /** `nextIdInt`: the same step as `nextId`, the issued id narrowed to a non-negative int. */
  function NextIdInt(w: Worker, clock: seq<int>): (s: Step)
    requires w.layout == NARROW_LAYOUT && |clock| > 0
    ensures s.worker == NextId(w, clock).worker
    ensures s.outcome.Success? <==> NextId(w, clock).outcome.Success?
    ensures s.outcome.Failure? ==> s.outcome == NextId(w, clock).outcome
    ensures s.outcome.Success? ==>
              && s.outcome.value.id == NextId(w, clock).outcome.value.id % TWO_31
              && 0 <= s.outcome.value.id < TWO_31
              && s.outcome.value.waited == NextId(w, clock).outcome.value.waited
              && s.outcome.value.rest == NextId(w, clock).outcome.value.rest
  {
    var s := NextId(w, clock);
    match s.outcome
    case Failure(_) => s
    case Success(issue) => Step(s.worker, Success(issue.(id := Narrow(issue.id))))
  }

  lemma NarrowArith(d: int, workerId: int, sequence: int)
    requires 0 <= d && 0 <= workerId < 32 && 0 <= sequence < 32
    ensures ((d * 32 + workerId) * 32 + sequence) % TWO_31
            == (d % NARROW_WINDOW) * 1024 + workerId * 32 + sequence
  {
    Pow2To31();
    Pow2To21();
    var q, m := d / NARROW_WINDOW, d % NARROW_WINDOW;
    assert d * 1024 == TWO_31 * q + m * 1024;
    DivModUnique((d * 32 + workerId) * 32 + sequence, TWO_31, q, m * 1024 + workerId * 32 + sequence);
  }

  /** The narrowed id keeps the timestamp modulo 2^21 above the worker id and sequence. */
  lemma NarrowFields(d: int, workerId: int, sequence: int)
    requires Fits(NARROW_LAYOUT, d, workerId, sequence)
    ensures Narrow(Compose(NARROW_LAYOUT, d, workerId, sequence))
            == (d % NARROW_WINDOW) * 1024 + workerId * 32 + sequence
  {
    Pow2Small();
    assert Compose(NARROW_LAYOUT, d, workerId, sequence) == (d * 32 + workerId) * 32 + sequence by {
      ComposeValue(NARROW_LAYOUT, d, workerId, sequence);
    }
    NarrowArith(d, workerId, sequence);
  }

  lemma NarrowCompareArith(m1: int, s1: int, m2: int, s2: int, workerId: int)
    requires 0 <= s1 < 32 && 0 <= s2 < 32 && 0 <= m1 && 0 <= m2
    ensures m1 * 1024 + workerId * 32 + s1 == m2 * 1024 + workerId * 32 + s2 <==> m1 == m2 && s1 == s2
  {
    if m1 * 1024 + s1 == m2 * 1024 + s2 {
      DivModUnique(m1 * 1024 + s1, 1024, m1, s1);
      DivModUnique(m2 * 1024 + s2, 1024, m2, s2);
    }
  }

  /**
   * Two narrowed ids of one worker coincide exactly when their timestamps agree modulo 2^21 and
   * their sequences agree: the 32-bit ids repeat every NARROW_WINDOW milliseconds (about 35 minutes).
   */
  lemma NarrowCollision(workerId: int, d1: int, s1: int, d2: int, s2: int)
    requires Fits(NARROW_LAYOUT, d1, workerId, s1) && Fits(NARROW_LAYOUT, d2, workerId, s2)
    ensures Narrow(Compose(NARROW_LAYOUT, d1, workerId, s1)) == Narrow(Compose(NARROW_LAYOUT, d2, workerId, s2))
            <==> d1 % NARROW_WINDOW == d2 % NARROW_WINDOW && s1 == s2
  {
    Pow2Small();
    NarrowFields(d1, workerId, s1);
    NarrowFields(d2, workerId, s2);
    NarrowCompareArith(d1 % NARROW_WINDOW, s1, d2 % NARROW_WINDOW, s2, workerId);
  }

  /** Successive `nextIdInt` calls; the generator evolves exactly as under `Run`. */
  function RunInt(w: Worker, calls: seq<seq<int>>): (r: (Worker, seq<int>))
    requires w.layout == NARROW_LAYOUT
    requires forall i :: 0 <= i < |calls| ==> |calls[i]| > 0
    ensures r.0 == Run(w, calls).0 && |r.1| == |Run(w, calls).1|
    ensures forall i :: 0 <= i < |r.1| ==> r.1[i] == Run(w, calls).1[i] % TWO_31
    decreases |calls|
  {
    if calls == [] then (w, [])
    else
      var s := NextIdInt(w, calls[0]);
      var rest := RunInt(s.worker, calls[1..]);
      (rest.0, if s.outcome.Success? then [s.outcome.value.id] + rest.1 else rest.1)
  }

  lemma ModWindow(d1: int, d2: int, lo: int)
    requires lo <= d1 < lo + NARROW_WINDOW && lo <= d2 < lo + NARROW_WINDOW
    requires d1 % NARROW_WINDOW == d2 % NARROW_WINDOW
    ensures d1 == d2
  {
    var q1, q2 := d1 / NARROW_WINDOW, d2 / NARROW_WINDOW;
    assert d1 - d2 == NARROW_WINDOW * (q1 - q2);
    if q1 > q2 {
      MulMono(1, q1 - q2, NARROW_WINDOW);
    } else if q1 < q2 {
      MulMono(1, q2 - q1, NARROW_WINDOW);
    }
  }

  /**
   * While every reading lies in one window of 2^21 milliseconds, the 32-bit ids of one
   * generator are pairwise distinct.
   */
  lemma RunIntDistinct(w: Worker, calls: seq<seq<int>>, lo: int)
    requires Inv(w) && w.layout == NARROW_LAYOUT
    requires forall i :: 0 <= i < |calls| ==> |calls[i]| > 0
    requires EPOCH <= lo && lo + NARROW_WINDOW <= EPOCH + TimestampSpan(NARROW_LAYOUT)
    requires w.lastMillis == -1 || lo <= w.lastMillis < lo + NARROW_WINDOW
    requires ReadingsIn(calls, lo, lo + NARROW_WINDOW)
    ensures forall i, j :: 0 <= i < j < |RunInt(w, calls).1| ==> RunInt(w, calls).1[i] != RunInt(w, calls).1[j]
  {
    var hi := lo + NARROW_WINDOW;
    var ids := Run(w, calls).1;
    RunIncreasing(w, calls, lo, hi);
    forall i, j | 0 <= i < j < |ids|
      ensures ids[i] % TWO_31 != ids[j] % TWO_31
    {
      var l := w.layout;
      assert Decodes(w, ids[i], lo, hi) && Decodes(w, ids[j], lo, hi);
      NarrowPairDistinct(w.workerId, TimestampOf(l, ids[i]), SequenceOf(l, ids[i]),
                         TimestampOf(l, ids[j]), SequenceOf(l, ids[j]), ids[i], ids[j], lo - EPOCH);
    }
  }

  /** Two different ids of one worker whose timestamps share a 2^21 window differ in their low 31 bits. */
  lemma NarrowPairDistinct(workerId: int, d1: int, s1: int, d2: int, s2: int, a: int, b: int, lo: int)
    requires Fits(NARROW_LAYOUT, d1, workerId, s1) && Fits(NARROW_LAYOUT, d2, workerId, s2)
    requires lo <= d1 < lo + NARROW_WINDOW && lo <= d2 < lo + NARROW_WINDOW
    requires a == Compose(NARROW_LAYOUT, d1, workerId, s1) && b == Compose(NARROW_LAYOUT, d2, workerId, s2)
    requires a != b
    ensures a % TWO_31 != b % TWO_31
  {
    NarrowCollision(workerId, d1, s1, d2, s2);
    if d1 % NARROW_WINDOW == d2 % NARROW_WINDOW && s1 == s2 {
      ModWindow(d1, d2, lo);
      assert false;
    }
  }
}

=== FILE: java_bits.dfy ===
/**
 * Java's fixed-width integer semantics, stated over unbounded integers.
 *
 * A Java `long` (resp. `int`) is an integer in [-2^63, 2^63) (resp. [-2^31, 2^31));
 * its bit pattern is the unsigned value `x % 2^64` (resp. `x % 2^32`). Narrowing,
 * shifts and the bitwise operators are written out here so that the generator and
 * the Bloom filters can use exactly the operators the Java code uses.
 */
module JavaBits {

  const TWO_31: int := 0x8000_0000
  const TWO_32: int := 0x1_0000_0000
  const TWO_63: int := 0x8000_0000_0000_0000
  const TWO_64: int := 0x1_0000_0000_0000_0000
  /** Integer.MAX_VALUE */
  const INT_MAX: int := TWO_31 - 1
  /** Integer.MIN_VALUE */
  const INT_MIN: int := -TWO_31

  predicate IsLong(x: int) { -TWO_63 <= x < TWO_63 }
  predicate IsInt(x: int) { INT_MIN <= x <= INT_MAX }

  function Pow2(n: nat): (r: int)
    ensures r >= 1
  {
    if n == 0 then 1 else 2 * Pow2(n - 1)
  }

  // ---------------------------------------------------------------------------
  // Narrowing: keep the low bits, read them as two's complement.
  // ---------------------------------------------------------------------------

  /** The long whose bit pattern is the low 64 bits of `x` (wrap-around of long arithmetic). */
  function ToLong(x: int): (r: int)
    ensures IsLong(r)
    ensures IsLong(x) ==> r == x
  {
    var u := x % TWO_64;
    if u < TWO_63 then u else u - TWO_64
  }

  /** The `(int)` cast: the int whose bit pattern is the low 32 bits of `x`. */
  function ToInt(x: int): (r: int)
    ensures IsInt(r)
    ensures IsInt(x) ==> r == x
  {
    var u := x % TWO_32;
    if u < TWO_31 then u else u - TWO_32
  }

  // ---------------------------------------------------------------------------
  // Bitwise operators on bit patterns (non-negative integers).
  // Bit i of n is (n / 2^i) % 2.
  // ---------------------------------------------------------------------------

  function Or(a: nat, b: nat): nat
    decreases a + b
  {
    if a == 0 then b
    else if b == 0 then a
    else 2 * Or(a / 2, b / 2) + (if a % 2 == 1 || b % 2 == 1 then 1 else 0)
  }

  function And(a: nat, b: nat): nat
    decreases a + b
  {
    if a == 0 || b == 0 then 0
    else 2 * And(a / 2, b / 2) + (if a % 2 == 1 && b % 2 == 1 then 1 else 0)
  }

  function Xor(a: nat, b: nat): nat
    decreases a + b
  {
    if a == 0 then b
    else if b == 0 then a
    else 2 * Xor(a / 2, b / 2) + (if a % 2 != b % 2 then 1 else 0)
  }

  // ---------------------------------------------------------------------------
  // Java operators on long and int.
  // ---------------------------------------------------------------------------

  /** `a | b` on long. */
  function LongOr(a: int, b: int): int { ToLong(Or(a % TWO_64, b % TWO_64)) }

  /** `a & b` on long. */
  function LongAnd(a: int, b: int): int { ToLong(And(a % TWO_64, b % TWO_64)) }

  /** `a ^ b` on long. */
  function LongXor(a: int, b: int): int { ToLong(Xor(a % TWO_64, b % TWO_64)) }

  /** `~a` on long. */
  function LongNot(a: int): int { ToLong(-a - 1) }

  /** `a << n` on long; Java uses only the low six bits of the distance. */
  function LongShl(a: int, n: int): int { ToLong(a * Pow2(n % 64)) }

  /** `a >> n` on long: arithmetic shift, i.e. division rounding toward minus infinity. */
  function LongShr(a: int, n: int): int { a / Pow2(n % 64) }

  /** `a << n` on int; Java uses only the low five bits of the distance. */
  function IntShl(a: int, n: int): int { ToInt(a * Pow2(n % 32)) }

  /** `a >>> n` on int: logical shift of the 32-bit pattern. */
  function IntUShr(a: int, n: int): int { ToInt((a % TWO_32) / Pow2(n % 32)) }

  /** `a % b` on int: truncated remainder, whose sign follows the dividend. */
  function IntRem(a: int, b: int): int
    requires b != 0
  {
    var m := if b < 0 then -b else b;
    if a >= 0 then a % m else -((-a) % m)
  }

  /** `Math.abs(int)`: negation wraps, so the absolute value of Integer.MIN_VALUE is itself. */
  function IntAbs(a: int): int { if a < 0 then ToInt(-a) else a }

  // ---------------------------------------------------------------------------
  // Arithmetic facts about powers of two.
  // ---------------------------------------------------------------------------

  lemma {:induction false} Pow2Add(a: nat, b: nat)
    ensures Pow2(a + b) == Pow2(a) * Pow2(b)
  {
    if a > 0 {
      Pow2Add(a - 1, b);
      assert Pow2(a + b) == 2 * Pow2(a - 1 + b);
    }
  }

  lemma {:induction false} Pow2Monotone(a: nat, b: nat)
    requires a <= b
    ensures Pow2(a) <= Pow2(b)
  {
    if a < b {
      Pow2Monotone(a, b - 1);
    }
  }

  lemma Pow2Small()
    ensures Pow2(5) == 32 && Pow2(10) == 1024 && Pow2(11) == 2048
  {
  }

  lemma Pow2To21()
    ensures Pow2(21) == 0x20_0000
  {
    Pow2Small();
    Pow2Add(10, 11);
  }

  lemma Pow2To31()
    ensures Pow2(31) == TWO_31
  {
    Pow2Small();
    Pow2To21();
    Pow2Add(21, 10);
  }

  lemma Pow2To32()
    ensures Pow2(32) == TWO_32
  {
    Pow2To31();
    Pow2Add(31, 1);
  }

  lemma Pow2To63()
    ensures Pow2(63) == TWO_63
  {
    Pow2To31();
    Pow2To32();
    Pow2Add(32, 31);
  }

  lemma Pow2To64()
    ensures Pow2(64) == TWO_64
  {
    Pow2To32();
    Pow2Add(32, 32);
  }

  lemma MulNonneg(a: int, b: int)
    requires a >= 0 && b >= 0
    ensures a * b >= 0
  {
  }

  /** Euclidean division is unique. */
  lemma DivModUnique(x: int, d: int, q: int, r: int)
    requires d > 0 && 0 <= r < d && x == d * q + r
    ensures x / d == q && x % d == r
  {
    var q', r' := x / d, x % d;
    assert d * (q - q') == r' - r;
    if q' < q {
      MulNonneg(d, q - q' - 1);
    } else if q' > q {
      MulNonneg(d, q' - q - 1);
    }
  }

  /** Reducing modulo a multiple of m first does not change the residue modulo m. */
  lemma ModOfMod(x: int, m: int, k: int)
    requires m > 0 && k > 0
    ensures (x % (m * k)) % m == x % m
  {
    var q := x / (m * k);
    var r := x % (m * k);
    assert x == (m * k) * q + r;
    DivModUnique(x, m, k * q + r / m, r % m);
  }

  /** Splitting off the lowest bit: x % 2P is made of (x/2) % P and x % 2. */
  lemma ModDouble(x: int, p: int)
    requires p > 0
    ensures x % (2 * p) == 2 * ((x / 2) % p) + x % 2
    ensures (x / 2) / p == x / (2 * p)
  {
    var q := x / 2;
    DivModUnique(x, 2 * p, q / p, 2 * (q % p) + x % 2);
  }

  // ---------------------------------------------------------------------------
  // What the bitwise operators compute on aligned fields.
  // ---------------------------------------------------------------------------

  lemma OrZero(a: nat)
    ensures Or(a, 0) == a
  {
  }

  /** OR-ing a value below 2^k into a multiple of 2^k is addition: the fields are disjoint. */
  lemma {:induction false} OrDisjoint(hi: nat, lo: nat, k: nat)
    requires lo < Pow2(k)
    ensures Or(hi * Pow2(k), lo) == hi * Pow2(k) + lo
  {
    if k == 0 {
      OrZero(hi);
    } else {
      var a := hi * Pow2(k);
      assert a == 2 * (hi * Pow2(k - 1));
      if a != 0 && lo != 0 {
        assert a / 2 == hi * Pow2(k - 1) && a % 2 == 0;
        OrDisjoint(hi, lo / 2, k - 1);
      }
    }
  }

  /** AND with 2^k - 1 keeps the low k bits. */
  lemma {:induction false} AndLowMask(x: nat, k: nat)
    ensures And(x, Pow2(k) - 1) == x % Pow2(k)
  {
    if k == 0 {
      assert Pow2(k) == 1;
    } else if x == 0 {
      DivModUnique(0, Pow2(k), 0, 0);
    } else {
      var p := Pow2(k - 1);
      assert Pow2(k) == 2 * p;
      AndOddMask(x, p);
      AndLowMask(x / 2, k - 1);
      ModDouble(x, p);
    }
  }

  /** AND with an odd mask 2p - 1 splits off the lowest bit of x. */
  lemma AndOddMask(x: nat, p: int)
    requires x != 0 && p >= 1
    ensures And(x, 2 * p - 1) == 2 * And(x / 2, p - 1) + x % 2
  {
    DivModUnique(2 * p - 1, 2, p - 1, 1);
  }

  /** XOR with 2^k - 1 complements the low k bits. */
  lemma {:induction false} XorAllOnes(k: nat, y: nat)
    requires y < Pow2(k)
    ensures Xor(Pow2(k) - 1, y) == Pow2(k) - 1 - y
  {
    if k > 0 && y != 0 {
      var m := Pow2(k) - 1;
      assert m % 2 == 1 && m / 2 == Pow2(k - 1) - 1;
      XorAllOnes(k - 1, y / 2);
    }
  }

  // ---------------------------------------------------------------------------
  // The same facts lifted to Java's long and int operators.
  // ---------------------------------------------------------------------------

  lemma Pow2BelowSign(n: nat)
    requires n < 64
    ensures Pow2(n) <= TWO_63
  {
    Pow2To63();
    Pow2Monotone(n, 63);
  }

  /** `-1L << n` is -2^n, whose bit pattern is 2^64 - 2^n. */
  lemma ShiftedOnes(n: nat)
    requires n < 64
    ensures LongShl(-1, n) == -Pow2(n)
    ensures (-Pow2(n)) % TWO_64 == TWO_64 - Pow2(n)
  {
    var p := Pow2(n);
    Pow2BelowSign(n);
    NegativeLong(p);
    assert n % 64 == n;
    assert Pow2(n % 64) == p;
    assert LongShl(-1, n) == ToLong(-1 * p);
  }

  /** A negative long -p has the bit pattern 2^64 - p. */
  lemma NegativeLong(p: int)
    requires 1 <= p <= TWO_63
    ensures ToLong(-p) == -p && (-p) % TWO_64 == TWO_64 - p
  {
    DivModUnique(-p, TWO_64, -1, TWO_64 - p);
  }

  lemma ComplementOfShiftedOnes(n: nat)
    requires n < 64
    ensures Pow2(n) <= TWO_63 && Xor(TWO_64 - 1, TWO_64 - Pow2(n)) == Pow2(n) - 1
  {
    Pow2BelowSign(n);
    Pow2To64();
    XorAllOnes(64, TWO_64 - Pow2(n));
  }

  /** `-1L ^ (-1L << n)` is the mask of the low n bits. */
  lemma LowMaskOfOnes(n: nat)
    requires n < 64
    ensures LongXor(-1, LongShl(-1, n)) == Pow2(n) - 1
  {
    Pow2BelowSign(n);
    ShiftedOnes(n);
    ComplementOfShiftedOnes(n);
    DivModUnique(-1, TWO_64, -1, TWO_64 - 1);
  }

  /** `x & (2^k - 1)` on long is the Euclidean residue of x modulo 2^k, whatever the sign of x. */
  lemma LongAndLowMask(x: int, k: nat)
    requires k < 64
    ensures LongAnd(x, Pow2(k) - 1) == x % Pow2(k)
  {
    var p := Pow2(k);
    Pow2BelowSign(k);
    DivModUnique(p - 1, TWO_64, 0, p - 1);
    var u := x % TWO_64;
    assert LongAnd(x, p - 1) == ToLong(And(u, p - 1));
    AndLowMask(u, k);
    LongResidue(x, k);
    SmallResidue(x, p);
  }

  /** A residue modulo p <= 2^63 is already a long. */
  lemma SmallResidue(x: int, p: int)
    requires 1 <= p <= TWO_63
    ensures ToLong(x % p) == x % p
  {
  }

  /** Reducing to the 64-bit pattern first keeps the residue modulo 2^k for k < 64. */
  lemma LongResidue(x: int, k: nat)
    requires k < 64
    ensures (x % TWO_64) % Pow2(k) == x % Pow2(k)
  {
    Pow2To64();
    Pow2Add(k, 64 - k);
    ModOfMod(x, Pow2(k), Pow2(64 - k));
  }

  /** OR of two disjoint non-negative long fields is their sum. */
  lemma LongOrDisjoint(hi: nat, lo: nat, k: nat)
    requires lo < Pow2(k) && hi * Pow2(k) + lo < TWO_63
    ensures LongOr(hi * Pow2(k), lo) == hi * Pow2(k) + lo
  {
    var a := hi * Pow2(k);
    MulNonneg(hi, Pow2(k));
    DivModUnique(a, TWO_64, 0, a);
    DivModUnique(lo, TWO_64, 0, lo);
    OrDisjoint(hi, lo, k);
    assert Or(a, lo) == a + lo;
  }

  /** A left shift that does not reach the sign bit is multiplication. */
  lemma LongShlExact(a: nat, n: nat)
    requires n < 64 && a * Pow2(n) < TWO_63
    ensures LongShl(a, n) == a * Pow2(n)
  {
    assert n % 64 == n;
    MulNonneg(a, Pow2(n));
    assert IsLong(a * Pow2(n));
  }

  /** `((int) x << 1) >>> 1` keeps exactly the low 31 bits of x. */
  lemma IntLow31(x: int)
    ensures IntUShr(IntShl(ToInt(x), 1), 1) == x % TWO_31
  {
    Pow2To31();
    Pow2To32();
    var t := ToInt(x);
    assert Pow2(1 % 32) == 2;
    var v := IntShl(t, 1);
    assert v == ToInt(2 * t);
    IntResidue(2 * t);
    DoubledResidue(t);
    assert IntUShr(v, 1) == ToInt((2 * (t % TWO_31)) / 2);
    IntResidue(x);
    ModOfMod(t, TWO_31, 2);
    ModOfMod(x, TWO_31, 2);
  }

  /** The `(int)` cast keeps the 32-bit pattern. */
  lemma IntResidue(x: int)
    ensures ToInt(x) % TWO_32 == x % TWO_32
  {
    var u := x % TWO_32;
    if u >= TWO_31 {
      DivModUnique(u - TWO_32, TWO_32, -1, u);
    }
  }

  /** Doubling shifts the low 31 bits up by one within the 32-bit pattern. */
  lemma DoubledResidue(t: int)
    ensures (2 * t) % TWO_32 == 2 * (t % TWO_31)
  {
    ModDouble(2 * t, TWO_31);
  }

  /** Masking never yields more than the mask. */
  lemma {:induction false} AndBelow(a: nat, b: nat)
    ensures And(a, b) <= b
    decreases a + b
  {
    if a != 0 && b != 0 {
      AndBelow(a / 2, b / 2);
    }
  }

  /** `x & d` on long with a non-negative mask `d` lies in [0, d]. */
  lemma LongAndBelow(x: int, d: int)
    requires 0 <= d < TWO_63
    ensures 0 <= LongAnd(x, d) <= d
  {
    AndBelow(x % TWO_64, d % TWO_64);
  }
}

=== FILE: java_text.dfy ===
/**
 * The few pieces of Java's string library the worker-id allocator relies on:
 * `String.format("%0<w>d", n)`, `Long.parseLong`, `String.split(",")`,
 * `trim().isEmpty()`, and the `\d` character class. Strings are `seq<char>`.
 */
module JavaText {
  import opened Wrappers
  import opened JavaBits

  /** `\d` in a Java regular expression (ASCII digits only by default). */
  predicate IsDigit(c: char) {
    '0' <= c <= '9'
  }

  predicate AllDigits(s: string) {
    forall i :: 0 <= i < |s| ==> IsDigit(s[i])
  }

  function DigitChar(d: int): (c: char)
    requires 0 <= d < 10
    ensures IsDigit(c) && c as int - '0' as int == d
  {
    ('0' as int + d) as char
  }

  /** The value of a string of decimal digits, most significant first. */
  function ValueOf(s: string): nat
    requires AllDigits(s)
  {
    if |s| == 0 then 0 else 10 * ValueOf(s[..|s| - 1]) + (s[|s| - 1] as int - '0' as int)
  }

  function Pow10(k: nat): (r: nat)
    ensures r >= 1
  {
    if k == 0 then 1 else 10 * Pow10(k - 1)
  }

  /** The shortest decimal spelling of `n` (`Long.toString` for `n >= 0`). */
  function Digits(n: nat): (r: string)
    ensures |r| >= 1 && AllDigits(r) && ValueOf(r) == n
    ensures |r| > 1 ==> r[0] != '0'
  {
    if n < 10 then [DigitChar(n)]
    else
      var r := Digits(n / 10) + [DigitChar(n % 10)];
      assert r[..|r| - 1] == Digits(n / 10);
      r
  }

  /** A string of `k` zeros. */
  function Zeros(k: nat): (r: string)
    ensures |r| == k && AllDigits(r)
  {
    seq(k, _ => '0')
  }

  /** Left-pads a digit string with zeros up to `width` characters. */
  function ZeroPad(s: string, width: nat): (r: string)
    ensures |r| == if |s| < width then width else |s|
  {
    if |s| < width then Zeros(width - |s|) + s else s
  }

  /**
   * `String.format("%0<width>d", n)`: the sign counts toward the width; zeros go after it.
   * At least `width` characters, spelling `n` in decimal after an optional minus sign.
   */
  function FormatZeroPadded(n: int, width: nat): (r: string)
    ensures |r| >= width
    ensures n >= 0 ==> |r| >= 1 && AllDigits(r) && ValueOf(r) == n
    ensures n < 0 ==> |r| >= 2 && r[0] == '-' && AllDigits(r[1..]) && ValueOf(r[1..]) == -n
  {
    if n >= 0 then
      PaddedValue(n, width);
      ZeroPad(Digits(n), width)
    else
      var w' := if width == 0 then 0 else width - 1;
      PaddedValue(-n, w');
      var r := "-" + ZeroPad(Digits(-n), w');
      assert r[1..] == ZeroPad(Digits(-n), w');
      r
  }

  /**
   * `Long.parseLong(s)`: an optional sign, at least one digit, a value inside the long range;
   * anything else is a `NumberFormatException` (here `None`). Only ASCII digits are accepted.
   */
  function ParseLong(s: string): (r: Option<int>)
    ensures r.Some? ==> |s| > 0 && IsLong(r.value)
    ensures r.Some? && r.value < 0 ==> s[0] == '-'
    ensures r.Some? && s[0] != '-' ==> r.value >= 0
    ensures |s| > 0 && AllDigits(s) && IsLong(ValueOf(s)) ==> r == Some(ValueOf(s))
    ensures |s| > 0 && AllDigits(s) && !IsLong(ValueOf(s)) ==> r.None?
    ensures (exists i :: 0 < i < |s| && !IsDigit(s[i])) ==> r.None?
  {
    if |s| == 0 then None
    else
      var body := if s[0] == '-' || s[0] == '+' then s[1..] else s;
      if |body| == 0 || !AllDigits(body) then None
      else
        var v: int := if s[0] == '-' then -(ValueOf(body) as int) else ValueOf(body);
        if IsLong(v) then Some(v) else None
  }

  /** `s.trim().isEmpty()`: every character is a control character or a space. */
  predicate IsBlank(s: string) {
    forall i :: 0 <= i < |s| ==> s[i] <= ' '
  }

  // ---------------------------------------------------------------------------
  // Facts about decimal spelling
  // ---------------------------------------------------------------------------

  lemma {:induction false} ValueOfAppend(s: string, c: char)
    requires AllDigits(s) && IsDigit(c)
    ensures AllDigits(s + [c]) && ValueOf(s + [c]) == 10 * ValueOf(s) + (c as int - '0' as int)
  {
    assert (s + [c])[..|s|] == s;
  }

  /** Leading zeros do not change the value. */
  lemma {:induction false} ValueOfZeros(k: nat, s: string)
    requires AllDigits(s)
    ensures AllDigits(Zeros(k) + s) && ValueOf(Zeros(k) + s) == ValueOf(s)
    decreases |s|
  {
    if |s| == 0 {
      assert Zeros(k) + s == Zeros(k);
      ZerosValue(k);
    } else {
      var init, last := s[..|s| - 1], s[|s| - 1];
      assert s == init + [last];
      assert Zeros(k) + s == (Zeros(k) + init) + [last];
      ValueOfZeros(k, init);
      ValueOfAppend(Zeros(k) + init, last);
      ValueOfAppend(init, last);
    }
  }

  lemma {:induction false} ZerosValue(k: nat)
    ensures ValueOf(Zeros(k)) == 0
  {
    if k > 0 {
      assert Zeros(k)[..k - 1] == Zeros(k - 1);
      ZerosValue(k - 1);
    }
  }

  /** The shortest spelling of `n` fits in `k >= 1` characters exactly when `n < 10^k`. */
  lemma {:induction false} DigitsLength(n: nat, k: nat)
    requires k >= 1
    ensures |Digits(n)| <= k <==> n < Pow10(k)
  {
    if n >= 10 {
      if k == 1 {
        assert |Digits(n)| == |Digits(n / 10)| + 1;
      } else {
        DigitsLength(n / 10, k - 1);
      }
    }
  }

  /** A zero-padded spelling reads back as the number it spells. */
  lemma PaddedValue(n: nat, width: nat)
    ensures AllDigits(ZeroPad(Digits(n), width)) && ValueOf(ZeroPad(Digits(n), width)) == n
    ensures |ZeroPad(Digits(n), width)| >= 1
  {
    if |Digits(n)| < width {
      ValueOfZeros(width - |Digits(n)|, Digits(n));
    }
  }

  /** `Long.parseLong(String.format("%0<width>d", n)) == n` for every long `n`. */
  lemma ParseFormatted(n: int, width: nat)
    requires IsLong(n)
    ensures ParseLong(FormatZeroPadded(n, width)) == Some(n)
  {
    if n >= 0 {
      PaddedValue(n, width);
    } else {
      var w' := if width == 0 then 0 else width - 1;
      PaddedValue(-n, w');
      assert FormatZeroPadded(n, width)[1..] == ZeroPad(Digits(-n), w');
    }
  }

  /** `%04d` spells exactly four digits (no sign, no overflow) iff the number is in [0, 9999]. */
  lemma FourDigitsExactly(n: int)
    ensures (|FormatZeroPadded(n, 4)| == 4 && AllDigits(FormatZeroPadded(n, 4))) <==> 0 <= n <= 9999
  {
    if n >= 0 {
      DigitsLength(n, 4);
      PaddedValue(n, 4);
    } else {
      assert !IsDigit(FormatZeroPadded(n, 4)[0]);
    }
  }

  /** Four digits are the `%04d` spelling of their value, so the spelling is injective on [0, 9999]. */
  lemma FourDigitsCanonical(s: string)
    requires |s| == 4 && AllDigits(s)
    ensures ValueOf(s) <= 9999 && FormatZeroPadded(ValueOf(s), 4) == s
  {
    ValueOfBound(s);
    FormatOfDigits(s, 4);
  }

  lemma {:induction false} ValueOfBound(s: string)
    requires AllDigits(s)
    ensures ValueOf(s) < Pow10(|s|)
    decreases |s|
  {
    if |s| > 0 {
      ValueOfBound(s[..|s| - 1]);
    }
  }

  /** A digit string of length `k` is the zero-padded spelling of its value. */
  lemma {:induction false} FormatOfDigits(s: string, k: nat)
    requires |s| == k && k >= 1 && AllDigits(s)
    ensures ZeroPad(Digits(ValueOf(s)), k) == s
    decreases k
  {
    var v := ValueOf(s);
    if s[0] == '0' && k > 1 {
      FormatOfDigits(s[1..], k - 1);
      ZeroLead(s);
      ValueOfBound(s[1..]);
      DigitsLength(v, k - 1);
      PadOneMore(Digits(v), k);
      assert s == ['0'] + s[1..];
    } else {
      DigitsSpelling(s);
    }
  }

  lemma PadOneMore(d: string, k: nat)
    requires 1 <= k && |d| <= k - 1
    ensures ZeroPad(d, k) == ['0'] + ZeroPad(d, k - 1)
  {
    assert Zeros(k - |d|) == ['0'] + Zeros(k - 1 - |d|);
  }

  lemma ZeroLead(s: string)
    requires |s| > 1 && AllDigits(s) && s[0] == '0'
    ensures ValueOf(s) == ValueOf(s[1..])
  {
    assert s == Zeros(1) + s[1..];
    ValueOfZeros(1, s[1..]);
  }

  /** A digit string without a leading zero is the shortest spelling of its value. */
  lemma {:induction false} DigitsSpelling(s: string)
    requires |s| >= 1 && AllDigits(s) && (|s| > 1 ==> s[0] != '0')
    ensures Digits(ValueOf(s)) == s
    decreases |s|
  {
    var v := ValueOf(s);
    if |s| == 1 {
      assert s[..|s| - 1] == [] && s[|s| - 1] == s[0];
      assert v == 10 * ValueOf([]) + (s[0] as int - '0' as int);
    } else {
      var init := s[..|s| - 1];
      DigitsSpelling(init);
      LeadingNonzero(init);
      assert v / 10 == ValueOf(init) && v % 10 == s[|s| - 1] as int - '0' as int;
      assert s == init + [s[|s| - 1]];
    }
  }

  lemma {:induction false} LeadingNonzero(s: string)
    requires |s| >= 1 && AllDigits(s) && s[0] != '0'
    ensures ValueOf(s) >= 1
    decreases |s|
  {
    if |s| > 1 {
      LeadingNonzero(s[..|s| - 1]);
    }
  }

  // ---------------------------------------------------------------------------
  // String.split
  // ---------------------------------------------------------------------------

  /** Every piece between separators, empty pieces included. */
  function SplitAll(s: string, sep: char): (r: seq<string>)
    ensures |r| >= 1
    ensures forall i :: 0 <= i < |r| ==> sep !in r[i]
  {
    if |s| == 0 then [""]
    else
      var rest := SplitAll(s[1..], sep);
      if s[0] == sep then [""] + rest else [[s[0]] + rest[0]] + rest[1..]
  }

  /** The pieces put back together with the separator between them. */
  function Join(parts: seq<string>, sep: char): string
    requires |parts| >= 1
  {
    if |parts| == 1 then parts[0] else parts[0] + [sep] + Join(parts[1..], sep)
  }

  function DropTrailingEmpty(parts: seq<string>): (r: seq<string>)
    ensures |r| <= |parts| && r == parts[..|r|]
    ensures |r| > 0 ==> r[|r| - 1] != ""
    ensures forall i :: |r| <= i < |parts| ==> parts[i] == ""
  {
    if |parts| > 0 && parts[|parts| - 1] == "" then DropTrailingEmpty(parts[..|parts| - 1]) else parts
  }

  /** A string without the separator is a single piece. */
  lemma {:induction false} SplitAllNoSep(s: string, sep: char)
    requires sep !in s
    ensures SplitAll(s, sep) == [s]
    decreases |s|
  {
    if |s| > 0 {
      assert sep !in s[1..] by {
        assert forall c :: c in s[1..] ==> c in s;
      }
      SplitAllNoSep(s[1..], sep);
      assert s == [s[0]] + s[1..];
    }
  }

  /**
   * `s.split(String.valueOf(sep))`: the pieces between separators, minus the trailing empty ones;
   * a string without the separator is returned whole, even when it is empty.
   */
  function JavaSplit(s: string, sep: char): (r: seq<string>)
    ensures |r| <= |SplitAll(s, sep)| && r == SplitAll(s, sep)[..|r|]
    ensures forall i :: |r| <= i < |SplitAll(s, sep)| ==> SplitAll(s, sep)[i] == ""
    ensures forall i :: 0 <= i < |r| ==> sep !in r[i]
    ensures sep in s && |r| > 0 ==> r[|r| - 1] != ""
    ensures sep !in s ==> |r| == 1
  {
    if sep !in s then SplitAllNoSep(s, sep); [s] else DropTrailingEmpty(SplitAll(s, sep))
  }

  /** Splitting loses nothing: joining the pieces gives back the string. */
  lemma {:induction false} JoinSplitAll(s: string, sep: char)
    ensures Join(SplitAll(s, sep), sep) == s
    decreases |s|
  {
    if |s| > 0 {
      var rest := SplitAll(s[1..], sep);
      JoinSplitAll(s[1..], sep);
      if s[0] == sep {
        assert s == [sep] + s[1..];
      } else if |rest| == 1 {
        assert s == [s[0]] + s[1..];
      } else {
        assert rest == [rest[0]] + rest[1..];
        assert Join(rest, sep) == rest[0] + [sep] + Join(rest[1..], sep);
        assert s == [s[0]] + s[1..];
      }
    }
  }

  /** Joining pieces that hold no separator and splitting again gives the same pieces. */
  lemma {:induction false} SplitAllJoin(parts: seq<string>, sep: char)
    requires |parts| >= 1 && forall i :: 0 <= i < |parts| ==> sep !in parts[i]
    ensures SplitAll(Join(parts, sep), sep) == parts
    decreases |parts|, |parts[0]|
  {
    if |parts[0]| > 0 {
      var p0 := parts[0];
      var tail := [p0[1..]] + parts[1..];
      assert Join(parts, sep) == [p0[0]] + Join(tail, sep) by {
        if |parts| > 1 {
          assert Join(tail, sep) == p0[1..] + [sep] + Join(tail[1..], sep);
          assert tail[1..] == parts[1..];
        }
      }
      assert sep !in p0[1..] by {
        assert forall c :: c in p0[1..] ==> c in p0;
      }
      SplitAllJoin(tail, sep);
      assert p0 == [p0[0]] + p0[1..];
    } else if |parts| > 1 {
      assert Join(parts, sep) == [sep] + Join(parts[1..], sep);
      SplitAllJoin(parts[1..], sep);
    }
  }

  /** Non-empty pieces without separators survive a join followed by `String.split`. */
  lemma SplitJoin(parts: seq<string>, sep: char)
    requires |parts| >= 1 && forall i :: 0 <= i < |parts| ==> sep !in parts[i] && parts[i] != ""
    ensures JavaSplit(Join(parts, sep), sep) == parts
  {
    SplitAllJoin(parts, sep);
  }
}

=== FILE: random_code.dfy ===
/**
 * `DefaultRandomCodeStrategy`: random codes kept unique by a scalable Bloom filter per prefix.
 *
 * A round draws one code for every size from `minRandomSize` up to `maxRandomSize`, each code
 * below `max(size)`, and keeps the first one the filter reports absent. A hundred failed rounds
 * move the strategy to the next usable prefix. `next()` serves codes from a FIFO cache that is
 * refilled a thousand at a time.
 *
 * The prefix files, their locks and the filters saved in them become the `probe` input; the
 * draws of `SecureRandom.nextInt(bound)` become the `rng` input, indexed by the number of draws
 * made so far.
 */
module RandomCode {
  import opened Wrappers
  import opened JavaBits
  import opened JavaText
  import SlicedBloom
  import ScalableBloom

  const MAX_PREFIX_INDEX: int := INT_MAX
  const MAX_RETRY_TIMES: int := 100
  const CACHE_CODES_NUM: nat := 1000

  /** `max(size)`: the exclusive bound of a code drawn at the given size. */
  function Max(size: int): (r: int)
    ensures 0 < r <= INT_MAX
    ensures 1 <= size <= 4 ==> r == 10000
    ensures 5 <= size <= 9 ==> r == Pow10(size)
    ensures !(1 <= size <= 9) ==> r == INT_MAX
  {
    Pow10Table();
    if 1 <= size <= 4 then 10000
    else if size == 5 then 100000
    else if size == 6 then 1000000
    else if size == 7 then 10000000
    else if size == 8 then 100000000
    else if size == 9 then 1000000000
    else INT_MAX
  }

  lemma Pow10Table()
    ensures Pow10(5) == 100000 && Pow10(6) == 1000000 && Pow10(7) == 10000000
    ensures Pow10(8) == 100000000 && Pow10(9) == 1000000000
  {
    assert Pow10(1) == 10;
    assert Pow10(2) == 100;
    assert Pow10(3) == 1000;
    assert Pow10(4) == 10000;
  }

  /**
   * What preparing a prefix finds: the prefix file could not be created or locked, or it holds
   * no readable filter, or it holds the filter saved in it earlier.
   */
  datatype Probe = Unavailable | Fresh | Restored(saved: ScalableBloom.Scalable)

  /**
   * The inputs of the strategy: the outcome of preparing each prefix, the filter
   * `new ScalableBloomFilter()` builds, the random draws, the element hashes and component
   * sizing of the filters, the filters' `add`, and the number of rounds one `generateOne` may run.
   */
  datatype Inputs = Inputs(
    probe: int -> Probe,
    newFilter: ScalableBloom.Scalable,
    rng: (nat, int) -> int,
    hashes: SlicedBloom.Hasher,
    sizing: ScalableBloom.Sizing,
    add: (ScalableBloom.Scalable, int) -> (ScalableBloom.Scalable, Result<bool, SlicedBloom.BloomError>),
    fuel: nat)

  /**
   * Filters that can be used, draws that keep `nextInt(bound)`'s promise of a value in
   * [0, bound), and an `add` that is `ScalableBloomFilter.add` with these hashes and sizing on
   * every well-formed filter.
   */
  ghost predicate ValidInputs(inp: Inputs) {
    && ScalableBloom.Valid(inp.newFilter)
    && ScalableBloom.ValidSizing(inp.sizing)
    && (forall p :: inp.probe(p).Restored? ==> ScalableBloom.Valid(inp.probe(p).saved))
    && (forall k, b :: b > 0 ==> 0 <= inp.rng(k, b) < b)
    && (forall f, c {:trigger ScalableBloom.Add(f, inp.hashes, inp.sizing, c)} ::
          ScalableBloom.Valid(f) ==> inp.add(f, c) == ScalableBloom.Add(f, inp.hashes, inp.sizing, c))
  }

  /**
   * The filter answers that `c` is present: `add(c)` returns true. On a well-formed filter this
   * is `contains(c)` (`HasMeans`); the proofs below reason with it and `AddStep` alone.
   */
  predicate Has(f: ScalableBloom.Scalable, inp: Inputs, c: int) {
    inp.add(f, c).1 == Success(true)
  }

  lemma HasMeans(f: ScalableBloom.Scalable, inp: Inputs, c: int)
    requires ScalableBloom.Valid(f) && ValidInputs(inp)
    ensures Has(f, inp, c) <==> ScalableBloom.Contains(f, inp.hashes, c)
  {
    assert inp.add(f, c) == ScalableBloom.Add(f, inp.hashes, inp.sizing, c);
  }

  /**
   * What one `add` of a code does: the filter stays well formed, a present code changes
   * nothing, and after a successful add the code is present.
   */
  lemma AddStep(f: ScalableBloom.Scalable, inp: Inputs, c: int)
    requires ScalableBloom.Valid(f) && ValidInputs(inp)
    ensures var (f', out) := inp.add(f, c);
            && ScalableBloom.Valid(f')
            && (Has(f, inp, c) ==> f' == f)
            && (out.Success? ==> Has(f', inp, c))
  {
    var (f', out) := inp.add(f, c);
    assert inp.add(f, c) == ScalableBloom.Add(f, inp.hashes, inp.sizing, c);
    HasMeans(f, inp, c);
    if out.Success? {
      ScalableBloom.AddContains(f, inp.hashes, inp.sizing, c);
      HasMeans(f', inp, c);
    }
  }

  /** An `add` keeps every code the filter already held. */
  lemma AddStepKeeps(f: ScalableBloom.Scalable, inp: Inputs, c: int, x: int)
    requires ScalableBloom.Valid(f) && ValidInputs(inp) && Has(f, inp, x)
    ensures ScalableBloom.Valid(inp.add(f, c).0) && Has(inp.add(f, c).0, inp, x)
  {
    var f' := inp.add(f, c).0;
    assert inp.add(f, c) == ScalableBloom.Add(f, inp.hashes, inp.sizing, c);
    HasMeans(f, inp, x);
    ScalableBloom.AddKeepsContained(f, inp.hashes, inp.sizing, c, x);
    HasMeans(f', inp, x);
  }

  /** The fields of the strategy; `drawn` counts the draws taken from the random source. */
  datatype CodeState = CodeState(
    prefixIndex: int,
    filter: Option<ScalableBloom.Scalable>,
    minSize: int,
    maxSize: int,
    drawn: nat,
    cache: seq<int>)

  predicate Valid(s: CodeState) {
    && IsInt(s.prefixIndex)
    && (s.filter.Some? ==> ScalableBloom.Valid(s.filter.value))
  }

  /** A new strategy: prefix -1, no filter yet, sizes 5 to 10, an empty cache. */
  function NewStrategy(): (r: CodeState)
    ensures Valid(r) && r.cache == [] && r.filter.None?
  {
    CodeState(-1, None, 5, 10, 0, [])
  }

  /** What the strategy can throw. */
  datatype CodeError =
    | PrefixesUsedUp                         // init reached Integer.MAX_VALUE
    | NoFilter                               // a round before any prefix was taken
    | FilterFailed(bloomError: SlicedBloom.BloomError)
    | Exhausted                              // the round budget of the model ran out

  // ---------------------------------------------------------------------------
  // The prefix search of init
  // ---------------------------------------------------------------------------

  /** A prefix is taken when its file and lock are obtained and its filter is new or not half full. */
  predicate Accepts(inp: Inputs, q: int) {
    match inp.probe(q)
    case Unavailable => false
    case Fresh => true
    case Restored(f) => ScalableBloom.Size(f) <= INT_MAX / 2
  }

  /** The filter a taken prefix uses. */
  function FilterOf(inp: Inputs, q: int): ScalableBloom.Scalable {
    match inp.probe(q)
    case Restored(f) => f
    case _ => inp.newFilter
  }

  /**
   * `tryUsePrefix()`: the answer is whether the prefix is taken. Reaching `createBloomFilter`
   * installs the new or restored filter even when the restored one is then refused as full.
   */
  function TryUsePrefix(s: CodeState, inp: Inputs, q: int): (r: (CodeState, bool))
    requires Valid(s) && ValidInputs(inp)
    ensures Valid(r.0) && r.0 == s.(filter := r.0.filter)
    ensures r.1 <==> Accepts(inp, q)
    ensures inp.probe(q).Restored? && ScalableBloom.Size(inp.probe(q).saved) > INT_MAX / 2 ==> !r.1
    ensures r.1 ==> r.0.filter == Some(FilterOf(inp, q))
  {
    match inp.probe(q)
    case Unavailable => (s, false)
    case Fresh => (s.(filter := Some(inp.newFilter)), true)
    case Restored(f) => (s.(filter := Some(f)), ScalableBloom.Size(f) <= INT_MAX / 2)
  }

  /** The order in which `init` visits prefixes: Integer.MAX_VALUE wraps to the lowest int. */
  function Rank(p: int): int {
    if p == INT_MAX then INT_MIN - 1 else p
  }

  /**
   * The loop of `init` from the prefix index p: `++prefixIndex` (wrapping in int arithmetic),
   * stop at Integer.MAX_VALUE or at the first prefix taken. Every prefix skipped on the way is
   * refused, and the search ends either on a taken prefix or at Integer.MAX_VALUE.
   */
  function SearchFrom(s: CodeState, inp: Inputs, p: int): (r: CodeState)
    requires Valid(s) && ValidInputs(inp) && IsInt(p)
    decreases INT_MAX - Rank(p)
    ensures Valid(r) && r == s.(prefixIndex := r.prefixIndex, filter := r.filter)
    ensures Rank(p) < r.prefixIndex <= INT_MAX
    ensures forall q :: Rank(p) < q < r.prefixIndex ==> !Accepts(inp, q)
    ensures r.prefixIndex < INT_MAX ==> Accepts(inp, r.prefixIndex) && r.filter == Some(FilterOf(inp, r.prefixIndex))
  {
    var q := ToInt(p + 1);
    assert q == Rank(p) + 1;
    if q >= MAX_PREFIX_INDEX then s.(prefixIndex := q)
    else
      var (s1, ok) := TryUsePrefix(s, inp, q);
      if ok then s1.(prefixIndex := q) else SearchFrom(s1, inp, q)
  }

  /**
   * `init()`: search upward from the current prefix index for the first prefix that can be
   * taken; reaching Integer.MAX_VALUE throws. The release of the previous prefix's file and
   * lock is not modelled.
   */
  function Init(s: CodeState, inp: Inputs): (r: (CodeState, Option<CodeError>))
    requires Valid(s) && ValidInputs(inp)
    ensures Valid(r.0) && r.0 == s.(prefixIndex := r.0.prefixIndex, filter := r.0.filter)
    ensures forall q :: Rank(s.prefixIndex) < q < r.0.prefixIndex ==> !Accepts(inp, q)
    ensures r.1.None? ==>
              && Rank(s.prefixIndex) < r.0.prefixIndex < INT_MAX
              && Accepts(inp, r.0.prefixIndex)
              && r.0.filter == Some(FilterOf(inp, r.0.prefixIndex))
    ensures r.1.Some? <==> r.0.prefixIndex == INT_MAX
    ensures r.1.Some? ==> r.1.value == PrefixesUsedUp
  {
    var r := SearchFrom(s, inp, s.prefixIndex);
    if r.prefixIndex == MAX_PREFIX_INDEX then (r, Some(PrefixesUsedUp)) else (r, None)
  }

  // ---------------------------------------------------------------------------
  // One round of draws
  // ---------------------------------------------------------------------------

  /**
   * The outcome of a round: the filter afterwards, the draw counter, the codes tried in order,
   * the final value of `found`, and what `add` threw, if anything.
   */
  datatype Round = Round(
    filter: ScalableBloom.Scalable,
    drawn: nat,
    tried: seq<int>,
    found: bool,
    error: Option<SlicedBloom.BloomError>)

  /** How many sizes the loop from `size` to `maxSize` visits. */
  function Width(size: int, maxSize: int): nat {
    if size <= maxSize then maxSize - size + 1 else 0
  }

  /**
   * The size loop of `generateOne` from `size` on: draw a code below `max(size)` and add it;
   * carry on while the filter answers that it was already there. A round that tries nothing
   * (`minRandomSize > maxRandomSize`) keeps `found` true and fails.
   */
  function RoundFrom(f: ScalableBloom.Scalable, inp: Inputs, drawn: nat, size: int, maxSize: int): (r: Round)
    requires ScalableBloom.Valid(f) && ValidInputs(inp)
    decreases Width(size, maxSize)
    ensures ScalableBloom.Valid(r.filter)
    ensures r.drawn == drawn + |r.tried| && |r.tried| <= Width(size, maxSize)
    ensures r.error.Some? || !r.found ==> |r.tried| >= 1
  {
    if size > maxSize then Round(f, drawn, [], true, None)
    else
      var c := inp.rng(drawn, Max(size));
      AddStep(f, inp, c);
      var (f', out) := inp.add(f, c);
      match out
      case Failure(err) => Round(f', drawn + 1, [c], true, Some(err))
      case Success(present) =>
        if !present then Round(f', drawn + 1, [c], false, None)
        else
          var rest := RoundFrom(f', inp, drawn + 1, size + 1, maxSize);
          Round(rest.filter, rest.drawn, [c] + rest.tried, rest.found, rest.error)
  }

  /** The codes tried are the draws numbered from `drawn`, at the sizes counted from `size`. */
  ghost predicate DrawnFrom(inp: Inputs, tried: seq<int>, drawn: nat, size: int) {
    forall i :: 0 <= i < |tried| ==> tried[i] == inp.rng(drawn + i, Max(size + i))
  }

  lemma DrawnCons(inp: Inputs, c: int, rest: seq<int>, drawn: nat, size: int)
    requires c == inp.rng(drawn, Max(size)) && DrawnFrom(inp, rest, drawn + 1, size + 1)
    ensures DrawnFrom(inp, [c] + rest, drawn, size)
  {
    forall i | 1 <= i < |[c] + rest|
      ensures ([c] + rest)[i] == inp.rng(drawn + i, Max(size + i))
    {
      assert ([c] + rest)[i] == rest[i - 1];
      assert drawn + 1 + (i - 1) == drawn + i && size + 1 + (i - 1) == size + i;
    }
  }

  /** Drawn codes keep `nextInt`'s bound: the code at size `size + i` lies in [0, max(size + i)). */
  lemma DrawnInRange(inp: Inputs, tried: seq<int>, drawn: nat, size: int)
    requires ValidInputs(inp) && DrawnFrom(inp, tried, drawn, size)
    ensures forall i :: 0 <= i < |tried| ==> 0 <= tried[i] < Max(size + i)
  {
    forall i | 0 <= i < |tried|
      ensures 0 <= tried[i] < Max(size + i)
    {
      assert tried[i] == inp.rng(drawn + i, Max(size + i));
    }
  }

  /** The codes a round tries are the draws at successive sizes, one draw per size. */
  lemma {:induction false} RoundCodes(f: ScalableBloom.Scalable, inp: Inputs, drawn: nat, size: int, maxSize: int)
    requires ScalableBloom.Valid(f) && ValidInputs(inp)
    ensures DrawnFrom(inp, RoundFrom(f, inp, drawn, size, maxSize).tried, drawn, size)
    decreases Width(size, maxSize)
  {
    if size <= maxSize {
      var c := inp.rng(drawn, Max(size));
      AddStep(f, inp, c);
      var (f', out) := inp.add(f, c);
      if out == Success(true) {
        RoundCodes(f', inp, drawn + 1, size + 1, maxSize);
        DrawnCons(inp, c, RoundFrom(f', inp, drawn + 1, size + 1, maxSize).tried, drawn, size);
      }
    }
  }

  /** The filter answers present for the first n codes (for all of them, if there are fewer). */
  predicate PresentBelow(f: ScalableBloom.Scalable, inp: Inputs, codes: seq<int>, n: int) {
    forall i :: 0 <= i < n && i < |codes| ==> Has(f, inp, codes[i])
  }

  lemma PresentCons(f: ScalableBloom.Scalable, inp: Inputs, c: int, rest: seq<int>, n: int)
    requires Has(f, inp, c) && PresentBelow(f, inp, rest, n)
    ensures PresentBelow(f, inp, [c] + rest, n + 1)
  {
    forall i | 1 <= i < n + 1 && i < |[c] + rest|
      ensures Has(f, inp, ([c] + rest)[i])
    {
      assert ([c] + rest)[i] == rest[i - 1];
    }
  }

  /**
   * Every code a round tries before its last one was already in the filter, and a round that
   * finds nothing tried every size, found every code present and leaves the filter as it was.
   */
  lemma {:induction false} RoundPresent(f: ScalableBloom.Scalable, inp: Inputs, drawn: nat, size: int, maxSize: int)
    requires ScalableBloom.Valid(f) && ValidInputs(inp)
    ensures var r := RoundFrom(f, inp, drawn, size, maxSize);
            && PresentBelow(f, inp, r.tried, |r.tried| - 1)
            && (r.error.None? && r.found ==>
                  r.filter == f && |r.tried| == Width(size, maxSize) && PresentBelow(f, inp, r.tried, |r.tried|))
    decreases Width(size, maxSize)
  {
    if size <= maxSize {
      var c := inp.rng(drawn, Max(size));
      AddStep(f, inp, c);
      var (f', out) := inp.add(f, c);
      if out == Success(true) {
        assert f' == f;
        RoundPresent(f, inp, drawn + 1, size + 1, maxSize);
        var rest := RoundFrom(f, inp, drawn + 1, size + 1, maxSize);
        PresentCons(f, inp, c, rest.tried, |rest.tried| - 1);
        if rest.error.None? && rest.found {
          PresentCons(f, inp, c, rest.tried, |rest.tried|);
        }
      }
    }
  }

  /**
   * A round that stops early stops on its last code: the `add` of that code to the filter it
   * was given either answered false (the code was absent and is now added) or threw.
   */
  lemma {:induction false} RoundLast(f: ScalableBloom.Scalable, inp: Inputs, drawn: nat, size: int, maxSize: int)
    requires ScalableBloom.Valid(f) && ValidInputs(inp)
    ensures var r := RoundFrom(f, inp, drawn, size, maxSize);
            r.error.Some? || !r.found ==>
              inp.add(f, r.tried[|r.tried| - 1])
                == (r.filter, if r.error.Some? then Failure(r.error.value) else Success(false))
    decreases Width(size, maxSize)
  {
    if size <= maxSize {
      var c := inp.rng(drawn, Max(size));
      AddStep(f, inp, c);
      var (f', out) := inp.add(f, c);
      if out == Success(true) {
        assert f' == f;
        RoundLast(f, inp, drawn + 1, size + 1, maxSize);
        var rest := RoundFrom(f, inp, drawn + 1, size + 1, maxSize);
        var r := RoundFrom(f, inp, drawn, size, maxSize);
        assert r.tried == [c] + rest.tried;
        if r.error.Some? || !r.found {
          assert r.tried[|r.tried| - 1] == rest.tried[|rest.tried| - 1];
        }
      }
    }
  }

  // ---------------------------------------------------------------------------
  // generateOne: rounds, with a new prefix every hundred failed rounds
  // ---------------------------------------------------------------------------

  /**
   * One pass of the loop of `generateOne` with the retry counter at `retry`: increment it; when
   * it reaches 100 call `init` and restart it from 0; then run a round. `result` is what the
   * pass returns or throws, or None when the round found every code present.
   */
  datatype Attempted = Attempted(state: CodeState, counter: int, inited: bool, result: Option<Result<int, CodeError>>)

  function Attempt(s: CodeState, inp: Inputs, retry: int): (r: Attempted)
    requires Valid(s) && ValidInputs(inp) && -1 <= retry < MAX_RETRY_TIMES
    ensures Valid(r.state)
    ensures r.state.minSize == s.minSize && r.state.maxSize == s.maxSize && r.state.cache == s.cache
    ensures r.inited <==> retry + 1 == MAX_RETRY_TIMES
    ensures r.counter == if r.inited then 0 else retry + 1
  {
    var inited := retry + 1 == MAX_RETRY_TIMES;
    var counter := if inited then 0 else retry + 1;
    var (s1, err) := if inited then Init(s, inp) else (s, None);
    if err.Some? then Attempted(s1, counter, inited, Some(Failure(err.value)))
    else if s1.filter.None? then Attempted(s1, counter, inited, Some(Failure(NoFilter)))
    else
      var round := RoundFrom(s1.filter.value, inp, s1.drawn, s1.minSize, s1.maxSize);
      var s2 := s1.(filter := Some(round.filter), drawn := round.drawn);
      if round.error.Some? then Attempted(s2, counter, inited, Some(Failure(FilterFailed(round.error.value))))
      else if !round.found then Attempted(s2, counter, inited, Some(Success(round.tried[|round.tried| - 1])))
      else Attempted(s2, counter, inited, None)
  }

  /** The outcome of `generateOne`, with the number of rounds entered and of `init` calls made. */
  datatype Generated = Generated(state: CodeState, code: Result<int, CodeError>, rounds: nat, inits: nat)

  /**
   * The loop of `generateOne` with the retry counter at `retry`: passes until one returns or
   * throws. `fuel` bounds the number of passes.
   */
  function Rounds(s: CodeState, inp: Inputs, retry: int, fuel: nat): (r: Generated)
    requires Valid(s) && ValidInputs(inp) && -1 <= retry < MAX_RETRY_TIMES
    decreases fuel, 1
    ensures Valid(r.state)
    ensures r.state.minSize == s.minSize && r.state.maxSize == s.maxSize && r.state.cache == s.cache
    ensures r.rounds <= fuel && (r.rounds == 0 ==> r.inits == 0)
  {
    if fuel == 0 then Generated(s, Failure(Exhausted), 0, 0) else RoundsPass(s, inp, retry, fuel)
  }

  /** The loop from its next pass on: one pass, then the rest of the loop if the pass found nothing. */
  function RoundsPass(s: CodeState, inp: Inputs, retry: int, fuel: nat): (r: Generated)
    requires Valid(s) && ValidInputs(inp) && -1 <= retry < MAX_RETRY_TIMES && fuel > 0
    decreases fuel, 0
    ensures Valid(r.state)
    ensures r.state.minSize == s.minSize && r.state.maxSize == s.maxSize && r.state.cache == s.cache
    ensures 1 <= r.rounds <= fuel
  {
    var a := Attempt(s, inp, retry);
    var initCalls := if a.inited then 1 else 0;
    if a.result.Some? then Generated(a.state, a.result.value, 1, initCalls)
    else
      var rest := Rounds(a.state, inp, a.counter, fuel - 1);
      Generated(rest.state, rest.code, rest.rounds + 1, rest.inits + initCalls)
  }

  /**
   * The retry counter: `init` runs exactly once per hundred rounds entered, counting from the
   * counter's starting value. From -1, the 101st, 201st, ... rounds are preceded by `init`.
   */
  lemma {:induction false} RoundsInitCount(s: CodeState, inp: Inputs, retry: int, fuel: nat)
    requires Valid(s) && ValidInputs(inp) && -1 <= retry < MAX_RETRY_TIMES
    ensures var r := Rounds(s, inp, retry, fuel);
            r.rounds == 0 || r.inits == (retry + r.rounds) / MAX_RETRY_TIMES
    decreases fuel
  {
    if fuel > 0 {
      var a := Attempt(s, inp, retry);
      var initCalls := if a.inited then 1 else 0;
      if a.result.Some? {
        InitCount(retry, a.counter, 0, 0, initCalls);
      } else {
        var rest := Rounds(a.state, inp, a.counter, fuel - 1);
        RoundsInitCount(a.state, inp, a.counter, fuel - 1);
        InitCount(retry, a.counter, rest.rounds, rest.inits, initCalls);
      }
    }
  }

  /** The bookkeeping of the retry counter: one more round keeps `inits` at rounds-so-far / 100. */
  lemma InitCount(retry: int, next: int, rounds: nat, inits: nat, initCalls: nat)
    requires -1 <= retry < MAX_RETRY_TIMES
    requires next == (if retry + 1 == MAX_RETRY_TIMES then 0 else retry + 1)
    requires initCalls == (if retry + 1 == MAX_RETRY_TIMES then 1 else 0)
    requires rounds == 0 || inits == (next + rounds) / MAX_RETRY_TIMES
    requires rounds == 0 ==> inits == 0
    ensures inits + initCalls == (retry + rounds + 1) / MAX_RETRY_TIMES
  {
    var t := retry + rounds + 1;
    if retry + 1 == MAX_RETRY_TIMES {
      DivModUnique(t, MAX_RETRY_TIMES, inits + 1, rounds % MAX_RETRY_TIMES);
    } else if rounds == 0 {
      DivModUnique(t, MAX_RETRY_TIMES, 0, t);
    }
  }

  /** A code one pass returns lies in [0, Integer.MAX_VALUE) and the filter now holds it. */
  lemma AttemptCode(s: CodeState, inp: Inputs, retry: int)
    requires Valid(s) && ValidInputs(inp) && -1 <= retry < MAX_RETRY_TIMES
    ensures var a := Attempt(s, inp, retry);
            a.result.Some? && a.result.value.Success? ==>
              && 0 <= a.result.value.value < INT_MAX
              && a.state.filter.Some?
              && Has(a.state.filter.value, inp, a.result.value.value)
  {
    var inited := retry + 1 == MAX_RETRY_TIMES;
    var (s1, err) := if inited then Init(s, inp) else (s, None);
    if err.None? && s1.filter.Some? {
      RoundCode(s1.filter.value, inp, s1.drawn, s1.minSize, s1.maxSize);
    }
  }

  /** The code a round stops on without error lies in [0, Integer.MAX_VALUE) and is now held. */
  lemma RoundCode(f: ScalableBloom.Scalable, inp: Inputs, drawn: nat, size: int, maxSize: int)
    requires ScalableBloom.Valid(f) && ValidInputs(inp)
    ensures var r := RoundFrom(f, inp, drawn, size, maxSize);
            r.error.None? && !r.found ==>
              && 0 <= r.tried[|r.tried| - 1] < INT_MAX
              && Has(r.filter, inp, r.tried[|r.tried| - 1])
  {
    var r := RoundFrom(f, inp, drawn, size, maxSize);
    if r.error.None? && !r.found {
      var last := |r.tried| - 1;
      var c := r.tried[last];
      RoundCodes(f, inp, drawn, size, maxSize);
      assert c == inp.rng(drawn + last, Max(size + last));
      RoundLast(f, inp, drawn, size, maxSize);
      AddStep(f, inp, c);
    }
  }

  /** A code the rounds return lies in [0, Integer.MAX_VALUE) and the filter now holds it. */
  lemma {:induction false} RoundsCode(s: CodeState, inp: Inputs, retry: int, fuel: nat)
    requires Valid(s) && ValidInputs(inp) && -1 <= retry < MAX_RETRY_TIMES
    ensures var r := Rounds(s, inp, retry, fuel);
            r.code.Success? ==>
              && 0 <= r.code.value < INT_MAX
              && r.state.filter.Some?
              && Has(r.state.filter.value, inp, r.code.value)
    decreases fuel
  {
    if fuel > 0 {
      var a := Attempt(s, inp, retry);
      AttemptCode(s, inp, retry);
      if a.result.None? {
        RoundsCode(a.state, inp, a.counter, fuel - 1);
      }
    }
  }

  /** `generateOne()`: the rounds with the retry counter starting at -1. */
  function GenerateOne(s: CodeState, inp: Inputs): (r: Generated)
    requires Valid(s) && ValidInputs(inp)
    ensures Valid(r.state) && r.state.cache == s.cache
    ensures r.rounds <= inp.fuel
  {
    Rounds(s, inp, -1, inp.fuel)
  }

  /**
   * What `generateOne` promises: a code in [0, Integer.MAX_VALUE) that is in the filter
   * afterwards, and one `init` before the 101st, 201st, ... round.
   */
  lemma GenerateOneCode(s: CodeState, inp: Inputs)
    requires Valid(s) && ValidInputs(inp)
    ensures var r := GenerateOne(s, inp);
            && (r.rounds == 0 || r.inits == (r.rounds - 1) / MAX_RETRY_TIMES)
            && (r.code.Success? ==>
                  && 0 <= r.code.value < INT_MAX
                  && r.state.filter.Some?
                  && ScalableBloom.Contains(r.state.filter.value, inp.hashes, r.code.value))
  {
    RoundsInitCount(s, inp, -1, inp.fuel);
    RoundsCode(s, inp, -1, inp.fuel);
    var r := GenerateOne(s, inp);
    if r.code.Success? {
      HasMeans(r.state.filter.value, inp, r.code.value);
    }
  }

  // ---------------------------------------------------------------------------
  // generate and next: the cache
  // ---------------------------------------------------------------------------

  /** The codes of a list of (prefix, code) pairs. */
  function Codes(issued: seq<(int, int)>): (r: seq<int>)
    ensures |r| == |issued| && forall i :: 0 <= i < |r| ==> r[i] == issued[i].1
  {
    if |issued| == 0 then [] else [issued[0].1] + Codes(issued[1..])
  }

  /**
   * `generate()` for n codes: append each new code to the cache. When a `generateOne` throws,
   * the codes generated before it stay in the cache. The result also lists each code with the
   * prefix it was drawn under.
   */
  function Generate(s: CodeState, inp: Inputs, n: nat): (r: (CodeState, Option<CodeError>, seq<(int, int)>))
    requires Valid(s) && ValidInputs(inp)
    decreases n
    ensures Valid(r.0)
    ensures r.0.cache == s.cache + Codes(r.2)
    ensures r.1.None? ==> |r.2| == n
    ensures |r.2| <= n
  {
    if n == 0 then (s, None, [])
    else
      var g := GenerateOne(s, inp);
      if g.code.Failure? then (g.state, Some(g.code.error), [])
      else
        var c := g.code.value;
        var s2 := g.state.(cache := g.state.cache + [c]);
        var next := Generate(s2, inp, n - 1);
        CodesCons(s.cache, s2.prefixIndex, c, next.2);
        (next.0, next.1, [(s2.prefixIndex, c)] + next.2)
  }

  lemma CodesCons(cache: seq<int>, p: int, c: int, rest: seq<(int, int)>)
    ensures cache + [c] + Codes(rest) == cache + Codes([(p, c)] + rest)
  {
    assert Codes([(p, c)] + rest) == [c] + Codes(rest);
  }

  /**
   * `next()`: an empty cache is refilled with CACHE_CODES_NUM codes first; the code returned is
   * the head of the cache. A non-empty cache is served without drawing anything.
   */
  function Next(s: CodeState, inp: Inputs): (r: (CodeState, Result<int, CodeError>))
    requires Valid(s) && ValidInputs(inp)
    ensures Valid(r.0)
    ensures |s.cache| > 0 ==> r == (s.(cache := s.cache[1..]), Success(s.cache[0]))
    ensures |s.cache| == 0 && r.1.Success? ==>
              var g := Generate(s, inp, CACHE_CODES_NUM);
              && g.1.None? && |g.2| == CACHE_CODES_NUM
              && r.1.value == Codes(g.2)[0]
              && r.0 == g.0.(cache := Codes(g.2)[1..])
  {
    if |s.cache| > 0 then (s.(cache := s.cache[1..]), Success(s.cache[0]))
    else
      var (s1, err, _) := Generate(s, inp, CACHE_CODES_NUM);
      if err.Some? then (s1, Failure(err.value))
      else (s1.(cache := s1.cache[1..]), Success(s1.cache[0]))
  }

  // ---------------------------------------------------------------------------
  // Uniqueness of codes
  // ---------------------------------------------------------------------------

  /**
   * Every code issued earlier either came from a prefix the search has already passed, or from
   * the current prefix p and the current filter holds it.
   */
  predicate Stamped(p: int, filter: Option<ScalableBloom.Scalable>, inp: Inputs, issued: seq<(int, int)>) {
    forall k :: 0 <= k < |issued| ==>
      || Rank(issued[k].0) < Rank(p)
      || (issued[k].0 == p && filter.Some? && Has(filter.value, inp, issued[k].1))
  }

  /** No pair is issued twice: each one differs from every pair issued before it. */
  predicate Distinct(issued: seq<(int, int)>)
    decreases |issued|
  {
    || |issued| == 0
    || (&& issued[|issued| - 1] !in issued[..|issued| - 1]
        && Distinct(issued[..|issued| - 1]))
  }

  /** The list is duplicate-free in the pairwise sense. */
  lemma {:induction false} DistinctPairwise(issued: seq<(int, int)>)
    requires Distinct(issued)
    ensures forall i, j :: 0 <= i < j < |issued| ==> issued[i] != issued[j]
    decreases |issued|
  {
    if |issued| > 0 {
      var init := issued[..|issued| - 1];
      DistinctPairwise(init);
      forall i, j | 0 <= i < j < |issued|
        ensures issued[i] != issued[j]
      {
        assert issued[i] == init[i];
        if j < |issued| - 1 {
          assert issued[j] == init[j];
        } else {
          assert issued[i] in init;
        }
      }
    }
  }

  /** A code the current filter does not hold was not issued under the current prefix. */
  lemma StampedFresh(p: int, f: ScalableBloom.Scalable, inp: Inputs, issued: seq<(int, int)>, c: int)
    requires Stamped(p, Some(f), inp, issued) && !Has(f, inp, c)
    ensures (p, c) !in issued
  {
  }

  /** Issuing a code the current filter holds keeps the invariant. */
  lemma StampedSnoc(p: int, f: ScalableBloom.Scalable, inp: Inputs, issued: seq<(int, int)>, c: int)
    requires Stamped(p, Some(f), inp, issued) && Has(f, inp, c)
    ensures Stamped(p, Some(f), inp, issued + [(p, c)])
  {
    var issued' := issued + [(p, c)];
    forall k | 0 <= k < |issued'|
      ensures Rank(issued'[k].0) < Rank(p) || (issued'[k].0 == p && Has(f, inp, issued'[k].1))
    {
      if k < |issued| {
        assert issued'[k] == issued[k];
      }
    }
  }

  lemma DistinctEq(a: seq<(int, int)>, b: seq<(int, int)>)
    requires a == b && Distinct(b)
    ensures Distinct(a)
  {
  }

  /** Issuing a code not issued before keeps the list duplicate-free. */
  lemma DistinctSnoc(issued: seq<(int, int)>, x: (int, int))
    requires Distinct(issued) && x !in issued
    ensures Distinct(issued + [x])
  {
    assert (issued + [x])[..|issued|] == issued;
  }

  /** A new prefix from `init` lies beyond every prefix used so far. */
  lemma StampedAfterInit(s: CodeState, inp: Inputs, issued: seq<(int, int)>)
    requires Valid(s) && ValidInputs(inp) && Stamped(s.prefixIndex, s.filter, inp, issued)
    requires Init(s, inp).1.None?
    ensures Stamped(Init(s, inp).0.prefixIndex, Init(s, inp).0.filter, inp, issued)
  {
    var s1 := Init(s, inp).0;
    forall k | 0 <= k < |issued|
      ensures Rank(issued[k].0) < Rank(s1.prefixIndex)
    {
    }
  }

  /** Adding to the current filter keeps every code issued under the current prefix. */
  lemma StampedAfterAdd(p: int, f: ScalableBloom.Scalable, inp: Inputs, issued: seq<(int, int)>, c: int)
    requires ScalableBloom.Valid(f) && ValidInputs(inp) && Stamped(p, Some(f), inp, issued)
    ensures Stamped(p, Some(inp.add(f, c).0), inp, issued)
  {
    forall k | 0 <= k < |issued| && issued[k].0 == p && Rank(issued[k].0) >= Rank(p)
      ensures Has(inp.add(f, c).0, inp, issued[k].1)
    {
      AddStepKeeps(f, inp, c, issued[k].1);
    }
  }

  /**
   * A code one pass returns is new under its prefix: the filter that holds every code issued
   * under that prefix answered that it was absent, and now holds it. Only running out of
   * prefixes breaks the invariant.
   */
  lemma AttemptStamped(s: CodeState, inp: Inputs, retry: int, issued: seq<(int, int)>)
    requires Valid(s) && ValidInputs(inp) && -1 <= retry < MAX_RETRY_TIMES
    requires Stamped(s.prefixIndex, s.filter, inp, issued)
    ensures var a := Attempt(s, inp, retry);
            && (a.result != Some(Failure(PrefixesUsedUp)) ==> Stamped(a.state.prefixIndex, a.state.filter, inp, issued))
            && (a.result.Some? && a.result.value.Success? ==>
                  var x := (a.state.prefixIndex, a.result.value.value);
                  x !in issued && Stamped(a.state.prefixIndex, a.state.filter, inp, issued + [x]))
  {
    var inited := retry + 1 == MAX_RETRY_TIMES;
    var (s1, err) := if inited then Init(s, inp) else (s, None);
    if err.None? {
      if inited {
        StampedAfterInit(s, inp, issued);
      }
      if s1.filter.Some? {
        var f := s1.filter.value;
        var p := s1.prefixIndex;
        var round := RoundFrom(f, inp, s1.drawn, s1.minSize, s1.maxSize);
        if round.error.Some? || !round.found {
          var c := round.tried[|round.tried| - 1];
          RoundLast(f, inp, s1.drawn, s1.minSize, s1.maxSize);
          StampedAfterAdd(p, f, inp, issued, c);
          if round.error.None? {
            StampedFresh(p, f, inp, issued, c);
            AddStep(f, inp, c);
            StampedSnoc(p, round.filter, inp, issued, c);
          }
        } else {
          RoundPresent(f, inp, s1.drawn, s1.minSize, s1.maxSize);
        }
      }
    }
  }

  /** The invariant over all passes of `generateOne`. */
  lemma {:induction false} RoundsStamped(s: CodeState, inp: Inputs, retry: int, fuel: nat, issued: seq<(int, int)>)
    requires Valid(s) && ValidInputs(inp) && -1 <= retry < MAX_RETRY_TIMES
    requires Stamped(s.prefixIndex, s.filter, inp, issued)
    ensures var r := Rounds(s, inp, retry, fuel);
            && (r.code != Failure(PrefixesUsedUp) ==> Stamped(r.state.prefixIndex, r.state.filter, inp, issued))
            && (r.code.Success? ==>
                  var x := (r.state.prefixIndex, r.code.value);
                  x !in issued && Stamped(r.state.prefixIndex, r.state.filter, inp, issued + [x]))
    decreases fuel
  {
    if fuel > 0 {
      var a := Attempt(s, inp, retry);
      AttemptStamped(s, inp, retry, issued);
      if a.result.None? {
        RoundsStamped(a.state, inp, a.counter, fuel - 1, issued);
      }
    }
  }

  /** The invariant across one `generateOne`. */
  lemma GenerateOneStamped(s: CodeState, inp: Inputs, issued: seq<(int, int)>)
    requires Valid(s) && ValidInputs(inp) && Stamped(s.prefixIndex, s.filter, inp, issued)
    ensures var g := GenerateOne(s, inp);
            && (g.code != Failure(PrefixesUsedUp) ==> Stamped(g.state.prefixIndex, g.state.filter, inp, issued))
            && (g.code.Success? ==>
                  var x := (g.state.prefixIndex, g.code.value);
                  x !in issued && Stamped(g.state.prefixIndex, g.state.filter, inp, issued + [x]))
  {
    RoundsStamped(s, inp, -1, inp.fuel, issued);
  }

  /** Unless the prefixes ran out, one `generate` carries the invariant over to the next call. */
  lemma {:induction false} GenerateStamped(s: CodeState, inp: Inputs, n: nat, issued: seq<(int, int)>)
    requires Valid(s) && ValidInputs(inp) && Stamped(s.prefixIndex, s.filter, inp, issued)
    ensures var r := Generate(s, inp, n);
            r.1 != Some(PrefixesUsedUp) ==> Stamped(r.0.prefixIndex, r.0.filter, inp, issued + r.2)
    decreases n
  {
    if n > 0 {
      var g := GenerateOne(s, inp);
      GenerateOneStamped(s, inp, issued);
      if g.code.Success? {
        var x := (g.state.prefixIndex, g.code.value);
        var s2 := g.state.(cache := g.state.cache + [g.code.value]);
        GenerateStamped(s2, inp, n - 1, issued + [x]);
        GenerateCons(s, inp, n, issued);
      }
    }
  }

  /** The codes one `generate` issues are distinct from each other and from the earlier ones. */
  lemma {:induction false} GenerateDistinctFrom(s: CodeState, inp: Inputs, n: nat, issued: seq<(int, int)>)
    requires Valid(s) && ValidInputs(inp) && Stamped(s.prefixIndex, s.filter, inp, issued) && Distinct(issued)
    ensures Distinct(issued + Generate(s, inp, n).2)
    decreases n
  {
    if n == 0 {
      assert issued + Generate(s, inp, n).2 == issued;
      assert Distinct(issued + Generate(s, inp, n).2);
    } else {
      var g := GenerateOne(s, inp);
      GenerateOneStamped(s, inp, issued);
      if g.code.Success? {
        var x := (g.state.prefixIndex, g.code.value);
        var s2 := g.state.(cache := g.state.cache + [g.code.value]);
        DistinctSnoc(issued, x);
        GenerateDistinctFrom(s2, inp, n - 1, issued + [x]);
        assert Distinct((issued + [x]) + Generate(s2, inp, n - 1).2);
        GenerateCons(s, inp, n, issued);
        DistinctEq(issued + Generate(s, inp, n).2, (issued + [x]) + Generate(s2, inp, n - 1).2);
      } else {
        assert issued + Generate(s, inp, n).2 == issued;
        assert Distinct(issued + Generate(s, inp, n).2);
      }
    }
  }

  /** How `generate` continues after a successful first `generateOne`, as a step on the issued list. */
  lemma GenerateCons(s: CodeState, inp: Inputs, n: nat, issued: seq<(int, int)>)
    requires Valid(s) && ValidInputs(inp) && n > 0 && GenerateOne(s, inp).code.Success?
    ensures var g := GenerateOne(s, inp);
            var x := (g.state.prefixIndex, g.code.value);
            var next := Generate(g.state.(cache := g.state.cache + [g.code.value]), inp, n - 1);
            var r := Generate(s, inp, n);
            r.0 == next.0 && r.1 == next.1 && issued + r.2 == (issued + [x]) + next.2
  {
    var g := GenerateOne(s, inp);
    var x := (g.state.prefixIndex, g.code.value);
    var next := Generate(g.state.(cache := g.state.cache + [g.code.value]), inp, n - 1);
    ConcatAssoc(issued, [x], next.2);
  }

  lemma ConcatAssoc<T>(a: seq<T>, b: seq<T>, c: seq<T>)
    ensures a + (b + c) == (a + b) + c
  {
  }

  /** Within one `generate`, no (prefix, code) pair is issued twice. */
  lemma GenerateDistinct(s: CodeState, inp: Inputs, n: nat)
    requires Valid(s) && ValidInputs(inp)
    ensures var issued := Generate(s, inp, n).2;
            forall i, j :: 0 <= i < j < |issued| ==> issued[i] != issued[j]
  {
    GenerateDistinctFrom(s, inp, n, []);
    assert [] + Generate(s, inp, n).2 == Generate(s, inp, n).2;
    DistinctPairwise(Generate(s, inp, n).2);
  }
}

=== FILE: scalable_bloom.dfy ===
/**
 * `ScalableBloomFilter`: a list of sliced filters that grows when its last component is full.
 * New elements always go into the last component; membership asks every component.
 */
module ScalableBloom {
  import opened Wrappers
  import opened JavaBits
  import opened SlicedBloom

  /** The growth mode: how many slices a new component has beyond the previous one. */
  datatype Mode = SmallSetGrowth | LargeSetGrowth

  function ScaleValue(m: Mode): int {
    match m
    case SmallSetGrowth => 2
    case LargeSetGrowth => 4
  }

  /**
   * The fields of a scalable filter. `fpp` and `ratio` feed the base checks of every new
   * component; the components' own capacities come from a sizing function, see `Add`.
   */
  datatype Scalable = Scalable(fpp: real, ratio: real, scale: Mode, filters: seq<Sliced>)

  /** The capacity `n` the three-argument sliced constructor derives, as a function of its slice count. */
  type Sizing = int -> int

  ghost predicate ValidSizing(sizing: Sizing) {
    forall s :: IsInt(sizing(s))
  }

  predicate Valid(sf: Scalable) {
    && |sf.filters| >= 1
    && forall i :: 0 <= i < |sf.filters| ==> SlicedBloom.Valid(sf.filters[i])
  }

  function Last(sf: Scalable): Sliced
    requires |sf.filters| >= 1
  {
    sf.filters[|sf.filters| - 1]
  }

  // ---------------------------------------------------------------------------
  // Construction
  // ---------------------------------------------------------------------------

  /**
   * `ScalableBloomFilter(mode, ratio, capacity, fpp)`: the base checks, the rule of thumb
   * capacity >= 4 / (fpp * (1 - ratio)), then a first sliced filter for the tightened
   * probability fpp * (1 - ratio), whose float-derived sizes are `mb` and `n`. A zero
   * denominator makes the quotient +Infinity, so the rule of thumb fails.
   */
  function NewScalable(mode: Mode, ratio: real, capacity: int, fpp: real, mb: int, n: int): (r: Result<Scalable, BloomError>)
    requires IsInt(capacity) && IsInt(mb) && IsInt(n)
    ensures CheckArguments(capacity, fpp).Some? ==> r == Failure(CheckArguments(capacity, fpp).value)
    ensures CheckArguments(capacity, fpp).None? && fpp * (1.0 - ratio) == 0.0 ==> r == Failure(BelowRuleOfThumb)
    ensures r.Success? ==>
              && Valid(r.value) && |r.value.filters| == 1
              && r.value.fpp == fpp && r.value.ratio == ratio && r.value.scale == mode
              && var tight := fpp * (1.0 - ratio);
              && tight != 0.0 && (capacity as real) >= 4.0 / tight
              && NewSliced(capacity, tight, mb, n) == Success(r.value.filters[0])
  {
    match CheckArguments(capacity, fpp)
    case Some(err) => Failure(err)
    case None =>
      var tight := fpp * (1.0 - ratio);
      if tight == 0.0 || (capacity as real) < 4.0 / tight then Failure(BelowRuleOfThumb)
      else
        match NewSliced(capacity, tight, mb, n)
        case Failure(err) => Failure(err)
        case Success(first) => Success(Scalable(fpp, ratio, mode, [first]))
  }

  /** `new ScalableBloomFilter()`: small-set growth, ratio 0.9, capacity 640000, probability 0.1. */
  function NewDefault(mb: int, n: int): (r: Result<Scalable, BloomError>)
    requires IsInt(mb) && IsInt(n)
    ensures r.Success? ==> Valid(r.value) && r.value.scale == SmallSetGrowth && |r.value.filters| == 1
  {
    NewScalable(SmallSetGrowth, 0.9, 640000, 0.1, mb, n)
  }

  // ---------------------------------------------------------------------------
  // Membership
  // ---------------------------------------------------------------------------

  /** The loop of `contains` over the descending iterator: components n-1 down to 0. */
  function ContainsBelow(fs: seq<Sliced>, hashes: Hasher, e: int, n: nat): (r: bool)
    requires n <= |fs| && forall i :: 0 <= i < |fs| ==> SlicedBloom.Valid(fs[i])
    ensures r <==> exists i :: 0 <= i < n && SlicedBloom.Contains(fs[i], hashes, e)
  {
    if n == 0 then false
    else if SlicedBloom.Contains(fs[n - 1], hashes, e) then true
    else ContainsBelow(fs, hashes, e, n - 1)
  }

  /** `contains(elt)`: some component contains the element. */
  function Contains(sf: Scalable, hashes: Hasher, e: int): (r: bool)
    requires Valid(sf)
    ensures r <==> exists i :: 0 <= i < |sf.filters| && SlicedBloom.Contains(sf.filters[i], hashes, e)
  {
    ContainsBelow(sf.filters, hashes, e, |sf.filters|)
  }

  // ---------------------------------------------------------------------------
  // Insertion
  // ---------------------------------------------------------------------------

  /**
   * The growth step of `add`: a new component built from the last one's capacity, the
   * probability fpp * ratio and the last slice count plus the mode's value, appended at the end.
   */
  function Grow(sf: Scalable, sizing: Sizing): (r: Result<Scalable, BloomError>)
    requires Valid(sf) && ValidSizing(sizing)
    ensures r.Success? ==>
              && Valid(r.value)
              && r.value == sf.(filters := sf.filters + [Last(r.value)])
              && var s := ToInt(Last(sf).slicesCount + ScaleValue(sf.scale));
              && Last(r.value) == Sliced(sizing(s), s, IntShl(1, s), {}, 0)
    ensures CheckArguments(Last(sf).capacity, sf.fpp * sf.ratio).Some? ==> r.Failure?
  {
    var last := Last(sf);
    var s := ToInt(last.slicesCount + ScaleValue(sf.scale));
    match NewSlicedWithCount(last.capacity, sf.fpp * sf.ratio, s, sizing(s))
    case Failure(err) => Failure(err)
    case Success(c) => Success(sf.(filters := sf.filters + [c]))
  }

  /** The list with its last component replaced. */
  function SetLast(sf: Scalable, c: Sliced): (r: Scalable)
    requires |sf.filters| >= 1
    ensures |r.filters| == |sf.filters| && Last(r) == c
    ensures r.filters[..|sf.filters| - 1] == sf.filters[..|sf.filters| - 1]
  {
    sf.(filters := sf.filters[|sf.filters| - 1 := c])
  }

  /**
   * `add(elt)`: a contained element gives true and changes nothing. Otherwise a full last
   * component first gets a successor, then the element goes into the last component and the
   * answer is false. When the new component's constructor throws, nothing changes; when the
   * new component is itself full, it stays appended and `addWithoutCheck` throws.
   */
  function Add(sf: Scalable, hashes: Hasher, sizing: Sizing, e: int): (r: (Scalable, Result<bool, BloomError>))
    requires Valid(sf) && ValidSizing(sizing)
    ensures Valid(r.0)
    ensures r.1 == Success(true) <==> Contains(sf, hashes, e)
    ensures Contains(sf, hashes, e) ==> r.0 == sf
    ensures r.1.Failure? ==>
              r.0 == sf || (IsFull(Last(sf)) && Grow(sf, sizing).Success? && r.0 == Grow(sf, sizing).value)
    ensures r.1 == Success(false) ==>
              && (IsFull(Last(sf)) ==> Grow(sf, sizing).Success?)
              && var base := if IsFull(Last(sf)) then Grow(sf, sizing).value else sf;
              && AddWithoutCheck(Last(base), hashes, e).Success?
              && r.0 == SetLast(base, AddWithoutCheck(Last(base), hashes, e).value)
  {
    if Contains(sf, hashes, e) then (sf, Success(true))
    else
      var grown := if IsFull(Last(sf)) then Grow(sf, sizing) else Success(sf);
      match grown
      case Failure(err) => (sf, Failure(err))
      case Success(base) =>
        match AddWithoutCheck(Last(base), hashes, e)
        case Failure(err) => (base, Failure(err))
        case Success(c) => (SetLast(base, c), Success(false))
  }

  // ---------------------------------------------------------------------------
  // Size and capacity
  // ---------------------------------------------------------------------------

  /** The exact number of insertions over the first n components. */
  function TotalCount(fs: seq<Sliced>, n: nat): int
    requires n <= |fs|
  {
    if n == 0 then 0 else TotalCount(fs, n - 1) + fs[n - 1].count
  }

  /** The exact sum of the capacities of the first n components. */
  function TotalCapacity(fs: seq<Sliced>, n: nat): int
    requires n <= |fs|
  {
    if n == 0 then 0 else TotalCapacity(fs, n - 1) + fs[n - 1].capacity
  }

  /** Adding to an int that was already wrapped wraps to the same result. */
  lemma WrapAdd(a: int, b: int)
    ensures ToInt(ToInt(a) + b) == ToInt(a + b)
  {
    var d := ToInt(a) - a;
    var c := if a % TWO_32 < TWO_31 then -(a / TWO_32) else -(a / TWO_32) - 1;
    assert d == TWO_32 * c;
    var x := a + b;
    DivModUnique(x + d, TWO_32, x / TWO_32 + c, x % TWO_32);
  }

  /** The summing loop of `size()` over the first n components, in wrapping int arithmetic. */
  function SizeLoop(fs: seq<Sliced>, n: nat): (r: int)
    requires n <= |fs|
    ensures r == ToInt(TotalCount(fs, n))
  {
    if n == 0 then 0
    else
      var acc := SizeLoop(fs, n - 1);
      WrapAdd(TotalCount(fs, n - 1), fs[n - 1].count);
      ToInt(acc + fs[n - 1].count)
  }

  /** The summing loop of `getCapacity()` over the first n components, in wrapping int arithmetic. */
  function CapacityLoop(fs: seq<Sliced>, n: nat): (r: int)
    requires n <= |fs|
    ensures r == ToInt(TotalCapacity(fs, n))
  {
    if n == 0 then 0
    else
      var acc := CapacityLoop(fs, n - 1);
      WrapAdd(TotalCapacity(fs, n - 1), fs[n - 1].capacity);
      ToInt(acc + fs[n - 1].capacity)
  }

  /** `size()`: the total number of insertions, wrapped to an int. */
  function Size(sf: Scalable): (r: int)
    ensures r == ToInt(TotalCount(sf.filters, |sf.filters|))
  {
    SizeLoop(sf.filters, |sf.filters|)
  }

  /** `getCapacity()`: the sum of the components' capacities, wrapped to an int. */
  function Capacity(sf: Scalable): (r: int)
    ensures r == ToInt(TotalCapacity(sf.filters, |sf.filters|))
  {
    CapacityLoop(sf.filters, |sf.filters|)
  }

  // ---------------------------------------------------------------------------
  // What insertion guarantees
  // ---------------------------------------------------------------------------

  /** Changing only the last component changes the total count by the last component's change. */
  lemma {:induction false} TotalCountPrefix(fs: seq<Sliced>, gs: seq<Sliced>, n: nat)
    requires n <= |fs| && n <= |gs| && fs[..n] == gs[..n]
    ensures TotalCount(fs, n) == TotalCount(gs, n)
  {
    if n > 0 {
      assert fs[n - 1] == fs[..n][n - 1] == gs[..n][n - 1] == gs[n - 1];
      assert fs[..n - 1] == fs[..n][..n - 1];
      assert gs[..n - 1] == gs[..n][..n - 1];
      TotalCountPrefix(fs, gs, n - 1);
    }
  }

  /** Replacing the last component changes the total count by that component's change. */
  lemma TotalCountSetLast(fs: seq<Sliced>, gs: seq<Sliced>)
    requires |fs| == |gs| >= 1 && fs[..|fs| - 1] == gs[..|gs| - 1]
    ensures TotalCount(gs, |gs|) == TotalCount(fs, |fs|) - fs[|fs| - 1].count + gs[|gs| - 1].count
  {
    TotalCountPrefix(fs, gs, |fs| - 1);
  }

  /** Appending a component adds its count to the total. */
  lemma TotalCountAppend(fs: seq<Sliced>, c: Sliced)
    ensures TotalCount(fs + [c], |fs| + 1) == TotalCount(fs, |fs|) + c.count
  {
    assert (fs + [c])[..|fs|] == fs[..|fs|];
    TotalCountPrefix(fs + [c], fs, |fs|);
  }

  /** Growing by an empty component, then replacing the last component by one with one more insertion. */
  lemma CountsOneMore(fs: seq<Sliced>, gs: seq<Sliced>, hs: seq<Sliced>)
    requires |fs| >= 1
    requires gs == fs || (|gs| == |fs| + 1 && gs[..|fs|] == fs && gs[|fs|].count == 0)
    requires |hs| == |gs| && hs[..|gs| - 1] == gs[..|gs| - 1]
    requires hs[|hs| - 1].count == gs[|gs| - 1].count + 1
    ensures TotalCount(hs, |hs|) == TotalCount(fs, |fs|) + 1
  {
    if gs != fs {
      assert gs == fs + [gs[|fs|]];
      TotalCountAppend(fs, gs[|fs|]);
    }
    TotalCountSetLast(gs, hs);
  }

  /** Inserting an absent element counts exactly one more insertion in total. */
  lemma AddCountsOne(sf: Scalable, hashes: Hasher, sizing: Sizing, e: int)
    requires Valid(sf) && ValidSizing(sizing)
    requires Add(sf, hashes, sizing, e).1 == Success(false)
    ensures TotalCount(Add(sf, hashes, sizing, e).0.filters, |Add(sf, hashes, sizing, e).0.filters|)
         == TotalCount(sf.filters, |sf.filters|) + 1
  {
    var base := if IsFull(Last(sf)) then Grow(sf, sizing).value else sf;
    var c := AddWithoutCheck(Last(base), hashes, e).value;
    var r := Add(sf, hashes, sizing, e).0;
    assert r == SetLast(base, c) && c.count == Last(base).count + 1;
    CountsOneMore(sf.filters, base.filters, r.filters);
  }

  /** After a successful `add`, the element is contained, whatever the answer was. */
  lemma AddContains(sf: Scalable, hashes: Hasher, sizing: Sizing, e: int)
    requires Valid(sf) && ValidSizing(sizing)
    requires Add(sf, hashes, sizing, e).1.Success?
    ensures Contains(Add(sf, hashes, sizing, e).0, hashes, e)
  {
    if !Contains(sf, hashes, e) {
      var base := if IsFull(Last(sf)) then Grow(sf, sizing).value else sf;
      var r := Add(sf, hashes, sizing, e).0;
      AddedIsContained(Last(base), hashes, e);
      assert SlicedBloom.Contains(r.filters[|r.filters| - 1], hashes, e);
    }
  }

  /** Whatever `add` does, an element that was contained stays contained. */
  lemma AddKeepsContained(sf: Scalable, hashes: Hasher, sizing: Sizing, e: int, x: int)
    requires Valid(sf) && ValidSizing(sizing) && Contains(sf, hashes, x)
    ensures Contains(Add(sf, hashes, sizing, e).0, hashes, x)
  {
    var r := Add(sf, hashes, sizing, e);
    if r.0 != sf {
      var i :| 0 <= i < |sf.filters| && SlicedBloom.Contains(sf.filters[i], hashes, x);
      var base := if IsFull(Last(sf)) then Grow(sf, sizing).value else sf;
      assert base.filters[i] == sf.filters[i];
      var n := |base.filters|;
      if i < n - 1 {
        assert r.0.filters[..n - 1][i] == base.filters[..n - 1][i];
        assert r.0.filters[i] == base.filters[i];
      } else if r.1.Success? {
        ContainsMonotone(base.filters[i], r.0.filters[i], hashes, x);
      }
    }
  }

  /** A sequence of `add` calls, stopping at the first one that throws; `ok` tells whether none did. */
  function AddAll(sf: Scalable, hashes: Hasher, sizing: Sizing, es: seq<int>): (r: (Scalable, bool))
    requires Valid(sf) && ValidSizing(sizing)
    ensures Valid(r.0)
    ensures |r.0.filters| >= |sf.filters|
    decreases |es|
  {
    if |es| == 0 then (sf, true)
    else
      var (sf', out) := Add(sf, hashes, sizing, es[0]);
      if out.Failure? then (sf', false) else AddAll(sf', hashes, sizing, es[1..])
  }

  /**
   * No false negatives: after a run of `add` calls that all succeeded, every element added,
   * and every element contained before, is contained.
   */
  lemma {:induction false} NoFalseNegatives(sf: Scalable, hashes: Hasher, sizing: Sizing, es: seq<int>, x: int)
    requires Valid(sf) && ValidSizing(sizing)
    requires AddAll(sf, hashes, sizing, es).1
    requires x in es || Contains(sf, hashes, x)
    ensures Contains(AddAll(sf, hashes, sizing, es).0, hashes, x)
    decreases |es|
  {
    if |es| > 0 {
      var (sf', out) := Add(sf, hashes, sizing, es[0]);
      AddContains(sf, hashes, sizing, es[0]);
      if Contains(sf, hashes, x) {
        AddKeepsContained(sf, hashes, sizing, es[0], x);
      }
      if x !in es[1..] {
        assert x == es[0] || Contains(sf, hashes, x);
      }
      NoFalseNegatives(sf', hashes, sizing, es[1..], x);
    }
  }
}

=== FILE: sliced_bloom.dfy ===
/**
 * The Bloom filter base class and its partitioned variant `SlicedBloomFilter`.
 *
 * The bit array is cut into `slicesCount` slices of `bitsPerSlice` bits each. An element
 * sets exactly one bit in every slice, at the bucket double hashing gives for that slice.
 * The bit array is the set of indices of its set bits.
 *
 * An element is represented by its `hashCode()`. The two Murmur2 hashes that the source
 * computes over the UTF-16 bytes of that code's decimal spelling are the parameter
 * `hashes`; the sizing formulas in floating point become the inputs `mb` and `n`.
 */
module SlicedBloom {
  import opened Wrappers
  import opened JavaBits

  /** What the constructors and `addWithoutCheck` can throw. */
  datatype BloomError =
    | NonPositiveCapacity   // the base constructor: capacity must be strictly positive
    | FppOutOfRange         // the base constructor: the false-positive probability must lie in ]0;1[
    | BelowRuleOfThumb      // capacity < 4 / fpp
    | NegativeArraySize     // the bit array size slicesCount * bitsPerSlice wraps to a negative int
    | UnsupportedShape      // a bit array whose indices overflow int (see README, "Left out")
    | AtCapacity            // addWithoutCheck on a full filter

  /** The pair of hashes of an element: `Murmur2.hash32(b, 0)` and `Murmur2.hash32(b, hash1)`. */
  type Hasher = int -> (int, int)

  // ---------------------------------------------------------------------------
  // The base constructor
  // ---------------------------------------------------------------------------

  /** The argument checks of `BloomFilter(capacity, falsePositiveProbability)`. */
  function CheckArguments(capacity: int, fpp: real): (r: Option<BloomError>)
    ensures r.None? <==> capacity > 0 && 0.0 < fpp < 1.0
    ensures r == Some(NonPositiveCapacity) <==> capacity <= 0
    ensures r == Some(FppOutOfRange) <==> capacity > 0 && (fpp <= 0.0 || fpp >= 1.0)
  {
    if capacity <= 0 then Some(NonPositiveCapacity)
    else if fpp <= 0.0 || fpp >= 1.0 then Some(FppOutOfRange)
    else None
  }

  // ---------------------------------------------------------------------------
  // Double hashing
  // ---------------------------------------------------------------------------

  /**
   * `Math.abs((hash1 + i * hash2) % max)` in int arithmetic. The truncated remainder is smaller
   * than the divisor in magnitude, so its absolute value does not wrap.
   */
  function Bucket(h1: int, h2: int, i: int, max: int): (b: int)
    requires max != 0
    ensures IsInt(max) ==> 0 <= b < Magnitude(max)
  {
    IntAbs(IntRem(ToInt(h1 + ToInt(i * h2)), max))
  }

  function Magnitude(x: int): nat { if x < 0 then -x else x }

  /**
   * `getHashBuckets(key, hashCount, max)`: `hashCount` buckets, the i-th derived from the
   * linear combination hash1 + i * hash2, each inside [0, |max|).
   */
  function GetHashBuckets(h1: int, h2: int, hashCount: nat, max: int): (r: seq<int>)
    requires max != 0 && IsInt(max)
    ensures |r| == hashCount
    ensures forall i :: 0 <= i < hashCount ==> 0 <= r[i] < Magnitude(max)
  {
    if hashCount == 0 then []
    else
      GetHashBuckets(h1, h2, hashCount - 1, max) + [Bucket(h1, h2, hashCount - 1, max)]
  }

  /** Bucket i is the i-th term of the double-hashing sequence, whatever the number of buckets. */
  lemma {:induction false} GetHashBucketsAre(h1: int, h2: int, hashCount: nat, max: int)
    requires max != 0 && IsInt(max)
    ensures forall i :: 0 <= i < hashCount ==> GetHashBuckets(h1, h2, hashCount, max)[i] == Bucket(h1, h2, i, max)
  {
    if hashCount > 0 {
      GetHashBucketsAre(h1, h2, hashCount - 1, max);
      var prev := GetHashBuckets(h1, h2, hashCount - 1, max);
      assert GetHashBuckets(h1, h2, hashCount, max) == prev + [Bucket(h1, h2, hashCount - 1, max)];
    }
  }

  /**
   * The buckets are the double-hashing sequence modulo `max` up to sign: when `max` is a power
   * of two of at most 2^30 (every slice width the filters use), the bucket of index i is
   * congruent to hash1 + i * hash2 or to its negation, despite the int wrap-around.
   */
  lemma {:induction false} BucketCongruent(h1: int, h2: int, i: int, k: nat)
    requires k <= 30
    ensures var b := Bucket(h1, h2, i, Pow2(k));
            (b - (h1 + i * h2)) % Pow2(k) == 0 || (b + (h1 + i * h2)) % Pow2(k) == 0
  {
    var m := Pow2(k);
    Pow2Monotone(k, 30);
    Pow2To31();
    Pow2Monotone(30, 31);
    var x := h1 + i * h2;
    var a := ToInt(h1 + ToInt(i * h2));
    WrapCongruent(i * h2, k);
    WrapCongruent(h1 + ToInt(i * h2), k);
    assert (a - x) % m == 0 by {
      CongruentSum(a, h1 + ToInt(i * h2), ToInt(i * h2), i * h2, h1, m);
    }
    var rem := IntRem(a, m);
    assert (rem - a) % m == 0 by { RemCongruent(a, m); }
    CongruentTrans(rem, a, x, m);
    if rem < 0 {
      assert Bucket(h1, h2, i, m) == -rem;
      CongruentNeg(rem, x, m);
    }
  }

  /** Wrapping to 32 bits changes a value by a multiple of 2^32, hence of every 2^k with k <= 32. */
  lemma WrapCongruent(x: int, k: nat)
    requires k <= 32
    ensures (ToInt(x) - x) % Pow2(k) == 0
  {
    Pow2To32();
    Pow2Add(k, 32 - k);
    var p, q := Pow2(k), Pow2(32 - k);
    var c := if x % TWO_32 < TWO_31 then -(x / TWO_32) else -(x / TWO_32) - 1;
    var d := ToInt(x) - x;
    assert d == TWO_32 * c;
    assert TWO_32 * c == p * (q * c) by {
      assert TWO_32 == p * q;
      MulAssoc(p, q, c);
    }
    DivModUnique(d, p, q * c, 0);
  }

  lemma MulAssoc(a: int, b: int, c: int)
    ensures (a * b) * c == a * (b * c)
  {
  }

  /** The truncated remainder differs from its dividend by a multiple of the divisor. */
  lemma RemCongruent(a: int, m: int)
    requires m > 0
    ensures (IntRem(a, m) - a) % m == 0
  {
    if a >= 0 {
      DivModUnique(a % m - a, m, -(a / m), 0);
    } else {
      var b := -a;
      DivModUnique(-(b % m) - a, m, b / m, 0);
    }
  }

  lemma CongruentSum(a: int, s: int, t: int, t0: int, h: int, m: int)
    requires m > 0 && s == h + t
    requires (t - t0) % m == 0 && (a - s) % m == 0
    ensures (a - (h + t0)) % m == 0
  {
    var p := (t - t0) / m;
    var q := (a - s) / m;
    DivModUnique(a - (h + t0), m, p + q, 0);
  }

  lemma CongruentTrans(a: int, b: int, c: int, m: int)
    requires m > 0 && (a - b) % m == 0 && (b - c) % m == 0
    ensures (a - c) % m == 0
  {
    DivModUnique(a - c, m, (a - b) / m + (b - c) / m, 0);
  }

  lemma CongruentNeg(a: int, c: int, m: int)
    requires m > 0 && (a - c) % m == 0
    ensures (-a + c) % m == 0
  {
    DivModUnique(-a + c, m, -((a - c) / m), 0);
  }

  // ---------------------------------------------------------------------------
  // The filter
  // ---------------------------------------------------------------------------

  /** The fields of a `SlicedBloomFilter`; `bits` is the set of indices of its set bits. */
  datatype Sliced = Sliced(capacity: int, slicesCount: int, bitsPerSlice: int, bits: set<int>, count: int)

  /**
   * A filter the constructors can build: a non-negative number of slices of positive width, a
   * bit array whose indices fit in an int, only indices inside it set, and a count that never
   * exceeded the capacity (a filter built with capacity <= 0 is full and stays empty).
   */
  predicate Valid(f: Sliced) {
    && IsInt(f.capacity) && IsInt(f.slicesCount) && IsInt(f.bitsPerSlice)
    && 0 <= f.slicesCount && 1 <= f.bitsPerSlice
    && f.slicesCount * f.bitsPerSlice <= INT_MAX
    && (forall b :: b in f.bits ==> 0 <= b < f.slicesCount * f.bitsPerSlice)
    && 0 <= f.count && (f.count <= f.capacity || f.count == 0)
  }

  /** `isFull()`. */
  predicate IsFull(f: Sliced) { f.count >= f.capacity }

  /** The buckets of an element: one per slice, each inside the slice width. */
  function Buckets(f: Sliced, hashes: Hasher, e: int): (r: seq<int>)
    requires Valid(f)
    ensures |r| == f.slicesCount
    ensures forall j :: 0 <= j < |r| ==> 0 <= r[j] < f.bitsPerSlice
  {
    GetHashBuckets(hashes(e).0, hashes(e).1, f.slicesCount, f.bitsPerSlice)
  }

  /** The bit of slice j chosen by bucket b[j]: `offset + k` with offset j * bitsPerSlice. */
  function Slot(width: int, b: seq<int>, j: int): int
    requires 0 <= j < |b|
  {
    j * width + b[j]
  }

  /** The slot of slice j lies inside slice j, so distinct slices get distinct bits. */
  lemma SlotInSlice(f: Sliced, hashes: Hasher, e: int, j: int)
    requires Valid(f) && 0 <= j < f.slicesCount
    ensures var s := Slot(f.bitsPerSlice, Buckets(f, hashes, e), j);
            j * f.bitsPerSlice <= s < (j + 1) * f.bitsPerSlice && s < f.slicesCount * f.bitsPerSlice
  {
    var b := Buckets(f, hashes, e);
    assert (j + 1) * f.bitsPerSlice == j * f.bitsPerSlice + f.bitsPerSlice;
    MulMonotone(j + 1, f.slicesCount, f.bitsPerSlice);
  }

  lemma MulMonotone(a: int, b: int, c: int)
    requires a <= b && c >= 0
    ensures a * c <= b * c
  {
    MulNonneg(b - a, c);
  }

  /** The bits an element sets: one per slice. */
  function Marks(f: Sliced, hashes: Hasher, e: int): set<int>
    requires Valid(f)
  {
    var b := Buckets(f, hashes, e);
    set j | 0 <= j < |b| :: Slot(f.bitsPerSlice, b, j)
  }

  /** The loop of `contains`, from slice j on: false at the first slot that is clear. */
  function ContainsFrom(f: Sliced, b: seq<int>, j: nat): (r: bool)
    requires j <= |b|
    decreases |b| - j
    ensures r <==> forall i :: j <= i < |b| ==> Slot(f.bitsPerSlice, b, i) in f.bits
  {
    if j == |b| then true
    else if Slot(f.bitsPerSlice, b, j) !in f.bits then false
    else ContainsFrom(f, b, j + 1)
  }

  /** `contains(elt)`: true exactly when every bit the element would set is set. */
  function Contains(f: Sliced, hashes: Hasher, e: int): (r: bool)
    requires Valid(f)
    ensures r <==> Marks(f, hashes, e) <= f.bits
  {
    ContainsFrom(f, Buckets(f, hashes, e), 0)
  }

  /** Every bit an element sets lies inside the bit array. */
  lemma MarksInside(f: Sliced, hashes: Hasher, e: int)
    requires Valid(f)
    ensures forall x :: x in Marks(f, hashes, e) ==> 0 <= x < f.slicesCount * f.bitsPerSlice
  {
    var b := Buckets(f, hashes, e);
    forall x | x in Marks(f, hashes, e)
      ensures 0 <= x < f.slicesCount * f.bitsPerSlice
    {
      var j :| 0 <= j < |b| && x == Slot(f.bitsPerSlice, b, j);
      SlotInSlice(f, hashes, e, j);
    }
  }

  /** Setting bits inside the array and counting one more element below capacity keeps a filter valid. */
  lemma InsertKeepsValid(f: Sliced, marks: set<int>)
    requires Valid(f) && !IsFull(f)
    requires forall x :: x in marks ==> 0 <= x < f.slicesCount * f.bitsPerSlice
    ensures Valid(f.(bits := f.bits + marks, count := f.count + 1))
  {
  }

  /** The loop of `addWithoutCheck`, from slice j on: sets the slot of every remaining slice. */
  function SetFrom(bits: set<int>, f: Sliced, b: seq<int>, j: nat): (r: set<int>)
    requires j <= |b|
    decreases |b| - j
    ensures r == bits + set i | j <= i < |b| :: Slot(f.bitsPerSlice, b, i)
  {
    if j == |b| then bits
    else
      var r := SetFrom(bits + {Slot(f.bitsPerSlice, b, j)}, f, b, j + 1);
      assert (set i | j <= i < |b| :: Slot(f.bitsPerSlice, b, i))
          == {Slot(f.bitsPerSlice, b, j)} + set i | j + 1 <= i < |b| :: Slot(f.bitsPerSlice, b, i);
      r
  }

  /**
   * `addWithoutCheck(elt)`: a full filter throws and is left as it was; otherwise the
   * element's slot in every slice is set, no bit is cleared and the count goes up by one.
   */
  function AddWithoutCheck(f: Sliced, hashes: Hasher, e: int): (r: Result<Sliced, BloomError>)
    requires Valid(f)
    ensures r.Failure? <==> IsFull(f)
    ensures r.Failure? ==> r.error == AtCapacity
    ensures r.Success? ==>
              && Valid(r.value)
              && r.value.bits == f.bits + Marks(f, hashes, e)
              && r.value.count == f.count + 1
              && r.value.capacity == f.capacity
              && r.value.slicesCount == f.slicesCount
              && r.value.bitsPerSlice == f.bitsPerSlice
  {
    if IsFull(f) then Failure(AtCapacity)
    else
      var marks := Marks(f, hashes, e);
      var bits := SetFrom(f.bits, f, Buckets(f, hashes, e), 0);
      assert bits == f.bits + marks;
      MarksInside(f, hashes, e);
      InsertKeepsValid(f, marks);
      Success(f.(bits := bits, count := f.count + 1))
  }

  /**
   * `add(elt)`: an element already contained gives true and changes nothing; otherwise it is
   * inserted (or the filter throws because it is full) and the answer is false.
   */
  function Add(f: Sliced, hashes: Hasher, e: int): (r: (Sliced, Result<bool, BloomError>))
    requires Valid(f)
    ensures Valid(r.0)
    ensures r.1 == Success(true) <==> Contains(f, hashes, e)
    ensures Contains(f, hashes, e) ==> r.0 == f
    ensures r.1.Failure? <==> !Contains(f, hashes, e) && IsFull(f)
    ensures r.1.Failure? ==> r.0 == f && r.1.error == AtCapacity
    ensures r.1 == Success(false) ==> r.0 == AddWithoutCheck(f, hashes, e).value
  {
    if Contains(f, hashes, e) then (f, Success(true))
    else
      match AddWithoutCheck(f, hashes, e)
      case Failure(err) => (f, Failure(err))
      case Success(f') => (f', Success(false))
  }

  /**
   * `size()`: the number of insertions, duplicates included. It never exceeds a positive capacity,
   * and `isFull()` holds exactly when it reaches it.
   */
  function Size(f: Sliced): (n: int)
    ensures Valid(f) ==> 0 <= n
    ensures Valid(f) && f.capacity > 0 ==> n <= f.capacity && (IsFull(f) <==> n == f.capacity)
  {
    f.count
  }

  // ---------------------------------------------------------------------------
  // Construction
  // ---------------------------------------------------------------------------

  /** `new BitSet(slicesCount * bitsPerSlice)` and the fields of an empty filter. */
  function Allocate(capacity: int, slicesCount: int, bitsPerSlice: int): (r: Result<Sliced, BloomError>)
    requires IsInt(capacity) && IsInt(slicesCount) && IsInt(bitsPerSlice)
    ensures ToInt(slicesCount * bitsPerSlice) < 0 ==> r == Failure(NegativeArraySize)
    ensures r.Failure? ==> r.error == NegativeArraySize || r.error == UnsupportedShape
    ensures r.Success? ==> r.value == Sliced(capacity, slicesCount, bitsPerSlice, {}, 0) && Valid(r.value)
  {
    if ToInt(slicesCount * bitsPerSlice) < 0 then Failure(NegativeArraySize)
    else if !(0 <= slicesCount && 1 <= bitsPerSlice && slicesCount * bitsPerSlice <= INT_MAX) then
      Failure(UnsupportedShape)
    else Success(Sliced(capacity, slicesCount, bitsPerSlice, {}, 0))
  }

  /**
   * `SlicedBloomFilter(capacity, fpp)`: the base checks, then the rule of thumb, then a filter of
   * `mb` slices of 2^mb bits (`1 << mb`) holding `n` elements, where `mb` and `n` are the sizes
   * `computeBounds` derives in floating point.
   */
  function NewSliced(capacity: int, fpp: real, mb: int, n: int): (r: Result<Sliced, BloomError>)
    requires IsInt(capacity) && IsInt(mb) && IsInt(n)
    ensures CheckArguments(capacity, fpp).Some? ==> r == Failure(CheckArguments(capacity, fpp).value)
    ensures r == Failure(BelowRuleOfThumb) <==>
              CheckArguments(capacity, fpp).None? && (capacity as real) < 4.0 / fpp
    ensures r.Success? ==>
              && CheckArguments(capacity, fpp).None? && (capacity as real) >= 4.0 / fpp
              && r.value == Sliced(n, mb, IntShl(1, mb), {}, 0) && Valid(r.value)
  {
    match CheckArguments(capacity, fpp)
    case Some(err) => Failure(err)
    case None =>
      if (capacity as real) < 4.0 / fpp then Failure(BelowRuleOfThumb)
      else Allocate(n, mb, IntShl(1, mb))
  }

  /**
   * `SlicedBloomFilter(capacity, fpp, slicesCount)`: the base checks on the arguments, then a
   * filter of `slicesCount` slices of `1 << slicesCount` bits holding `n` elements, where `n`
   * is the capacity derived in floating point.
   */
  function NewSlicedWithCount(capacity: int, fpp: real, slicesCount: int, n: int): (r: Result<Sliced, BloomError>)
    requires IsInt(capacity) && IsInt(slicesCount) && IsInt(n)
    ensures CheckArguments(capacity, fpp).Some? ==> r == Failure(CheckArguments(capacity, fpp).value)
    ensures r.Success? ==>
              && CheckArguments(capacity, fpp).None?
              && r.value == Sliced(n, slicesCount, IntShl(1, slicesCount), {}, 0) && Valid(r.value)
  {
    match CheckArguments(capacity, fpp)
    case Some(err) => Failure(err)
    case None => Allocate(n, slicesCount, IntShl(1, slicesCount))
  }

  /**
   * With `1 << s` as the slice width, the bit array is refused only when its size really
   * leaves the int range: a width of Integer.MIN_VALUE (s mod 32 == 31) always gives a negative
   * size, and every other width is the power of two 2^(s mod 32).
   */
  lemma ShiftedWidth(s: int)
    requires 0 <= s <= INT_MAX
    ensures s % 32 < 31 ==> IntShl(1, s) == Pow2(s % 32)
    ensures s % 32 == 31 ==> ToInt(s * IntShl(1, s)) < 0
    ensures Allocate(0, s, IntShl(1, s)).Failure? <==> !(0 <= s * IntShl(1, s) <= INT_MAX)
  {
    Pow2To31();
    Pow2To32();
    var k := s % 32;
    if k < 31 {
      Pow2Monotone(k, 30);
      Pow2Monotone(30, 31);
      assert Pow2(31) == 2 * Pow2(30);
      assert IntShl(1, s) == Pow2(k);
      MulNonneg(s, Pow2(k));
      if s * Pow2(k) > INT_MAX && ToInt(s * Pow2(k)) >= 0 {
        assert Allocate(0, s, IntShl(1, s)) == Failure(UnsupportedShape);
      }
    } else {
      assert Pow2(31) == TWO_31;
      assert IntShl(1, s) == ToInt(TWO_31) == INT_MIN;
      var t := s / 2;
      assert s == 2 * t + 1;
      DivModUnique(s * INT_MIN, TWO_32, -t - 1, TWO_31);
    }
  }

  // ---------------------------------------------------------------------------
  // What insertion guarantees
  // ---------------------------------------------------------------------------

  /** An element that was inserted is reported present: a Bloom filter has no false negatives. */
  lemma AddedIsContained(f: Sliced, hashes: Hasher, e: int)
    requires Valid(f) && AddWithoutCheck(f, hashes, e).Success?
    ensures Contains(AddWithoutCheck(f, hashes, e).value, hashes, e)
  {
    var g := AddWithoutCheck(f, hashes, e).value;
    assert Buckets(g, hashes, e) == Buckets(f, hashes, e);
  }

  /** Setting more bits in a filter of the same shape keeps every element it contained. */
  lemma ContainsMonotone(f: Sliced, g: Sliced, hashes: Hasher, e: int)
    requires Valid(f) && Valid(g) && f.bits <= g.bits
    requires f.slicesCount == g.slicesCount && f.bitsPerSlice == g.bitsPerSlice
    requires Contains(f, hashes, e)
    ensures Contains(g, hashes, e)
  {
    assert Buckets(g, hashes, e) == Buckets(f, hashes, e);
  }

  /** Whatever `add` does, an element that was contained stays contained. */
  lemma AddKeepsContained(f: Sliced, hashes: Hasher, e: int, x: int)
    requires Valid(f) && Contains(f, hashes, x)
    ensures Contains(Add(f, hashes, e).0, hashes, x)
  {
    var g := Add(f, hashes, e).0;
    if g != f {
      ContainsMonotone(f, g, hashes, x);
    }
  }

  /** After a successful `add`, the element is contained, whatever the answer was. */
  lemma AddContains(f: Sliced, hashes: Hasher, e: int)
    requires Valid(f) && Add(f, hashes, e).1.Success?
    ensures Contains(Add(f, hashes, e).0, hashes, e)
  {
    if !Contains(f, hashes, e) {
      AddedIsContained(f, hashes, e);
    }
  }

  /**
   * `addWithoutCheck` of an element the filter already contains sets no new bit but still
   * counts one more element, so `size()` overcounts duplicates.
   */
  lemma DuplicateCounted(f: Sliced, hashes: Hasher, e: int)
    requires Valid(f) && Contains(f, hashes, e) && !IsFull(f)
    ensures AddWithoutCheck(f, hashes, e).Success?
    ensures AddWithoutCheck(f, hashes, e).value.bits == f.bits
    ensures Size(AddWithoutCheck(f, hashes, e).value) == Size(f) + 1
  {
  }
}

=== FILE: worker_id_strategy.dfy ===
/**
 * The default worker-id allocator (`DefaultWorkerIdStrategy`).
 *
 * A host claims a worker id by locking a file named `<ip>.<user>.lock.<4 digits>` in a
 * shared directory. The directory is a sequence of file names in listing order; the
 * held locks map a file name to the strategy that holds it. The coordinator's replies
 * (`/sync`, `/inc`) and the random draws are inputs.
 */
module WorkerIdStrategy {
  import opened Wrappers
  import opened JavaBits
  import opened JavaText

  /** `maxWorkerId = -1L ^ (-1L << 10)`. */
  const MAX_WORKER_ID: int := 1023

  lemma MaxWorkerIdValue()
    ensures LongXor(-1, LongShl(-1, 10)) == MAX_WORKER_ID
  {
    LowMaskOfOnes(10);
    Pow2Small();
  }

  /** `Ip.ip`, `user.name` and `Ip.lip` of the running process. */
  datatype Host = Host(ip: string, userName: string, lip: int)

  /** `ipudotlock`: the name prefix of this host's lock files. */
  function LockPrefix(h: Host): string {
    h.ip + "." + h.userName + ".lock."
  }

  /** The lock file `checkAvail(wid)` creates: the prefix followed by `String.format("%04d", wid)`. */
  function LockName(h: Host, wid: int): (name: string)
    ensures |name| >= |LockPrefix(h)| + 4 && name[..|LockPrefix(h)|] == LockPrefix(h)
    ensures wid >= 0 ==> AllDigits(name[|LockPrefix(h)|..]) && ValueOf(name[|LockPrefix(h)|..]) == wid
  {
    var name := LockPrefix(h) + FormatZeroPadded(wid, 4);
    assert name[|LockPrefix(h)|..] == FormatZeroPadded(wid, 4);
    name
  }

  /** A name the scan accepts: it starts with the prefix and exactly four digits follow. */
  predicate Recognised(h: Host, name: string) {
    var p := LockPrefix(h);
    |name| == |p| + 4 && name[..|p|] == p && AllDigits(name[|p|..])
  }

  /** `Long.parseLong` of the four digits after the prefix. */
  function WorkerIdOfName(h: Host, name: string): (wid: int)
    requires Recognised(h, name)
    ensures 0 <= wid <= 9999
  {
    var suffix := name[|LockPrefix(h)|..];
    ValueOfBound(suffix);
    assert Pow10(4) == 10000;
    ValueOf(suffix)
  }

  /** The file created for `wid` is recognised exactly when `wid` has four digits, and names `wid`. */
  lemma LockNameRecognised(h: Host, wid: int)
    ensures Recognised(h, LockName(h, wid)) <==> 0 <= wid <= 9999
    ensures 0 <= wid <= 9999 ==> WorkerIdOfName(h, LockName(h, wid)) == wid
  {
    var p, f := LockPrefix(h), FormatZeroPadded(wid, 4);
    assert LockName(h, wid)[..|p|] == p && LockName(h, wid)[|p|..] == f;
    FourDigitsExactly(wid);
    if 0 <= wid <= 9999 {
      PaddedValue(wid, 4);
    }
  }

  /** Every recognised name is the file of the id it parses to, so distinct files carry distinct ids. */
  lemma RecognisedIsLockName(h: Host, name: string)
    requires Recognised(h, name)
    ensures name == LockName(h, WorkerIdOfName(h, name))
  {
    var p := LockPrefix(h);
    FourDigitsCanonical(name[|p|..]);
    assert name == p + name[|p|..];
  }

  lemma WorkerIdOfNameInjective(h: Host, n1: string, n2: string)
    requires Recognised(h, n1) && Recognised(h, n2) && n1 != n2
    ensures WorkerIdOfName(h, n1) != WorkerIdOfName(h, n2)
  {
    RecognisedIsLockName(h, n1);
    RecognisedIsLockName(h, n2);
  }

  // ---------------------------------------------------------------------------
  // The lock directory
  // ---------------------------------------------------------------------------

  /** The directory listing, in listing order, and who holds a lock on which file. */
  datatype Env = Env(files: seq<string>, locks: map<string, nat>)

  /** `File.createNewFile`: creates the file when it does not exist yet. */
  function CreateNewFile(env: Env, name: string): (r: Env)
    ensures name in r.files && r.locks == env.locks
    ensures r.files == env.files || r.files == env.files + [name]
    ensures name in env.files ==> r == env
  {
    if name in env.files then env else env.(files := env.files + [name])
  }

  /** Locks held in `env` are still held, by the same owner, in `env'`. */
  predicate KeepsLocks(env: Env, env': Env) {
    forall n :: n in env.locks ==> n in env'.locks && env'.locks[n] == env.locks[n]
  }

  /** Files are only ever created, never removed or reordered. */
  predicate KeepsFiles(env: Env, env': Env) {
    |env.files| <= |env'.files| && env'.files[..|env.files|] == env.files
  }

  /** One strategy object: `workerId`, the `fileLock` field (by file name) and `inited`. */
  datatype Strategy = Strategy(owner: nat, host: Host, workerId: int, lock: Option<string>, inited: bool)

  function NewStrategy(owner: nat, host: Host): (s: Strategy)
    ensures s.owner == owner && s.host == host && !s.inited && s.lock.None?
  {
    Strategy(owner, host, 0, None, false)
  }

  /** A file the scan can take: recognised and not locked by anyone. */
  predicate Free(h: Host, env: Env, name: string) {
    Recognised(h, name) && name !in env.locks
  }

  /** The index of the first free file at or after `i` in listing order. */
  function FirstFree(h: Host, env: Env, i: nat): (r: Option<nat>)
    requires i <= |env.files|
    ensures r.Some? ==> i <= r.value < |env.files| && Free(h, env, env.files[r.value])
    ensures r.Some? ==> forall j :: i <= j < r.value ==> !Free(h, env, env.files[j])
    ensures r.None? <==> forall j :: i <= j < |env.files| ==> !Free(h, env, env.files[j])
    decreases |env.files| - i
  {
    if i == |env.files| then None
    else if Free(h, env, env.files[i]) then Some(i)
    else FirstFree(h, env, i + 1)
  }

  /** The outcome of one allocation step: the id found (-1 for none) and the new state. */
  datatype Scan = Scan(workerId: int, strategy: Strategy, env: Env)

  /**
   * What every allocation step from (s, env) to r guarantees: only the `fileLock` field of the
   * strategy may change; files and other locks are kept; a non-negative id is backed by a lock
   * this strategy now holds on a recognised file naming that id; a miss (-1) takes no lock.
   */
  predicate Sound(s: Strategy, env: Env, r: Scan) {
    && r.strategy == s.(lock := r.strategy.lock)
    && KeepsLocks(env, r.env) && KeepsFiles(env, r.env)
    && (forall n :: n in r.env.locks && n !in env.locks ==> r.env.locks[n] == s.owner)
    && (r.workerId < 0 ==> r.workerId == -1 && r.env.locks == env.locks && r.strategy == s)
    && (r.workerId >= 0 ==> Holds(r))
  }

  /** The strategy holds a lock on a recognised file whose id is the one returned. */
  predicate Holds(r: Scan) {
    && r.strategy.lock.Some?
    && var name := r.strategy.lock.value;
    && Recognised(r.strategy.host, name) && name in r.env.files
    && name in r.env.locks && r.env.locks[name] == r.strategy.owner
    && r.workerId == WorkerIdOfName(r.strategy.host, name)
  }

  /** A miss followed by another step is as sound as the second step. */
  lemma SoundAfterMiss(s: Strategy, env: Env, r1: Scan, r2: Scan)
    requires Sound(s, env, r1) && r1.workerId < 0 && Sound(r1.strategy, r1.env, r2)
    ensures Sound(s, env, r2)
  {
  }

  /** Creating files before a step keeps it sound. */
  lemma SoundAfterCreate(s: Strategy, env: Env, env': Env, r: Scan)
    requires KeepsFiles(env, env') && env'.locks == env.locks && Sound(s, env', r)
    ensures Sound(s, env, r)
  {
    assert r.env.files[..|env'.files|][..|env.files|] == r.env.files[..|env.files|];
  }

  /**
   * `findAvailWorkerId`: lock the first recognised file whose lock succeeds and return
   * its id; a failed lock is dropped and the scan continues; -1 when nothing succeeds.
   */
  function FindAvail(s: Strategy, env: Env): (r: Scan)
    ensures r.workerId >= 0 <==> exists j :: 0 <= j < |env.files| && Free(s.host, env, env.files[j])
    ensures r.workerId < 0 ==> r == Scan(-1, s, env)
    ensures Sound(s, env, r)
    ensures r.workerId >= 0 ==>
              && r.strategy == s.(lock := r.strategy.lock) && r.strategy.lock.Some?
              && var name := r.strategy.lock.value;
              && Free(s.host, env, name) && name in env.files
              && r.workerId == WorkerIdOfName(s.host, name)
              && r.env == env.(locks := env.locks[name := s.owner])
  {
    match FirstFree(s.host, env, 0)
    case None => Scan(-1, s, env)
    case Some(k) =>
      var name := env.files[k];
      Scan(WorkerIdOfName(s.host, name), s.(lock := Some(name)), env.(locks := env.locks[name := s.owner]))
  }

  /** The scan takes the first free file in listing order. */
  lemma FindAvailTakesFirst(s: Strategy, env: Env, k: nat)
    requires k < |env.files| && Free(s.host, env, env.files[k])
    requires forall j :: 0 <= j < k ==> !Free(s.host, env, env.files[j])
    ensures FindAvail(s, env).workerId == WorkerIdOfName(s.host, env.files[k])
    ensures FindAvail(s, env).strategy.lock == Some(env.files[k])
  {
  }

  /** The file created for a four-digit id nobody has locked is a candidate for the scan. */
  lemma CreatedIsFree(h: Host, env: Env, wid: int)
    requires 0 <= wid <= 9999 && LockName(h, wid) !in env.locks
    ensures exists j :: 0 <= j < |CreateNewFile(env, LockName(h, wid)).files|
                        && Free(h, CreateNewFile(env, LockName(h, wid)), CreateNewFile(env, LockName(h, wid)).files[j])
  {
    var env' := CreateNewFile(env, LockName(h, wid));
    LockNameRecognised(h, wid);
    var j :| 0 <= j < |env'.files| && env'.files[j] == LockName(h, wid);
    assert Free(h, env', env'.files[j]);
  }

  /**
   * `checkAvail(wid)`: create the file for `wid`, then scan. The id returned is the first
   * free file's, which need not be `wid`.
   */
  function CheckAvail(s: Strategy, env: Env, wid: int): (r: Scan)
    ensures r == FindAvail(s, CreateNewFile(env, LockName(s.host, wid)))
    ensures Sound(s, env, r)
    ensures 0 <= wid <= 9999 && LockName(s.host, wid) !in env.locks ==> r.workerId >= 0
  {
    var env' := CreateNewFile(env, LockName(s.host, wid));
    var r := FindAvail(s, env');
    SoundAfterCreate(s, env, env', r);
    if 0 <= wid <= 9999 && LockName(s.host, wid) !in env.locks then CreatedIsFree(s.host, env, wid); r else r
  }

  // ---------------------------------------------------------------------------
  // The tiers of init
  // ---------------------------------------------------------------------------

  /** What `init` can throw: NumberFormatException from the `/inc` reply, or "the world may be ended". */
  datatype InitError = NumberFormat(reply: string) | WorldEnded

  /** `increaseWithWorkerIdServer`: a null or blank reply gives -1; otherwise the parsed reply, unchecked, goes to `checkAvail`. */
  function IncreaseWithWorkerIdServer(s: Strategy, env: Env, reply: Option<string>): (r: Result<Scan, InitError>)
    ensures (reply.None? || IsBlank(reply.value)) ==> r == Success(Scan(-1, s, env))
    ensures r.Failure? <==> reply.Some? && !IsBlank(reply.value) && ParseLong(reply.value).None?
    ensures r.Failure? ==> r.error == NumberFormat(reply.value)
    ensures r.Success? ==> Sound(s, env, r.value)
    ensures reply.Some? && !IsBlank(reply.value) && ParseLong(reply.value).Some? ==>
              r == Success(CheckAvail(s, env, ParseLong(reply.value).value))
  {
    if reply.None? || IsBlank(reply.value) then Success(Scan(-1, s, env))
    else
      match ParseLong(reply.value)
      case None => Failure(NumberFormat(reply.value))
      case Some(lid) => Success(CheckAvail(s, env, lid))
  }

  /** `lip & maxWorkerId`: the low ten bits of the host's numeric address. */
  function IpCandidate(h: Host): (wid: int)
    ensures wid == h.lip % 1024 && 0 <= wid <= MAX_WORKER_ID
  {
    LongAndLowMask(h.lip, 10);
    Pow2Small();
    LongAnd(h.lip, MAX_WORKER_ID)
  }

  /** `tryToCreateOnIp`. */
  function TryToCreateOnIp(s: Strategy, env: Env): (r: Scan)
    ensures r == CheckAvail(s, env, IpCandidate(s.host)) && Sound(s, env, r)
    ensures LockName(s.host, IpCandidate(s.host)) !in env.locks ==> r.workerId >= 0
  {
    CheckAvail(s, env, IpCandidate(s.host))
  }

  /** Draws of `random.nextInt(maxWorkerId)`: enough for every attempt, each in [0, maxWorkerId). */
  predicate ValidDraws(draws: seq<int>) {
    |draws| >= MAX_WORKER_ID && forall i :: 0 <= i < |draws| ==> 0 <= draws[i] < MAX_WORKER_ID
  }

  /** The candidate of one random attempt: `lip & draw`. */
  function RandomCandidate(h: Host, draw: int): (wid: int)
    requires 0 <= draw < MAX_WORKER_ID
    ensures 0 <= wid <= draw
  {
    LongAndBelow(h.lip, draw);
    LongAnd(h.lip, draw)
  }

  /** The random tier's result and the number of draws it used. */
  datatype RandomScan = RandomScan(scan: Scan, attempts: nat)

  /** No file in the directory is free for this host. */
  predicate NoFree(h: Host, env: Env) {
    forall j :: 0 <= j < |env.files| ==> !Free(h, env, env.files[j])
  }

  /** The lock file of random attempt `i`'s candidate is already held. */
  predicate Held(h: Host, locks: map<string, nat>, draws: seq<int>, i: nat)
    requires ValidDraws(draws) && i < |draws|
  {
    LockName(h, RandomCandidate(h, draws[i])) in locks
  }

  /**
   * Once a scan has missed, `checkAvail(wid)` succeeds exactly when the lock file of `wid` is not
   * held, and then it claims `wid` itself: the file it created is the only free one.
   */
  lemma CheckAvailAfterMiss(s: Strategy, env: Env, wid: int)
    requires NoFree(s.host, env) && 0 <= wid <= 9999
    ensures CheckAvail(s, env, wid).workerId >= 0 <==> LockName(s.host, wid) !in env.locks
    ensures CheckAvail(s, env, wid).workerId >= 0 ==> CheckAvail(s, env, wid).workerId == wid
  {
    var r := CheckAvail(s, env, wid);
    LockNameRecognised(s.host, wid);
    if r.workerId >= 0 {
      var taken := r.strategy.lock.value;
      assert Free(s.host, env, taken);
      forall j | 0 <= j < |env.files|
        ensures env.files[j] != taken
      {
      }
      assert taken == LockName(s.host, wid);
    }
  }

  /** `tryToRandomOnIp` from attempt `t` on: stop at the first success or after maxWorkerId attempts. */
  function RandomFrom(s: Strategy, env: Env, draws: seq<int>, t: nat): (r: RandomScan)
    requires ValidDraws(draws) && t <= MAX_WORKER_ID
    ensures t <= r.attempts <= MAX_WORKER_ID
    ensures t < MAX_WORKER_ID ==> t < r.attempts
    ensures r.scan.workerId < 0 <==> r.attempts == MAX_WORKER_ID && r.scan.workerId == -1
    ensures Sound(s, env, r.scan)
    ensures t < MAX_WORKER_ID && CheckAvail(s, env, RandomCandidate(s.host, draws[t])).workerId >= 0 ==>
              r == RandomScan(CheckAvail(s, env, RandomCandidate(s.host, draws[t])), t + 1)
    decreases MAX_WORKER_ID - t
  {
    if t == MAX_WORKER_ID then RandomScan(Scan(-1, s, env), t)
    else
      var r := CheckAvail(s, env, RandomCandidate(s.host, draws[t]));
      if r.workerId >= 0 then RandomScan(r, t + 1)
      else
        var rest := RandomFrom(r.strategy, r.env, draws, t + 1);
        SoundAfterMiss(s, env, r, rest.scan);
        rest
  }

  /** The first random attempt from `t` on whose candidate's lock is not held, or maxWorkerId. */
  function FirstUnheld(h: Host, locks: map<string, nat>, draws: seq<int>, t: nat): (r: nat)
    requires ValidDraws(draws) && t <= MAX_WORKER_ID
    ensures t <= r <= MAX_WORKER_ID
    ensures forall i :: t <= i < r ==> Held(h, locks, draws, i)
    ensures r < MAX_WORKER_ID ==> !Held(h, locks, draws, r)
    decreases MAX_WORKER_ID - t
  {
    if t == MAX_WORKER_ID then t
    else if Held(h, locks, draws, t) then FirstUnheld(h, locks, draws, t + 1)
    else t
  }

  /**
   * One attempt of the random tier: it either succeeds and ends the tier, or misses on a held
   * candidate, leaving the locks as they were and the directory with nothing free.
   */
  lemma RandomAttempt(s: Strategy, env: Env, draws: seq<int>, t: nat) returns (miss: bool, env': Env)
    requires ValidDraws(draws) && t < MAX_WORKER_ID
    ensures !miss ==> RandomFrom(s, env, draws, t).attempts == t + 1 && RandomFrom(s, env, draws, t).scan.workerId >= 0
    ensures !miss && NoFree(s.host, env) ==>
              && RandomFrom(s, env, draws, t).scan.workerId == RandomCandidate(s.host, draws[t])
              && !Held(s.host, env.locks, draws, t)
    ensures miss ==> && Held(s.host, env.locks, draws, t) && env'.locks == env.locks && NoFree(s.host, env')
                     && RandomFrom(s, env, draws, t) == RandomFrom(s, env', draws, t + 1)
  {
    var c := RandomCandidate(s.host, draws[t]);
    var r := CheckAvail(s, env, c);
    miss, env' := r.workerId < 0, r.env;
    if NoFree(s.host, env) {
      CheckAvailAfterMiss(s, env, c);
    }
  }

  /**
   * Every attempt of the random tier before its last hit a held candidate, so the tier never
   * runs past the first candidate that is free; a failure means every candidate was held.
   */
  lemma {:induction false} RandomFromHeld(s: Strategy, env: Env, draws: seq<int>, t: nat)
    requires ValidDraws(draws) && t <= MAX_WORKER_ID
    ensures RandomFrom(s, env, draws, t).attempts <= FirstUnheld(s.host, env.locks, draws, t) + 1
    ensures RandomFrom(s, env, draws, t).scan.workerId < 0 ==> FirstUnheld(s.host, env.locks, draws, t) == MAX_WORKER_ID
    decreases MAX_WORKER_ID - t
  {
    if t < MAX_WORKER_ID {
      var miss, env' := RandomAttempt(s, env, draws, t);
      if miss {
        RandomFromHeld(s, env', draws, t + 1);
      }
    }
  }

  /**
   * Once the directory has nothing free, the random tier claims the candidate of the first
   * attempt whose lock is not held, and fails exactly when every candidate's lock is held.
   */
  lemma {:induction false} RandomFromClaims(s: Strategy, env: Env, draws: seq<int>, t: nat)
    requires ValidDraws(draws) && t <= MAX_WORKER_ID && NoFree(s.host, env)
    ensures var k := FirstUnheld(s.host, env.locks, draws, t);
            k == MAX_WORKER_ID <==> RandomFrom(s, env, draws, t).scan.workerId < 0
    ensures var k := FirstUnheld(s.host, env.locks, draws, t);
            k < MAX_WORKER_ID ==>
              && RandomFrom(s, env, draws, t).attempts == k + 1
              && RandomFrom(s, env, draws, t).scan.workerId == RandomCandidate(s.host, draws[k])
    decreases MAX_WORKER_ID - t
  {
    if t < MAX_WORKER_ID {
      var miss, env' := RandomAttempt(s, env, draws, t);
      if miss {
        RandomFromClaims(s, env', draws, t + 1);
      }
    }
  }

  function TryToRandomOnIp(s: Strategy, env: Env, draws: seq<int>): (r: RandomScan)
    requires ValidDraws(draws)
    ensures 1 <= r.attempts <= MAX_WORKER_ID
    ensures r.scan.workerId < 0 ==> r.attempts == MAX_WORKER_ID
    ensures Sound(s, env, r.scan)
    ensures CheckAvail(s, env, RandomCandidate(s.host, draws[0])).workerId >= 0 ==>
              r == RandomScan(CheckAvail(s, env, RandomCandidate(s.host, draws[0])), 1)
    ensures r.attempts <= FirstUnheld(s.host, env.locks, draws, 0) + 1
    ensures r.scan.workerId < 0 ==> FirstUnheld(s.host, env.locks, draws, 0) == MAX_WORKER_ID
    ensures NoFree(s.host, env) ==>
              (r.scan.workerId < 0 <==> FirstUnheld(s.host, env.locks, draws, 0) == MAX_WORKER_ID)
    ensures NoFree(s.host, env) && r.scan.workerId >= 0 ==>
              && r.attempts == FirstUnheld(s.host, env.locks, draws, 0) + 1
              && r.scan.workerId == RandomCandidate(s.host, draws[r.attempts - 1])
  {
    RandomFromHeld(s, env, draws, 0);
    if NoFree(s.host, env) then
      RandomFromClaims(s, env, draws, 0);
      RandomFrom(s, env, draws, 0)
    else
      RandomFrom(s, env, draws, 0)
  }

  /** Creates `prefix + piece` for every piece, in order. */
  function CreateAll(env: Env, prefix: string, pieces: seq<string>): (r: Env)
    ensures KeepsFiles(env, r) && r.locks == env.locks
    ensures forall i :: 0 <= i < |pieces| ==> prefix + pieces[i] in r.files
    decreases |pieces|
  {
    if pieces == [] then env
    else
      var e := CreateNewFile(env, prefix + pieces[0]);
      var r := CreateAll(e, prefix, pieces[1..]);
      assert forall i :: 1 <= i < |pieces| ==> pieces[i] == pieces[1..][i - 1];
      r
  }

  /** `syncWithWorkerIdServer`: create a lock file for every comma-separated id the coordinator returns. */
  function SyncWithWorkerIdServer(h: Host, env: Env, reply: Option<string>): (r: Env)
    ensures KeepsFiles(env, r) && r.locks == env.locks
    ensures (reply.None? || IsBlank(reply.value)) ==> r == env
    ensures reply.Some? && !IsBlank(reply.value) ==>
              forall piece :: piece in JavaSplit(reply.value, ',') ==> LockPrefix(h) + piece in r.files
  {
    if reply.None? || IsBlank(reply.value) then env
    else CreateAll(env, LockPrefix(h), JavaSplit(reply.value, ','))
  }

  /** The four-digit suffixes of this host's recognised files, in listing order. */
  function RecognisedSuffixes(h: Host, files: seq<string>): (r: seq<string>)
    ensures forall i :: 0 <= i < |r| ==> |r[i]| == 4 && AllDigits(r[i]) && LockPrefix(h) + r[i] in files
    decreases |files|
  {
    if files == [] then []
    else
      var rest := RecognisedSuffixes(h, files[1..]);
      if Recognised(h, files[0]) then
        var suffix := files[0][|LockPrefix(h)|..];
        assert LockPrefix(h) + suffix == files[0];
        [suffix] + rest
      else rest
  }

  /**
   * `buildWorkerIdsOfCurrentIp`: the recognised suffixes joined with commas. What the coordinator
   * receives as `ids` splits back into exactly those suffixes, in listing order.
   */
  function BuildWorkerIdsOfCurrentIp(h: Host, files: seq<string>): (r: string)
    ensures RecognisedSuffixes(h, files) == [] <==> r == ""
    ensures RecognisedSuffixes(h, files) != [] ==> JavaSplit(r, ',') == RecognisedSuffixes(h, files)
  {
    var ids := RecognisedSuffixes(h, files);
    if ids == [] then ""
    else
      forall i | 0 <= i < |ids|
        ensures ',' !in ids[i] && ids[i] != ""
      {
        assert forall c :: c in ids[i] ==> IsDigit(c);
      }
      SplitJoin(ids, ',');
      assert Join(ids, ',') != "" by {
        if |ids| > 1 {
          assert Join(ids, ',') == ids[0] + [','] + Join(ids[1..], ',');
        }
      }
      Join(ids, ',')
  }

  /** What the environment answers during one `init`: the two coordinator replies and the random draws. */
  datatype Replies = Replies(sync: Option<string>, inc: Option<string>, draws: seq<int>)

  /** The result of `init`/`initialize`: the new strategy and directory, and the exception if one was thrown. */
  datatype Allocation = Allocation(strategy: Strategy, env: Env, error: Option<InitError>)

  /**
   * What `init` guarantees relative to its starting state: owner, host and `inited` are unchanged; files and
   * existing locks are kept; new locks belong to this strategy; success means a non-negative
   * `workerId` backed by a held lock on the file that names it; failure takes no lock.
   */
  predicate AllocSound(s: Strategy, env: Env, a: Allocation) {
    && a.strategy.owner == s.owner && a.strategy.host == s.host && a.strategy.inited == s.inited
    && KeepsLocks(env, a.env) && KeepsFiles(env, a.env)
    && (forall n :: n in a.env.locks && n !in env.locks ==> a.env.locks[n] == s.owner)
    && (a.error.None? ==> a.strategy.workerId >= 0 && Holds(Scan(a.strategy.workerId, a.strategy, a.env)))
    && (a.error.Some? ==> a.env.locks == env.locks && a.strategy.workerId == -1)
  }

  /** The allocation that records a found id in the `workerId` field. */
  function Found(r: Scan): Allocation {
    Allocation(r.strategy.(workerId := r.workerId), r.env, None)
  }

  /**
   * The last two tiers, run when the id is still negative: the IP candidate first, then random
   * candidates; "the world may be ended" only when both miss.
   */
  function FallbackTiers(r: Scan, draws: seq<int>): (a: Allocation)
    requires ValidDraws(draws)
    ensures r.workerId >= 0 ==> a == Found(r)
    ensures r.workerId < 0 ==> AllocSound(r.strategy, r.env, a)
    ensures r.workerId < 0 && TryToCreateOnIp(r.strategy, r.env).workerId >= 0 ==>
              a == Found(TryToCreateOnIp(r.strategy, r.env))
    ensures a.error.Some? ==> a.error.value == WorldEnded
    ensures a.error.Some? <==>
              && r.workerId < 0 && TryToCreateOnIp(r.strategy, r.env).workerId < 0
              && TryToRandomOnIp(r.strategy, TryToCreateOnIp(r.strategy, r.env).env, draws).scan.workerId < 0
  {
    if r.workerId >= 0 then Found(r)
    else
      var r1 := TryToCreateOnIp(r.strategy, r.env);
      if r1.workerId >= 0 then Found(r1)
      else
        var r2 := TryToRandomOnIp(r1.strategy, r1.env, draws).scan;
        SoundAfterMiss(r.strategy, r.env, r1, r2);
        if r2.workerId >= 0 then Found(r2)
        else Allocation(r2.strategy.(workerId := r2.workerId), r2.env, Some(WorldEnded))
  }

  /**
   * Entered with nothing free in the directory, the fallback tiers claim the IP candidate when its
   * lock is not held, otherwise the first random candidate whose lock is not held, and end the world
   * exactly when the IP candidate and every random candidate are held.
   */
  lemma FallbackClaims(r: Scan, draws: seq<int>)
    requires ValidDraws(draws) && r.workerId < 0 && NoFree(r.strategy.host, r.env)
    ensures var h, locks := r.strategy.host, r.env.locks;
            LockName(h, IpCandidate(h)) !in locks ==>
              FallbackTiers(r, draws).error.None? && FallbackTiers(r, draws).strategy.workerId == IpCandidate(h)
    ensures var h, locks := r.strategy.host, r.env.locks;
            var k := FirstUnheld(h, locks, draws, 0);
            LockName(h, IpCandidate(h)) in locks && k < MAX_WORKER_ID ==>
              FallbackTiers(r, draws).error.None?
              && FallbackTiers(r, draws).strategy.workerId == RandomCandidate(h, draws[k])
    ensures var h, locks := r.strategy.host, r.env.locks;
            FallbackTiers(r, draws).error == Some(WorldEnded) <==>
              LockName(h, IpCandidate(h)) in locks && FirstUnheld(h, locks, draws, 0) == MAX_WORKER_ID
  {
    var s, h := r.strategy, r.strategy.host;
    var r1 := TryToCreateOnIp(s, r.env);
    CheckAvailAfterMiss(s, r.env, IpCandidate(h));
    if r1.workerId < 0 {
      assert r1.strategy == s && r1.env.locks == r.env.locks && NoFree(h, r1.env);
    }
  }

  /**
   * `init`, tier by tier: scan; on a miss sync with the coordinator, scan again and ask `/inc`;
   * then the IP candidate; then random candidates; otherwise fail.
   */
  function Init(s: Strategy, env: Env, replies: Replies): (a: Allocation)
    requires ValidDraws(replies.draws)
    ensures AllocSound(s, env, a)
    ensures a.error.Some? ==> FindAvail(s, env).workerId < 0
  {
    var r0 := FindAvail(s, env);
    if r0.workerId >= 0 then FallbackTiers(r0, replies.draws)
    else
      var env1 := SyncWithWorkerIdServer(s.host, r0.env, replies.sync);
      var r1 := FindAvail(r0.strategy, env1);
      if r1.workerId >= 0 then
        AllocAfterCreate(s, env, env1, Found(r1));
        FallbackTiers(r1, replies.draws)
      else
        match IncreaseWithWorkerIdServer(r1.strategy, r1.env, replies.inc)
        case Failure(e) => Allocation(r1.strategy.(workerId := r1.workerId), r1.env, Some(e))
        case Success(r2) =>
          var a := FallbackTiers(r2, replies.draws);
          if r2.workerId < 0 then AllocAfterMiss(s, env1, r2, a); AllocAfterCreate(s, env, env1, a); a
          else AllocAfterCreate(s, env, env1, a); a
  }

  lemma FoundSound(s: Strategy, env: Env, r: Scan)
    requires Sound(s, env, r) && r.workerId >= 0
    ensures AllocSound(s, env, Found(r))
  {
  }

  lemma AllocAfterMiss(s: Strategy, env: Env, r: Scan, a: Allocation)
    requires Sound(s, env, r) && r.workerId < 0 && AllocSound(r.strategy, r.env, a)
    ensures AllocSound(s, env, a)
  {
  }

  lemma AllocAfterCreate(s: Strategy, env: Env, env': Env, a: Allocation)
    requires KeepsFiles(env, env') && env'.locks == env.locks && AllocSound(s, env', a)
    ensures AllocSound(s, env, a)
  {
    assert a.env.files[..|env'.files|][..|env.files|] == a.env.files[..|env.files|];
  }

  /** The local scan comes first: when it finds a free file, no reply or draw is consulted. */
  lemma InitLocalFirst(s: Strategy, env: Env, replies: Replies, k: nat)
    requires ValidDraws(replies.draws)
    requires k < |env.files| && Free(s.host, env, env.files[k])
    requires forall j :: 0 <= j < k ==> !Free(s.host, env, env.files[j])
    ensures Init(s, env, replies).error.None?
    ensures Init(s, env, replies).strategy.workerId == WorkerIdOfName(s.host, env.files[k])
    ensures Init(s, env, replies).env == env.(locks := env.locks[env.files[k] := s.owner])
  {
    FindAvailTakesFirst(s, env, k);
  }

  /**
   * After a first miss, the tiers run in order: a hit in the scan after the sync is `init`'s
   * result, and otherwise an id `/inc` claims is kept before the IP candidate is tried.
   */
  lemma InitTiers(s: Strategy, env: Env, replies: Replies)
    requires ValidDraws(replies.draws)
    ensures var env1 := SyncWithWorkerIdServer(s.host, env, replies.sync);
            var r1 := FindAvail(s, env1);
            FindAvail(s, env).workerId < 0 && r1.workerId >= 0 ==> Init(s, env, replies) == Found(r1)
    ensures var env1 := SyncWithWorkerIdServer(s.host, env, replies.sync);
            var inc := IncreaseWithWorkerIdServer(s, env1, replies.inc);
            FindAvail(s, env).workerId < 0 && FindAvail(s, env1).workerId < 0 && inc.Success? ==>
              Init(s, env, replies) == FallbackTiers(inc.value, replies.draws)
    ensures var env1 := SyncWithWorkerIdServer(s.host, env, replies.sync);
            var inc := IncreaseWithWorkerIdServer(s, env1, replies.inc);
            FindAvail(s, env).workerId < 0 && FindAvail(s, env1).workerId < 0 && inc.Success? && inc.value.workerId >= 0 ==>
              Init(s, env, replies) == Found(inc.value)
  {
  }

  /** `init` throws NumberFormatException exactly when both scans miss and `/inc` answers a non-blank non-number. */
  lemma InitNumberFormat(s: Strategy, env: Env, replies: Replies)
    requires ValidDraws(replies.draws)
    ensures Init(s, env, replies).error.Some? && Init(s, env, replies).error.value.NumberFormat? <==>
              && FindAvail(s, env).workerId < 0
              && FindAvail(s, SyncWithWorkerIdServer(s.host, env, replies.sync)).workerId < 0
              && replies.inc.Some? && !IsBlank(replies.inc.value) && ParseLong(replies.inc.value).None?
  {
  }

  /**
   * `init` throws "the world may be ended" exactly when both scans miss, `/inc` yields no usable id,
   * the IP candidate's lock is held and so is the lock of every random candidate.
   */
  lemma InitWorldEnded(s: Strategy, env: Env, replies: Replies)
    requires ValidDraws(replies.draws)
    ensures var env1 := SyncWithWorkerIdServer(s.host, env, replies.sync);
            var inc := IncreaseWithWorkerIdServer(s, env1, replies.inc);
            Init(s, env, replies).error == Some(WorldEnded) <==>
              && FindAvail(s, env).workerId < 0 && FindAvail(s, env1).workerId < 0
              && inc.Success? && inc.value.workerId < 0
              && LockName(s.host, IpCandidate(s.host)) in env.locks
              && FirstUnheld(s.host, env.locks, replies.draws, 0) == MAX_WORKER_ID
  {
    var env1 := SyncWithWorkerIdServer(s.host, env, replies.sync);
    if FindAvail(s, env).workerId < 0 && FindAvail(s, env1).workerId < 0 {
      var inc := IncreaseWithWorkerIdServer(s, env1, replies.inc);
      if inc.Success? && inc.value.workerId < 0 {
        var r2 := inc.value;
        assert r2.strategy == s && r2.env.locks == env.locks && NoFree(s.host, r2.env);
        FallbackClaims(r2, replies.draws);
      }
    }
  }

  /** `initialize`: nothing to do once initialized; `inited` is set only when `init` returns normally. */
  function Initialize(s: Strategy, env: Env, replies: Replies): (a: Allocation)
    requires ValidDraws(replies.draws)
    ensures s.inited ==> a == Allocation(s, env, None)
    ensures a.strategy.inited <==> s.inited || a.error.None?
  {
    if s.inited then Allocation(s, env, None)
    else
      var a := Init(s, env, replies);
      if a.error.None? then a.(strategy := a.strategy.(inited := true)) else a
  }

  /** `availableWorkerId`. */
  function AvailableWorkerId(s: Strategy): int {
    s.workerId
  }

  /** `release`: drop the lock this strategy holds (if it still holds it) and clear `inited`. */
  function Release(s: Strategy, env: Env): (r: (Strategy, Env))
    ensures !r.0.inited && r.0 == s.(inited := false)
    ensures r.1.files == env.files
    ensures s.lock.Some? ==> s.lock.value !in r.1.locks || r.1.locks[s.lock.value] != s.owner
    ensures forall n :: n in env.locks && env.locks[n] != s.owner ==> n in r.1.locks && r.1.locks[n] == env.locks[n]
    ensures forall n :: n in r.1.locks ==> n in env.locks && r.1.locks[n] == env.locks[n]
    ensures forall n :: n in env.locks && Some(n) != s.lock ==> n in r.1.locks
  {
    var env' :=
      if s.lock.Some? && s.lock.value in env.locks && env.locks[s.lock.value] == s.owner
      then env.(locks := env.locks - {s.lock.value})
      else env;
    (s.(inited := false), env')
  }

  // ---------------------------------------------------------------------------
  // Outcomes across strategies
  // ---------------------------------------------------------------------------

  /** Two strategies of one host, initialized one after the other in one directory, get different ids. */
  lemma TwoStrategiesDistinct(a: Strategy, b: Strategy, env: Env, ra: Replies, rb: Replies)
    requires a.owner != b.owner && a.host == b.host && !a.inited && !b.inited
    requires ValidDraws(ra.draws) && ValidDraws(rb.draws)
    ensures var A := Initialize(a, env, ra);
            var B := Initialize(b, A.env, rb);
            A.error.None? && B.error.None? ==> A.strategy.workerId != B.strategy.workerId
  {
    var A := Initialize(a, env, ra);
    var B := Initialize(b, A.env, rb);
    if A.error.None? && B.error.None? {
      var na, nb := A.strategy.lock.value, B.strategy.lock.value;
      assert A.env.locks[na] == a.owner && B.env.locks[na] == a.owner;
      assert B.env.locks[nb] == b.owner;
      WorkerIdOfNameInjective(a.host, na, nb);
    }
  }

  /** A lone unlocked `<prefix>0112` file is claimed as worker id 112. */
  lemma ClaimsExistingFile(s: Strategy, replies: Replies)
    requires !s.inited && ValidDraws(replies.draws)
    ensures var env := Env([LockPrefix(s.host) + "0112"], map[]);
            && Initialize(s, env, replies).error.None?
            && AvailableWorkerId(Initialize(s, env, replies).strategy) == 112
  {
    var env := Env([LockPrefix(s.host) + "0112"], map[]);
    var name := env.files[0];
    var p := LockPrefix(s.host);
    assert name[..|p|] == p && name[|p|..] == "0112";
    assert ValueOf("0112") == 112 by {
      assert "0112"[..3] == "011" && "011"[..2] == "01" && "01"[..1] == "0" && "0"[..0] == "";
    }
    InitLocalFirst(s, env, replies, 0);
  }

  /** `release` then `release` again is the same as one `release`. */
  lemma ReleaseIdempotent(s: Strategy, env: Env)
    ensures Release(Release(s, env).0, Release(s, env).1) == Release(s, env)
  {
  }

  /** After a successful `initialize`, `release` frees the claimed file and the next `initialize` runs `init` again. */
  lemma ReleaseFreesClaim(s: Strategy, env: Env, replies: Replies, replies': Replies)
    requires !s.inited && ValidDraws(replies.draws) && ValidDraws(replies'.draws)
    ensures var A := Initialize(s, env, replies);
            var R := Release(A.strategy, A.env);
            A.error.None? ==>
              && A.strategy.lock.value !in R.1.locks
              && Free(s.host, R.1, A.strategy.lock.value)
              && Initialize(R.0, R.1, replies') == (var I := Init(R.0, R.1, replies');
                                                    if I.error.None? then I.(strategy := I.strategy.(inited := true)) else I)
  {
  }
}

=== FILE: wrappers.dfy ===
/** Failure-carrying result types shared by every module of the model. */
module Wrappers {

  /** A value that may be absent: a Java `null`, an empty reply, a missing match. */
  datatype Option<+T> = None | Some(value: T)

  /** The outcome of an operation that either returns a value or throws. */
  datatype Result<+R, +E> = Success(value: R) | Failure(error: E)
}
